=== FILE: README.md ===
# JohnsGamePrice: a Dafny model of the request pipeline

This project models the core of JohnsGamePrice, a game-price lookup system made of several services, and proves properties of the model in Dafny.

The main part is the API gateway's request pipeline (TypeScript):

- **Validation.** The query and game-id validators, and the response-shape check.
- **Errors.** The closed error taxonomy: seven kinds with default codes, the network-failure detector, and the two status classifiers.
- **Fetch.** The fetch wrapper. It separates transport failures and timeouts from non-2xx answers.
- **ErrorHandler.** The error-to-response mapper. It turns every thrown value into exactly one status, body and header set.
- **Search.** The `/search` route:
  - page parsing and the deterministic cache key;
  - the cache-aside lookup, with one upstream call on a miss;
  - local pagination, and the write-back with a 300-second time-to-live.
- **Prices.** The `/prices` route: id validation, the upstream call, the object check and the reply envelope.
- **RedisClient.** The cache client: the URL built from the environment, the `REDIS_OFF` no-op adapter, an expiring key/value store, and the bounded connect-retry loop.

Secondary parts come from the other services:

- **WebSearch.** The web client's `searchGames`: base-URL choice, the blank-query short cut, and the checks on the answer.
- **PriceFetcher.** The price-fetcher's FastAPI endpoints: `/game-ids`, `/prices` and `/health`.
- **BackendApi.** The backend's `/search-game` and `/prices` endpoints.
- **UserCrud.** The backend's user table access, over an abstract table that enforces the schema's widths, NOT NULL and unique constraints.
- **Igdb.** The IGDB client: store-id extraction, the cover-URL rewrite, the popularity sort and the memoised access token.
- **Steam.** The Steam price parser.

Shared modules:

- **Wrappers.** `Option`/`Result`.
- **Text.** Trimming with JavaScript's and Python's whitespace sets, ASCII case mapping, decimal rendering, `parseInt`, substring search and `str.replace`.
- **Json** and **Py.** JavaScript and Python values, with their truthiness.
- **Http.** A fetch `Response`.
- **Uri.** `encodeURIComponent` and its inverse.

Every interaction with the outside world is an input:

- what a fetch settles with;
- what the cache holds, or whether the cache connection is broken;
- what an ITAD or IGDB call returned or raised;
- the clock.

Handlers return what they did (requests made, cache reads and writes) together with the reply.

## Model

| member | source | states |
|---|---|---|
| Validation.ValidateSearchQuery | api-gateway/src/utils/validation.ts:6-26 | accepted exactly when the query is a string whose trimmed length is 1 to 100, and then the trimmed text is returned; every failure is a ValidationError on field "query" whose message names the failed check (missing or falsy, not a string, blank, longer than 100) |
| Validation.ValidatedQueryIsStable | api-gateway/src/utils/validation.ts:15-25 | an accepted query, validated again, comes back unchanged |
| Validation.QueryPaddingIrrelevant | api-gateway/src/utils/validation.ts:15-23 | whitespace around a query never changes the verdict or the result, because the 100-character limit is checked after trimming |
| Validation.UuidPatternIsUuidText | api-gateway/src/utils/validation.ts:47-48 | the case-insensitive 8-4-4-4-12 hex pattern accepts exactly the 36-character strings with dashes at positions 8, 13, 18 and 23 and hex digits everywhere else |
| Validation.ValidateGameId | api-gateway/src/utils/validation.ts:31-53 | accepted exactly when the id is a string whose trimmed form has the UUID shape, and then the trimmed id is returned; every failure is a ValidationError on field "id" with the message of the failed check |
| Validation.ValidateResponseData | api-gateway/src/utils/validation.ts:58-66 | any non-null object, arrays included, is returned unchanged; when an object is expected, anything else raises a plain Error "Expected object but received <typeof>", not a ValidationError |
| Errors.DefaultCodeIdentifiesKind | services/api-gateway/src/utils/errors.ts:5-82 | the seven classes' default codes (VALIDATION_ERROR, SERVICE_UNAVAILABLE, DATA_FORMAT_ERROR, NETWORK_ERROR, AUTHENTICATION_ERROR, RATE_LIMIT_ERROR, NOT_FOUND) are pairwise distinct, so a default code identifies the class |
| Errors.IsNetworkRelatedError | services/api-gateway/src/utils/errors.ts:111-120 | true exactly when one of "timeout", "ECONNREFUSED", "ENOTFOUND", "ETIMEDOUT", "fetch failed" occurs somewhere in the message, or the name is "AbortError" |
| Errors.CreateErrorFromResponse | services/api-gateway/src/utils/errors.ts:125-159 | 401/403 give Authentication, 404 gives NotFound for the service, 429 gives RateLimit with the parsed retry-after header, 502-504 give "Service temporarily unavailable", any other status "Service error"; both ServiceUnavailable forms carry the status and service; never Validation, DataFormat or Network; default codes throughout |
| Errors.RetryAfterOfNumeral | services/api-gateway/src/utils/errors.ts:138-141 | a retry-after header holding a decimal number of seconds is read back as exactly that number |
| Errors.MapHttpStatusToError | services/api-gateway/src/utils/errors.ts:164-199 | 400 gives Validation on field "request", 401/403 Authentication, 404 NotFound on "resource", 429 RateLimit with no retryAfter, 502 DataFormat expecting "JSON", anything else ServiceUnavailable with the status and service; the message is kept and no Network error is produced |
| Errors.MapHttpStatusInvertsTable | services/api-gateway/src/utils/errors.ts:164-199 | for every kind except Network, mapping the kind's HTTP status back gives the same kind |
| Errors.CreateErrorIsUpstreamKind | services/api-gateway/src/utils/errors.ts:128 | the response classifier only yields Authentication, NotFound, RateLimit or ServiceUnavailable |
| Fetch.EffectiveHeaders | services/api-gateway/src/utils/fetchUtils.ts:20-28 | without caller headers fetch gets the JSON Accept and User-Agent defaults; with caller headers it gets exactly those, because the later `...fetchOptions` spread replaces the merged object |
| Fetch.CallerHeadersDropDefaults | services/api-gateway/src/utils/fetchUtils.ts:20-28 | caller headers that lack Accept leave the request with no Accept header at all |
| Fetch.ClassifyRejection | services/api-gateway/src/utils/fetchUtils.ts:32-46 | an AbortError becomes NetworkError "Request timeout after {timeout}ms", checked before the signature rule; another network-related Error becomes "Network error: {message}"; anything else is rethrown unchanged; every replacement is a NetworkError wrapping the original |
| Fetch.FetchWithTimeout | services/api-gateway/src/utils/fetchUtils.ts:10-47 | one request with the effective headers and the timeout (10000 ms unless given); an answer of any status resolves unchanged and a rejection is classified |
| Fetch.FetchWithErrorHandling | services/api-gateway/src/utils/fetchUtils.ts:52-64 | the same single request; an ok answer is returned, a non-ok one rejects with the error `createErrorFromResponse` builds for the service, and a rejection passes through |
| Fetch.TransportAndStatusFailuresApart | services/api-gateway/src/utils/fetchUtils.ts:35-63 | a rejection always fails with the original value or a NetworkError, while an answer fails only with an Authentication, NotFound, RateLimit or ServiceUnavailable error naming the service |
| Fetch.AbortBecomesTimeout | services/api-gateway/src/utils/fetchUtils.ts:35-38 | the timer's abort always yields the timeout NetworkError for the effective timeout |
| ErrorHandler.BaseFields | api-gateway/src/utils/errorHandler.ts:89-98 | every reply body holds `timestamp` with the ISO time of the reply; `responseTime` "{elapsed}ms" is added only when a start time was given and the elapsed time is non-zero; no other field comes from the base |
| ErrorHandler.HandleApiError | api-gateway/src/utils/errorHandler.ts:82-260 | exactly one reply, with status 400, 401, 404, 429, 502, 503 or 503 for Validation, Authentication, NotFound, RateLimit, DataFormat, ServiceUnavailable and Network, and 500 for anything else; the body always has `timestamp` and the error's code (INTERNAL_ERROR for the generic case); its `error` title is the one fixed for the kind (Validation error, Authentication failed, Resource not found, Rate limit exceeded, Bad gateway, and Service temporarily unavailable for both ServiceUnavailable and Network) and "Internal server error" for anything else; `expectedFormat` is present exactly for a DataFormat error and holds that error's expected format; only Retry-After can be set as a header |
| ErrorHandler.ReplyResponseTime | api-gateway/src/utils/errorHandler.ts:89-98 | `responseTime` is in the body exactly when the start time was given and time has passed, and then reads "{now - start}ms" |
| ErrorHandler.ReplyDetails | api-gateway/src/utils/errorHandler.ts:110-259 | `details` is the error message for Validation, Authentication, NotFound, RateLimit and ServiceUnavailable, fixed text for DataFormat and Network; a classified error's `error` title is the one fixed for its kind, and a DataFormat error's `expectedFormat` is the error's own; for an unclassified value the body holds only the base fields, "Internal server error", the fixed details and the code |
| ErrorHandler.ReplyRetryAfter | api-gateway/src/utils/errorHandler.ts:158-241 | the Retry-After header is set exactly for a RateLimit error with a truthy `retryAfter`, with the number and the body's "{n}s"; ServiceUnavailable and Network always carry `retryAfter` "30s" |
| ErrorHandler.ReplyKindFields | api-gateway/src/utils/errorHandler.ts:110-155 | `field` appears exactly for Validation, `service` exactly for ServiceUnavailable, and NotFound carries `resource` and carries `resourceId` only when the error has one |
| ErrorHandler.GenericReplyIgnoresError | api-gateway/src/utils/errorHandler.ts:244-259 | any two unclassified thrown values get the same reply, so no message or stack reaches the client |
| ErrorHandler.ReplyStatusIdentifiesKind | api-gateway/src/utils/errorHandler.ts:110-234 | two different kinds get the same status only when they are ServiceUnavailable and Network (both 503) |
| ErrorHandler.MapThenHandleStatus | api-gateway/src/utils/errorHandler.ts:101-234 | a status mapped by `mapHttpStatusToError` and then answered comes back as itself for 400, 401, 404, 429 and 502, as 401 for 403, and as 503 for every other status |
| ErrorHandler.UpstreamStatusReply | api-gateway/src/utils/errorHandler.ts:120-222 | a non-ok upstream answer reaches the client as 401, 404, 429 or 503, never as 400, 502 or 500; a 404 names the service as the resource |
| ErrorHandler.RateLimitRelaysRetryAfter | api-gateway/src/utils/errorHandler.ts:158-181 | an upstream 429 with `retry-after: n` (n > 0) is answered 429 with header `Retry-After: n` and body `retryAfter` "ns" |
| ErrorHandler.RateLimitReply | api-gateway/src/utils/errorHandler.ts:158-181 | a RateLimit error with a positive retryAfter n is answered 429 with exactly the Retry-After header n and `retryAfter` "ns" |
| ErrorHandler.TransportFailureReply | api-gateway/src/utils/errorHandler.ts:225-241 | a refused connection or a timer abort is answered 503 with the fixed network details and `retryAfter` "30s" |
| RedisClient.EnvOr | services/api-gateway/src/utils/redisClient.ts:8-9 | an unset or empty variable takes the fallback; any other value is used as it is |
| RedisClient.RedisUrl | services/api-gateway/src/utils/redisClient.ts:8-12 | the URL always ends "@{host}:6379", the host being REDIS_HOST or "localhost" |
| RedisClient.RedisUrlCredentials | services/api-gateway/src/utils/redisClient.ts:9-12 | the URL names a password ("redis://default:" prefix) exactly when REDIS_PASSWORD is set and non-empty, and then the password is the text between that prefix and the '@' |
| RedisClient.InitialStore | services/api-gateway/src/utils/redisClient.ts:3-45 | REDIS_OFF exactly "true" selects the no-op client; otherwise a real client starts with no keys and no fault |
| RedisClient.Get | services/api-gateway/src/utils/redisClient.ts:42-43 | the no-op client always answers null; a faulty connection rejects; otherwise a value is returned exactly when the key is stored and not yet expired, and it is the stored value |
| RedisClient.SetEx | services/api-gateway/src/utils/redisClient.ts:42-44 | the no-op client ignores the write; a faulty connection rejects; otherwise the write succeeds, the key holds the value with its expiry at now + ttl seconds (in milliseconds), and no other key changes |
| RedisClient.GetAfterSetEx | services/api-gateway/src/utils/redisClient.ts:14 | a value written with a time-to-live is read back before the time-to-live has elapsed and is gone afterwards |
| RedisClient.SetExIsolatesKeys | services/api-gateway/src/utils/redisClient.ts:14 | writing one key never changes what another key reads |
| RedisClient.NoOpStoreNeverHits | services/api-gateway/src/utils/redisClient.ts:40-45 | with REDIS_OFF=true every read is null and every write leaves the client as it was |
| RedisClient.ConnectWithRetry | services/api-gateway/src/utils/redisClient.ts:24-37 | the outcome is the first successful attempt from the given counter on, reached (k - retries) × 2000 ms later, or exit code 1 when every attempt up to counter 10 fails; between 1 and 11 - retries attempts are made |
| RedisClient.ConnectStopsAtFirstSuccess | services/api-gateway/src/utils/redisClient.ts:24-39 | from the initial call, when attempt k is the first to succeed the client connects at attempt k after k × 2000 ms |
| RedisClient.ConnectGivesUpAfterElevenAttempts | services/api-gateway/src/utils/redisClient.ts:21-39 | when every attempt fails the process exits with code 1 after exactly 11 attempts |
| Search.ParsedOr | services/api-gateway/src/routes/games.ts:68-69 | a parameter that does not parse as a base-10 integer, or parses as 0, takes the fallback; any other parsed value is kept |
| Search.ParsePage | services/api-gateway/src/routes/games.ts:68 | the page is never below 1 |
| Search.ParsePageSize | services/api-gateway/src/routes/games.ts:69 | the page size always lies in 1..100, so no page-size value is ever rejected |
| Search.ParsePageCases | services/api-gateway/src/routes/games.ts:68 | a positive decimal page is taken as it is; zero, negative and missing pages give page 1 |
| Search.ParsePageSizeCases | services/api-gateway/src/routes/games.ts:69 | a size in 1..100 is kept, larger ones become 100, negative ones become 1, and "0" or a missing size gives 20 |
| Search.LastColon | services/api-gateway/src/routes/games.ts:72 | the index of the last ':' lies inside the string, or is -1 |
| Search.LastColonBeforeDigits | services/api-gateway/src/routes/games.ts:72 | when only digits follow a ':', that ':' is the last one of the key |
| Search.SplitAtLastColon | services/api-gateway/src/routes/games.ts:72 | two texts of the form a:digits that are equal have equal parts |
| Search.CacheKeyShape | services/api-gateway/src/routes/games.ts:72 | the key starts with "gamesearch:" and, for a non-negative page size, what follows its last ':' is exactly that page size in decimal |
| Search.CacheKeyInjective | services/api-gateway/src/routes/games.ts:72 | two requests with different (query, page, page size) never share a cache key, even when the query itself contains ':' |
| Search.TotalPages | services/api-gateway/src/routes/games.ts:111 | the smallest page count whose pages hold all results: pages × size ≥ total, and one page fewer would not |
| Search.Paginate | services/api-gateway/src/routes/games.ts:101-103 | a page holds at most page-size results; a page that starts past the end is empty; otherwise it is the run of results from (page - 1) × size on |
| Search.PagesUpToIsPrefix | services/api-gateway/src/routes/games.ts:101-103 | pages 1..k laid end to end are the first k × size results (all of them when fewer) |
| Search.PagesPartitionList | services/api-gateway/src/routes/games.ts:101-111 | pages 1..total_pages laid end to end are exactly the result list, in order, with nothing lost or repeated |
| Search.PagesBeyondTotalAreEmpty | services/api-gateway/src/routes/games.ts:101-111 | every page after total_pages is empty |
| Search.ReadUpstreamObject | services/api-gateway/src/routes/games.ts:86-96 | the upstream body is accepted exactly when it is JSON for a non-null object, and is then used as it is; every other body becomes the "Invalid JSON response from price fetcher service" DataFormatError |
| Search.PageOfGames | services/api-gateway/src/routes/games.ts:99-103 | a missing or falsy `games` gives an empty page of total 0; a list is paginated with its length as the total; a non-empty string is sliced the same way; any other truthy value throws a TypeError |
| Search.StoreEnvelope | services/api-gateway/src/routes/games.ts:116-122 | the envelope is written for 300 seconds and, when the write succeeds, sent with status 200 and stored; a failing write leaves the cache as it was and is answered by the error mapper |
| Search.AfterMiss | services/api-gateway/src/routes/games.ts:79-122 | after a miss: the cache read, exactly one upstream request for the search URL with the default headers and a 15000 ms timeout, then at most the write-back of the same key; the cache changes only when the reply is 200 |
| Search.CacheAside | services/api-gateway/src/routes/games.ts:72-122 | the first effect is always the read of the request's cache key, there is at most one upstream request, and the cache changes only on a 200 reply after a write-back |
| Search.HandleSearch | services/api-gateway/src/routes/games.ts:63-124 | at most three effects, starting with a cache read when there are any; at most one upstream request; the cache changes only on a 200 reply |
| Search.ValidationFailsBeforeAnyEffect | services/api-gateway/src/routes/games.ts:66-83 | an invalid query is answered 400 with no cache access, no upstream request and no cache change |
| Search.CacheHitSkipsUpstream | services/api-gateway/src/routes/games.ts:73-77 | a cache hit reads the one key, makes no upstream request, leaves the cache as it was and replies 200 with the cached object plus `cached: true` |
| Search.MissFetchesOnce | services/api-gateway/src/routes/games.ts:79-83 | on a miss the upstream request is for the trimmed query with 100 results and a 15000 ms timeout, whatever page size was asked for |
| Search.CacheFailureIs500 | services/api-gateway/src/routes/games.ts:73-123 | a cache that rejects the read makes the request fail with 500 instead of going upstream |
| Search.MissGoesUpstream | services/api-gateway/src/routes/games.ts:73-83 | a valid query that misses the cache continues with the after-miss steps for its own key |
| Search.AfterMissBadBody | services/api-gateway/src/routes/games.ts:86-96 | after a miss, an ok upstream answer whose body is not a JSON object is answered 502 DATA_FORMAT_ERROR and nothing is cached |
| Search.BadUpstreamBodyIs502 | services/api-gateway/src/routes/games.ts:86-96 | on the whole route, an ok upstream answer that is not JSON, or is JSON but not an object, gives 502 DATA_FORMAT_ERROR with the cache unchanged |
| Search.AfterMissReachesWriteBack | services/api-gateway/src/routes/games.ts:98-117 | after a miss, an object answer with a `games` list reaches the write-back with the requested page of that list and its full length |
| Search.WriteBackSucceeds | services/api-gateway/src/routes/games.ts:105-119 | a write-back to a working cache replies 200 with the envelope it stores, whose `results`, `count`, `total_pages` and `query` describe the page |
| Search.AfterMissSuccess | services/api-gateway/src/routes/games.ts:98-119 | after a miss with a `games` list and a working cache, the reply is 200 and is exactly the envelope written under the key, holding the requested page, the full count and the page count |
| Search.MissWritesBackEnvelope | services/api-gateway/src/routes/games.ts:63-119 | on the whole route, a successful miss replies with exactly the envelope it caches under the request's key for 300 seconds; `results` is the requested page of `games`, `count` its length and `total_pages` its page count |
| Search.MissCachedUntilExpiry | services/api-gateway/src/routes/games.ts:73-117 | after a successful miss, the request's key reads back the reply's envelope at any time before the 300 seconds have passed |
| Search.RepeatWithinTtlHitsCache | services/api-gateway/src/routes/games.ts:73-117 | asking again within 300 seconds makes no upstream request and returns the first reply's envelope marked `cached: true` |
| Prices.FetchPrices | services/api-gateway/src/routes/games.ts:163-199 | exactly one upstream request, for "/prices?id=" plus the escaped id with a 20000 ms timeout; the reply is 200 exactly when the answer is ok and its body is JSON for a non-null object, and then it is the envelope around that object |
| Prices.HandlePrices | services/api-gateway/src/routes/games.ts:151-200 | an invalid id is answered 400 with no upstream request; a valid one makes the single request for the trimmed id; a 200 reply always wraps the upstream JSON under the validated id |
| Prices.ValidIdSentVerbatim | services/api-gateway/src/routes/games.ts:164 | a valid id is made only of hex digits and dashes, so escaping leaves it unchanged in the URL |
| Prices.PricesUrlCarriesId | services/api-gateway/src/routes/games.ts:164 | decoding the URL's query value gives back exactly the id sent, whatever its characters |
| Prices.ValidIdGoesUpstream | services/api-gateway/src/routes/games.ts:155-168 | once the id is valid, the route behaves as the upstream part for the trimmed id |
| Prices.FetchPricesRelaysObject | services/api-gateway/src/routes/games.ts:170-195 | an ok JSON-object answer is sent with 200 as `prices`, unchanged, beside `id`, with exactly the fields id, prices, timestamp and responseTime |
| Prices.ObjectAnswerRelayed | services/api-gateway/src/routes/games.ts:151-195 | on the whole route, the trimmed id and the upstream object come back with 200 and nothing else beside the timestamp and response time |
| Prices.FetchPricesBadBody | services/api-gateway/src/routes/games.ts:172-182 | an ok answer that is not JSON, or is JSON but not a non-null object, is answered 502 DATA_FORMAT_ERROR |
| Prices.NonObjectAnswerIs502 | services/api-gateway/src/routes/games.ts:151-199 | on the whole route, such an answer gives 502 DATA_FORMAT_ERROR |
| Prices.FetchPricesNotFound | services/api-gateway/src/routes/games.ts:166-168 | an upstream 404 becomes a 404 reply whose `resource` is the price-fetcher service |
| Prices.UpstreamNotFoundIs404 | services/api-gateway/src/routes/games.ts:151-199 | on the whole route, an upstream 404 for a valid id gives 404 naming the price-fetcher service |
| WebSearch.GetApiUrl | web/src/modules/core/utils/gameSearchService.ts:22-37 | outside a browser the base is "http://api-gateway:8080"; on a "localhost" page it is "http://localhost:8080"; on any other host it is empty, so the URL is relative |
| WebSearch.ResultsOrEmpty | web/src/modules/core/utils/gameSearchService.ts:69-70 | a `null` answer throws the TypeError of reading `results` off null, and nothing else throws; any other answer gives its `results` when truthy, otherwise the empty list |
| WebSearch.ReadAnswer | web/src/modules/core/utils/gameSearchService.ts:58-70 | an answer is read exactly when it is ok, has a content type containing "application/json" and a JSON body other than `null`, giving its `results` or []; otherwise the HTTP error, the "Expected JSON, got ..." error, the parser's SyntaxError or the TypeError of a `null` body, in that order |
| WebSearch.SearchGames | web/src/modules/core/utils/gameSearchService.ts:40-75 | a query that trims to nothing resolves to [] without a request; any other makes exactly one request for the query URL, a transport rejection is rethrown unchanged, and an answer settles as it is read |
| WebSearch.QuerySentAsTyped | web/src/modules/core/utils/gameSearchService.ts:45-46 | decoding the URL's query value gives back exactly what the user typed, untrimmed |
| WebSearch.ClientSkipsExactlyBlankQueries | web/src/modules/core/utils/gameSearchService.ts:42 | the client skips exactly the queries that trim to nothing, which the gateway would reject, and a non-blank query of at most 100 trimmed characters is accepted by the gateway as its trimmed form |
| WebSearch.SuccessfulSearchRelaysResults | web/src/modules/core/utils/gameSearchService.ts:58-70 | an ok JSON answer other than `null` settles with its `results`, or [] when those are missing or falsy |
| WebSearch.NullBodyRejects | web/src/modules/core/utils/gameSearchService.ts:69-70 | an ok JSON answer whose body is `null` rejects with the TypeError "Cannot read properties of null (reading 'results')" |
| WebSearch.HttpFailureMessage | web/src/modules/core/utils/gameSearchService.ts:58-60 | an answer outside 200-299 rejects with "HTTP {status}: {statusText}" |
| WebSearch.MissingContentTypeMessage | web/src/modules/core/utils/gameSearchService.ts:62-67 | an ok answer without a content type rejects with "Expected JSON, got null" before the body is read |
| WebSearch.UnparsableBodyRejects | web/src/modules/core/utils/gameSearchService.ts:69 | a JSON content type over an unparsable body rejects with the parser's SyntaxError |
| WebSearch.PaddingIsSent | web/src/modules/core/utils/gameSearchService.ts:42-46 | the blank check does not trim what is sent: surrounding spaces reach the gateway as %20 |
| PriceFetcher.ExceptChain | price-fetcher/src/main.py:71-86 | an HTTPException passes with its own status and detail; otherwise, in this order, ValueError gives 400 "Invalid input: {message}", ConnectionError 503 "Unable to connect to external service", TimeoutError 504 "Request timed out" and anything else 500 "Internal server error"; the body is always just `detail` |
| PriceFetcher.ExtractResults | price-fetcher/src/main.py:50-63 | None raises the 503 "External API unavailable" error; a list is its own results; a dict gives `data.results` (default []), and a non-dict `data` raises a plain AttributeError; any other type raises the 500 "Unexpected response format" error |
| PriceFetcher.ShapeGames | price-fetcher/src/main.py:65-69 | falsy results give the empty `games` body with the "No games found for '...'" message and count 0; sized results give the whole payload under `games` with their length as `count`; an unsized truthy value raises a plain TypeError |
| PriceFetcher.GetGameAsWritten | price-fetcher/src/main.py:83-86 | as written, a plain exception from the search reaches the app-wide handler's body instead of the handler's own 500 |
| PriceFetcher.GetGame | price-fetcher/src/main.py:36-86 | out-of-range parameters are FastAPI's 422; a blank title is 400 with no client call; otherwise one search for the stripped title and the requested count; a raised exception never produces the app-wide handler's body |
| PriceFetcher.SearchPayloadReplies | price-fetcher/src/main.py:48-69 | None gives 503, a bool, number or string gives 500 "Unexpected response format", a non-empty list comes back as `games` with its length as `count`, and an empty list gives the "No games found" body |
| PriceFetcher.DictPayloadCountsResults | price-fetcher/src/main.py:57-69 | for a dict payload, `count` is the number of `data.results` while `games` carries the whole payload back |
| PriceFetcher.SearchExceptionStatus | price-fetcher/src/main.py:71-86 | an exception from the search is answered with the HTTPException's own status, else 400, 503, 504 or 500 by its class, in that order |
| PriceFetcher.GetGameVersionsAgreeOtherwise | price-fetcher/src/main.py:41-86 | the two versions of the handler differ only when the search raises an exception outside the four named classes |
| PriceFetcher.GetGameUnboundGamesWitness | price-fetcher/src/main.py:83-86 | a search raising a RuntimeError gets the app-wide body as written and the handler's own 500 detail as intended, and the two differ |
| PriceFetcher.CountryCode | price-fetcher/src/main.py:105 | an empty country is sent as "GB"; any other is sent stripped |
| PriceFetcher.GetPrices | price-fetcher/src/main.py:88-131 | out-of-range parameters are 422; a one-character country is 400 with no client call; otherwise one price call with the ids and the country code; an exception from that call is answered by the except chain (the HTTPException itself, else 400, 503, 504 or 500 by its class); a 200 reply is exactly what the client returned, never None |
| PriceFetcher.PricesExceptionStatus | price-fetcher/src/main.py:107-131 | an exception from the price call is answered with the HTTPException's own status, else 400 for ValueError, 503 for ConnectionError, 504 for TimeoutError and the generic 500 otherwise, in that order |
| PriceFetcher.PricesPassThrough | price-fetcher/src/main.py:107-115 | None from the client gives 503; any other value is returned unchanged with 200 |
| PriceFetcher.PricesCountryDefaults | price-fetcher/src/main.py:91-105 | an empty country is asked for as "GB", while the parameter's default "US" is asked for as "US" |
| PriceFetcher.HealthCheck | price-fetcher/src/main.py:133-145 | healthy (200) exactly when the test search returns, whatever it returns; any exception gives 503 "Service unhealthy" |
| BackendApi.PerformGameSearch | backend/src/main.py:38-42 | the title "NonExistentGame" is answered 404 "Game not found" without a client call; any other title makes exactly one client search for it and returns what the client gives |
| BackendApi.SearchGame | backend/src/main.py:26-35 | a missing title is 422; a title that strips to nothing is 400; the client is called exactly when the stripped title is non-empty and not the sentinel, and then with the stripped title |
| BackendApi.GetPrices | backend/src/main.py:45-60 | a missing parameter is 422; a blank id is 400, checked before the country; a country that is not two letters after stripping and upper-casing is 400; the client is called exactly when both checks pass, with the stripped id and the normalised country |
| BackendApi.CountryAcceptedIff | backend/src/main.py:48-57 | the country check accepts exactly the values that strip to two ASCII letters, in either case |
| BackendApi.ClientGetsNormalisedValues | backend/src/main.py:47-59 | whatever reaches the client is a non-empty id with nothing left to strip and a two-upper-case-letter code |
| BackendApi.PaddedCountryNormalised | backend/src/main.py:48 | space padding around a country code is dropped before the case is changed, so only the code's own letters are kept, upper-cased |
| BackendApi.PaddedLowerCaseCountryNormalised | backend/src/main.py:47-59 | padded ids and a padded " us " are sent as the stripped id and "US" |
| BackendApi.IdCheckedBeforeCountry | backend/src/main.py:51-57 | a blank id is reported even when the country is also invalid |
| BackendApi.PaddedSentinelIsNotFound | backend/src/main.py:28-40 | the sentinel title is recognised after stripping and never reaches the client |
| BackendApi.OtherTitlesReachClient | backend/src/main.py:28-42 | any other non-blank title reaches the client stripped; what the client returns is sent with 200 and an HTTPException it raises is sent with its own status and detail |
| UserCrud.FirstIndexOf | backend/db/crud/user.py:7 | the index of the first occurrence of the character, or the length when there is none |
| UserCrud.LastIndexOf | backend/db/crud/user.py:7 | the index of the last occurrence of the character, or -1 when there is none |
| UserCrud.EmailCheckSound | backend/db/crud/user.py:7 | every email the one-pass check accepts is in the language of the email pattern |
| UserCrud.EmailCheckComplete | backend/db/crud/user.py:7 | every string in the language of the email pattern passes the one-pass check |
| UserCrud.EmailCheckMatchesPattern | backend/db/crud/user.py:7 | the one-pass check accepts exactly the language of the email pattern (an at-sign, then a dot followed only by 2 or more letters) |
| UserCrud.NormaliseIdempotent | backend/db/crud/user.py:32-35 | stripping and lower-casing twice is the same as once, so stored usernames and emails are already in normal form |
| UserCrud.CheckRow | backend/db/schemas/user.py:7-10 | a dict hash is refused first, by the driver ("can't adapt type 'dict'"); otherwise a write passes exactly when the username and email fit their 50 and 120 widths, a hash whose column value is a string longer than 128 has only spaces past the 128th character (PostgreSQL cuts such spaces off instead of refusing the value), the hash is not null, an insert's id is free and no other row holds the username or the email; the username constraint is reported before the email one, and an email violation quotes the email |
| UserCrud.ClassifyByMessage | backend/db/crud/user.py:63-71 | as written: DuplicateUsernameError exactly when the message contains "user_username_key", DuplicateEmailError exactly when it contains "user_email_key" but not the first, and otherwise "Integrity error: " followed by the message |
| UserCrud.ClassifyByConstraint | backend/db/crud/user.py:63-71 | a unique-username violation is DuplicateUsernameError and a unique-email violation is DuplicateEmailError, and nothing else is either |
| UserCrud.Classify | backend/db/crud/user.py:63-71 | every classification is a DatabaseError or one of its subclasses |
| UserCrud.CommitError | backend/db/crud/user.py:63-80 | whatever escapes is a DatabaseError; a failure that is not an integrity error is wrapped twice, with the statement's context inside the connection context |
| UserCrud.ValidateNew | backend/db/crud/user.py:28-54 | a truthy non-string username or email raises AttributeError; otherwise a row is produced exactly when the normalised username and email are valid and the hash is truthy, and it holds the normalised values and the hash as given |
| UserCrud.CreateUserWith | backend/db/crud/user.py:19-80 | a new id is returned exactly for valid input that the database accepts, and it is the next id, with the cleaned row added and its hash cut to 128 characters; every other outcome leaves the rows as they were, and the id sequence advances only for an insert that reached execution (valid input the driver can send and that fits the columns); None is returned exactly for invalid input that does not crash |
| UserCrud.CreateUser | backend/db/crud/user.py:19-80 | with the corrected classification, DuplicateUsernameError means the valid, fitting row's username is taken, and DuplicateEmailError means its username is free and its email taken |
| UserCrud.Least | backend/db/crud/user.py:92-93 | the smallest id among the matches, so the row returned is well defined |
| UserCrud.GetUserByUsername | backend/db/crud/user.py:82-99 | returns a stored row whose username is exactly the argument, with no normalisation, and None exactly when no row has it |
| UserCrud.ValidateChanges | backend/db/crud/user.py:110-128 | only the three known keys are looked at; an invalid username or email, or no known key at all, means no update; otherwise each present field is cleaned as on creation and the hash is taken as given; a non-string username or email raises AttributeError |
| UserCrud.UpdateUser | backend/db/crud/user.py:101-154 | with the corrected classification, DuplicateUsernameError means the id exists, the changes are valid and the changed row's username is held by another row; DuplicateEmailError means the same for the email with the username free |
| UserCrud.UpdateUserWith | backend/db/crud/user.py:101-154 | true only when the id exists and there are valid changes, and then exactly that row is changed, stored with its hash cut to 128 characters; a new dict hash raises the driver's error, and otherwise a change too wide for its column raises the width error, whatever the id, since both are refused before any row is looked for; any other outcome leaves the table as it was; a false answer means a missing id or no valid change; any other failure means the id exists or the change was refused that way |
| UserCrud.DeleteUser | backend/db/crud/user.py:156-178 | true exactly when the id was stored; afterwards it is gone and every other row is unchanged |
| UserCrud.CreateKeepsTableValid | backend/db/crud/user.py:56-62 | a create keeps the schema's guarantees: ids below the sequence, hashes not null, usernames and emails unique |
| UserCrud.UpdateKeepsTableValid | backend/db/crud/user.py:129-136 | an update keeps the same guarantees |
| UserCrud.DeleteKeepsTableValid | backend/db/crud/user.py:164-171 | a delete keeps the same guarantees |
| UserCrud.CreateSucceedsIff | backend/db/crud/user.py:19-62 | a new id is returned exactly when the input is valid, fits the columns and clashes with no stored username or email |
| UserCrud.CommitErrorDuplicates | backend/db/crud/user.py:63-80 | with the corrected classification, the two duplicate errors escape exactly for the username and the email constraints |
| UserCrud.CreateRaisesCommitError | backend/db/crud/user.py:56-80 | valid input always reaches the database, and a refused insert raises exactly what its failure classifies as |
| UserCrud.DuplicateUsernameIff | backend/db/crud/user.py:63-67 | DuplicateUsernameError is raised exactly when valid, fitting input has a username some stored user holds |
| UserCrud.DuplicateEmailIff | backend/db/crud/user.py:63-69 | DuplicateEmailError is raised exactly when valid, fitting input has a free username and an email some stored user holds |
| UserCrud.UsernamesUniqueUpToCase | backend/db/crud/user.py:32-33 | after one user is created, a second whose username differs only in case or padding is refused as a duplicate username |
| UserCrud.ColumnValue | backend/db/schemas/user.py:10 | what the varchar column receives: an int as its decimal text, a bool as "true" or "false", an empty list as "{}"; a string and null as they are |
| UserCrud.StoredHash | backend/db/schemas/user.py:10 | a string hash is kept whole up to 128 characters and otherwise cut to its first 128; an int, a bool or an empty list is stored as its column text; for a hash that fits, what is cut off is only spaces; null stays null |
| UserCrud.IntHashStoredAsNumeral | backend/db/schemas/user.py:10 | an int hash is stored as a numeral that reads back as the number, with a minus sign for a negative one |
| UserCrud.ChangeTooWide | backend/db/schemas/user.py:8-10 | no width error exactly when every changed value fits its column (the hash by the space rule); an error names one of the widths 50, 120 or 128, and it is the first too-wide column in the order username, email, hash |
| UserCrud.SpacePaddedHashCut | backend/db/crud/user.py:46-62 | creating a user whose hash is 128 characters followed by spaces succeeds, with the next id, and stores only the 128 characters |
| UserCrud.ChangeRefused | backend/db/crud/user.py:124-134 | a new dict hash is refused by the driver before anything else; otherwise the update is refused early exactly when a change is too wide, with that width's error; such a refusal is neither an integrity error nor a use of the sequence |
| UserCrud.OverWideChangeRaises | backend/db/crud/user.py:129-154 | an update with a change too wide for its column raises DatabaseError "Error connecting to the database or starting transaction: Error updating user: " followed by PostgreSQL's value-too-long text (or the driver's text, when the new hash is a dict), whether or not the id exists, and leaves the table as it was |
| UserCrud.DictHashRaises | backend/db/crud/user.py:56-80 | creating a user with a dict as the hash raises DatabaseError "Error connecting to the database or starting transaction: Error creating user: can't adapt type 'dict'", stores nothing and draws no id |
| UserCrud.CreatedUserFound | backend/db/crud/user.py:82-97 | a created user is found under its normalised username, with the new id and the cleaned row as stored |
| UserCrud.UpdateTrueIff | backend/db/crud/user.py:101-136 | true exactly when the id exists, the changes are valid and the changed row fits the columns and clashes with no other row |
| UserCrud.DeleteTwiceIsFalse | backend/db/crud/user.py:168-171 | deleting the same id a second time answers false |
| UserCrud.ViolationTextContainsValue | backend/db/crud/user.py:65 | a unique-violation message contains every piece of the duplicate value |
| UserCrud.EmailDuplicateMisreported | backend/db/crud/user.py:65-69 | as written, a duplicate email whose text contains "user_username_key" is classified as a duplicate username, while the constraint says email |
| UserCrud.NullHashTextQuotesUsername | backend/db/crud/user.py:137-141 | the NOT NULL message for the password hash quotes the row's username, so any text inside a username of at most 64 characters is in the message |
| UserCrud.NullHashMisreported | backend/db/crud/user.py:124-145 | setting the password hash to None on a user whose username contains "user_username_key" makes the function as written raise DuplicateUsernameError; the corrected one raises the integrity DatabaseError quoting the NOT NULL message; the function as written leaves the table unchanged |
| UserCrud.CreateReportsWrongDuplicate | backend/db/crud/user.py:56-71 | end to end, such an email with a free username makes the function as written raise DuplicateUsernameError, while the corrected one raises DuplicateEmailError |
| UserCrud.WrongDuplicateWitness | backend/db/crud/user.py:63-71 | with "ann" holding user_username_key@example.com, creating "bob" with that email raises DuplicateUsernameError as written and DuplicateEmailError as corrected |
| Igdb.StoreName | game-id-fetcher/src/igdb_client.py:87 | a category in the 16-entry table gives its store name (True counting as 1, so Steam); a list or dict category raises TypeError; anything else gives "Unknown_" followed by its text |
| Igdb.Elements | game-id-fetcher/src/igdb_client.py:84 | a list yields its items; an empty string or dict yields nothing, a non-empty one fails on `.get` of its first element, and any other value is not iterable |
| Igdb.Entry | game-id-fetcher/src/igdb_client.py:85-87 | a non-dict entry raises AttributeError; otherwise the entry gives its category's store name and its `uid`, or None when missing |
| Igdb.FailureStopsStoreIds | game-id-fetcher/src/igdb_client.py:84-88 | once an entry fails, later entries change nothing: the loop has stopped |
| Igdb.ExternalGames | game-id-fetcher/src/igdb_client.py:82 | a game that is not a dict raises AttributeError; a game without `external_games` has no entries |
| Igdb.ExtractStoreIds | game-id-fetcher/src/igdb_client.py:80-90 | the loop builds the same map as folding the entries in order, and stops with the first failing entry's exception |
| Igdb.CoverUrl | game-id-fetcher/src/igdb_client.py:107-119 | a falsy cover, or a dict cover without `url`, gives None; a returned URL is always the cover's `url` string with https added to a protocol-relative URL and every "t_thumb" replaced by "t_cover_big" |
| Igdb.StoreIdsFailIff | game-id-fetcher/src/igdb_client.py:84-88 | the store ids are computed exactly when every entry can be read |
| Igdb.StoreIdsKeys | game-id-fetcher/src/igdb_client.py:84-90 | the stores in the result are exactly those some entry names |
| Igdb.StoreIdsLastEntryWins | game-id-fetcher/src/igdb_client.py:88 | a store holds the uid of the last entry naming it: later entries overwrite earlier ones |
| Igdb.ThumbGone | game-id-fetcher/src/igdb_client.py:116 | after the rewrite no "t_thumb" is left: none survives and the replacement creates none |
| Igdb.PrefixKept | game-id-fetcher/src/igdb_client.py:112-116 | a prefix in which no "t_thumb" can start, such as "https:", is kept by the rewrite |
| Igdb.CoverUrlHasNoThumb | game-id-fetcher/src/igdb_client.py:107-117 | every cover URL the client returns is the large one: it contains no "t_thumb" |
| Igdb.CoverUrlGetsHttps | game-id-fetcher/src/igdb_client.py:111-117 | a cover URL "//rest" comes back as "https://" followed by rest with the thumbnails replaced |
| Igdb.PlainCoverUrlUnchanged | game-id-fetcher/src/igdb_client.py:111-117 | a URL that is not protocol-relative and has no "t_thumb" comes back unchanged |
| Igdb.Summarise | game-id-fetcher/src/igdb_client.py:62-71 | a summary is built only for a dict game with `id` and `name`, from its store ids and cover URL, with popularity 0 when `total_rating_count` is missing; the store ids and cover are evaluated before `game['id']` raises KeyError |
| Igdb.Summaries | game-id-fetcher/src/igdb_client.py:60-71 | on success there is one summary per game, in order, each being what summarising that game alone gives; it fails exactly when some game fails, and then with the error of the first game that fails |
| Igdb.SortGames | game-id-fetcher/src/igdb_client.py:73 | the sort fails with TypeError exactly when there are at least two games and some popularity is not a number |
| Igdb.InsertPermutes | game-id-fetcher/src/igdb_client.py:73 | inserting a game adds exactly that game |
| Igdb.InsertKeepsOrder | game-id-fetcher/src/igdb_client.py:73 | inserting a game into a list in descending popularity keeps it descending |
| Igdb.InsertKeepsTies | game-id-fetcher/src/igdb_client.py:73 | an inserted game goes after every game of the same popularity |
| Igdb.SortByScoreIsStableDescending | game-id-fetcher/src/igdb_client.py:73 | the sorted list is in descending popularity, holds the same games, and games of equal popularity keep their original order |
| Igdb.GetAccessToken | game-id-fetcher/src/igdb_client.py:92-105 | the token endpoint is asked exactly when the cached token is falsy; a truthy cached token is returned as it is; a fetched token is the answer's `access_token` and is cached; a 400-599 answer raises and leaves the cache as it was |
| Igdb.GetGameIds | game-id-fetcher/src/igdb_client.py:41-78 | a cached token is used without a token request; a failing token lookup stops before the games request; the games request carries the token and the query; a list is returned only for status 200; another 400-599 status raises and any other status gives None |
| Igdb.TokenFetchedOnce | game-id-fetcher/src/igdb_client.py:93-94 | once a truthy token is fetched, every later lookup reuses it without a request |
| Igdb.EmptyTokenFetchedAgain | game-id-fetcher/src/igdb_client.py:93-104 | an empty token is cached but is falsy, so the next lookup asks the token endpoint again |
| Igdb.GameIdsSortedByPopularity | game-id-fetcher/src/igdb_client.py:59-74 | the list returned holds one summary per game IGDB listed, most popular first, with ties in IGDB's order |
| Igdb.TiesKeepIgdbOrder | game-id-fetcher/src/igdb_client.py:73 | two games of equal popularity keep IGDB's order |
| Steam.ParsePrice | game-price-fetcher/src/fetchers/steam.py:10-24 | the loop stops at the first app data that is not a dict or qualifies: no such app data gives "Invalid response", a non-dict raises AttributeError, and a qualifying dict is decided on its `data` |
| Steam.PriceResult | game-price-fetcher/src/fetchers/steam.py:15-21 | the price result has exactly the five price fields, each the overview's value or None |
| Steam.Decide | game-price-fetcher/src/fetchers/steam.py:13-23 | deciding app data whose `data` has no truthy price overview gives the "No price info available" error; a dict overview gives its five fields; a truthy overview that is not a dict (a list, string or number) raises AttributeError at its `.get`; a `data` that is not a dict raises AttributeError |
| Steam.FirstQualifyingDecides | game-price-fetcher/src/fetchers/steam.py:11-23 | the first app data that reports success and has `data` decides the result, whatever follows it |
| Steam.NoneQualifiesIsInvalid | game-price-fetcher/src/fetchers/steam.py:11-24 | when no app data qualifies, the result is the "Invalid response" error |
| Steam.NonDictRaises | game-price-fetcher/src/fetchers/steam.py:11-12 | app data that is not a dict raises once the loop reaches it |
| Steam.ResultShapes | game-price-fetcher/src/fetchers/steam.py:10-24 | a result is one of the two error dicts or exactly the five price fields, and a price result never has an "error" key |
| Steam.ParsesFullPrice | game-price-fetcher/src/fetchers/steam.py:11-21 | a full overview (GBP, 1999, 1599, 20, "£15.99") comes back field for field |
| Steam.ParsesErrorCases | game-price-fetcher/src/fetchers/steam.py:12-24 | `data` without a price gives "No price info available"; `success` false gives "Invalid response" |
| Uri.EncodeURIComponent | web/src/modules/core/utils/gameSearchService.ts:46 | the encoded text holds only unreserved characters and '%', and text made only of unreserved characters is sent unchanged |
| Uri.EncodeConcat | web/src/modules/core/utils/gameSearchService.ts:46 | encoding works character by character: the encoding of a concatenation is the concatenation of the encodings |
| Uri.EncodedHasNoDelimiter | services/api-gateway/src/routes/games.ts:81 | the encoded query holds no '&', '=', '#', '?', '/', '+', space or ':', so it stays inside its one query parameter |
| Uri.Utf8RoundTrip | services/api-gateway/src/routes/games.ts:81 | every character's UTF-8 bytes decode back to it |
| Uri.DecodeEncode | services/api-gateway/src/routes/games.ts:81 | decoding the encoded text gives back the original text |
| Uri.EncodeInjective | services/api-gateway/src/routes/games.ts:81 | two different texts are never sent as the same parameter |

## Left out

- Logging, metrics, Swagger, CORS, the Express 404 middleware and process start-up: they do not change any reply.
- Real I/O becomes inputs:
  - fetch, the Redis server, SQLAlchemy and the database;
  - the ITAD clients and the IGDB and Twitch HTTP requests;
  - the Steam `_get_raw_data` request.
- Time becomes inputs. `Date.now()` and `new Date().toISOString()` are fields of a clock value. The abort timer is represented by the rejection it causes.
- Floating-point numbers are not modelled. JavaScript numbers are integers or NaN, and Python numbers are integers. Numbers above 2^53 and exponent notation are out of scope.
- String lengths count Unicode scalar values, not UTF-16 code units. So a 100-character limit differs from the source for text outside the Basic Multilingual Plane.
- Case mapping is ASCII only. Python's `upper()`/`lower()` on other letters (for example 'ß') is not modelled.
- FastAPI's 422 body for a missing or out-of-range query parameter is left abstract. Only its status is modelled.
- RedisClient.ConnectWithRetry: the `error` event listener and the client's behaviour while it is still connecting are not modelled. The outcome of each connection attempt is an input.
- Search.HandleSearch: a cached text that is not JSON is answered as the mapper's generic 500. The cache can only hold such text if something other than this route wrote the key.
- UserCrud.CommitError: the text SQLAlchemy adds around the driver's message in `str(e)` is not modelled. The model assumes the message format of PostgreSQL 13 and later: a `DETAIL` line quotes the duplicate value, or lists the failing row for a NOT NULL violation.
- UserCrud.FailureText: each value of a failing row is clipped to 64 characters followed by "..."; PostgreSQL clips to 64 bytes, which is the same for ASCII text.
- UserCrud.CreateUserWith: a value too wide for its column is assumed to be refused while the statement's literals are parsed, before the `id` default draws a sequence value and, for an update, before any row is looked for, because the driver interpolates the values into the SQL text.
- UserCrud.UpdateUserWith: a failure other than AttributeError no longer implies that the id exists, because an over-wide change is refused for a missing id too. When the id exists, the width rules are applied to the whole changed row, so a stored value that is already too wide would also be refused; no write of this model can store such a value.
- Reply bodies are maps, so the order of their JSON keys is not modelled.
- UserCrud.StoredHash: a non-empty list as the hash is stored as given. The driver sends it as an ARRAY, which PostgreSQL refuses for a varchar column (or the driver refuses it, when it holds a dict), with a message that depends on the element types.
- UserCrud.CheckRow: the order in which the database reports several violations is an assumption (widths, then NOT NULL, then the unique indexes in declaration order). A dict hash is refused by the driver before the database sees any value.
- UserCrud: a failure to connect or to begin a transaction is not modelled. It would be wrapped in the same "Error connecting to the database" error that CommitError produces.
- UserCrud.GetUserByUsername: when several rows match, it returns the smallest id. The unique constraint means at most one row matches in a valid table.
- Igdb.SortGames: reports TypeError whenever two or more games are sorted and some popularity is not a number. Python would also order scores that are all strings, or all lists, among themselves. IGDB's `total_rating_count` is an integer.
- Igdb.StoreIdsOf: the store map does not keep the insertion order of Python's dict.
- Igdb.GetGameIds: a request records only the token and the query body; the other headers are left out. The query text is inserted unescaped, as in the source. A response body that is not JSON is not modelled, because bodies arrive decoded.
- Steam.ParsePrice: `raw_data` is given as the sequence of its values in dictionary order. A `raw_data` that is not a dict is not modelled.
- game-price-fetcher/src/templates/price_fetcher.py only chains the fetch and the parse, and game-id-fetcher/src/main.py only wraps the client in a try/except. Neither is part of this model.
- `errorHandler.ts` imports its type guards from an `errors.js` that is not part of this model. The mapper is modelled against the taxonomy in services/api-gateway/src/utils/errors.ts.

## Findings

| source | as written | input that shows it | evidently intended | confidence | as-written member | corrected member |
|---|---|---|---|---|---|---|
| price-fetcher/src/main.py:83-86 | the last `except` logs `games`, which is unbound when `itad.search_game` itself raised, so an `UnboundLocalError` escapes to the app-wide handler | the ITAD client raising `RuntimeError("boom")` for title "portal" | `HTTPException(500, "Internal server error")`, as for every other unexpected exception | not executed | PriceFetcher.GetGameAsWritten, PriceFetcher.GetGameUnboundGamesWitness | PriceFetcher.GetGame |
| backend/db/crud/user.py:63-71 | the duplicate is classified by searching the whole driver message for "user_username_key", and the message's DETAIL line quotes the duplicate value | stored user "ann" with email user_username_key@example.com, then `create_user` for "bob" with that email | DuplicateEmailError, because the violated constraint is the email one | not executed | UserCrud.EmailDuplicateMisreported, UserCrud.WrongDuplicateWitness | UserCrud.ClassifyByConstraint, UserCrud.DuplicateEmailIff |
| backend/db/crud/user.py:137-145 | `update_user` classifies by searching the whole driver message, and a NOT NULL violation's DETAIL line lists the failing row, username included | stored user "user_username_key", then `update_user` for its id with `{"password_hash": None}` | DatabaseError("Integrity error: ..."), because no unique constraint was violated | not executed | UserCrud.NullHashMisreported, UserCrud.NullHashTextQuotesUsername | UserCrud.ClassifyByConstraint, UserCrud.UpdateUser |

=== FILE: backend_api.dfy ===
/**
  The backend service's endpoints (backend/src/main.py): `/search-game`
  with its blank-title and "NonExistentGame" checks, and `/prices` with the
  normalisation and validation of the id and the country code. The ITAD
  client is an input: what its call returned or raised. The handlers catch
  nothing, so whatever the client raises reaches FastAPI. A missing required
  query parameter is FastAPI's 422.
 */
module BackendApi {
  import opened Wrappers
  import opened Text
  import opened Py

  /** The ITAD client calls a handler made. */
  datatype ClientCall =
    | SearchGameCall(title: string)
    | GamePricesCall(gameId: string, country: string)

  datatype HandlerOutcome = HandlerOutcome(calls: seq<ClientCall>, reply: HttpReply)

  /** FastAPI's answer to a request without a required query parameter; its body is left abstract. */
  const MissingParameter := HttpReply(422, PyNone)

  /** The title that short-cuts to 404 without a client call. */
  const NonExistentTitle := "NonExistentGame"

  /** `re.match(r"^[A-Z]{2}$", country)` on a stripped string (so `$` cannot match before a final newline). */
  predicate IsCountryCode(country: string) {
    |country| == 2 && IsAsciiUpper(country[0]) && IsAsciiUpper(country[1])
  }

  /** `country.strip().upper()`. */
  function NormaliseCountry(country: string): string {
    AsciiUpper(PyStrip(country))
  }

  // ---------------------------------------------------------------------------
  // /search-game

  /** `perform_game_search(title)`: the sentinel title is answered 404, anything else goes to the client. */
  function PerformGameSearch(title: string, client: PyOutcome): (o: HandlerOutcome)
    ensures title == NonExistentTitle ==> o == HandlerOutcome([], DetailReply(404, "Game not found"))
    ensures title != NonExistentTitle ==> o.calls == [SearchGameCall(title)] && o.reply == Render(client)
  {
    if title == NonExistentTitle then HandlerOutcome([], DetailReply(404, "Game not found"))
    else HandlerOutcome([SearchGameCall(title)], Render(client))
  }

  /** `search_game(title)`: the title is stripped, then an empty one is refused. */
  function SearchGame(title: Option<string>, client: PyOutcome): (o: HandlerOutcome)
    ensures title.None? ==> o == HandlerOutcome([], MissingParameter)
    ensures title.Some? && AllSatisfy(title.value, IsPySpace) ==>
      o == HandlerOutcome([], DetailReply(400, "Title parameter cannot be empty"))
    ensures o.calls != [] <==>
      title.Some? && !AllSatisfy(title.value, IsPySpace) && PyStrip(title.value) != NonExistentTitle
    ensures o.calls != [] ==> o.calls == [SearchGameCall(PyStrip(title.value))] && o.reply == Render(client)
  {
    match title
    case None => HandlerOutcome([], MissingParameter)
    case Some(t) =>
      var stripped := PyStrip(t);
      if stripped == "" then HandlerOutcome([], DetailReply(400, "Title parameter cannot be empty"))
      else PerformGameSearch(stripped, client)
  }

  // ---------------------------------------------------------------------------
  // /prices

  /** `get_prices(game_id, country)`: both are normalised; the id is checked before the country. */
  function GetPrices(gameId: Option<string>, country: Option<string>, client: PyOutcome): (o: HandlerOutcome)
    ensures gameId.None? || country.None? ==> o == HandlerOutcome([], MissingParameter)
    ensures gameId.Some? && country.Some? && AllSatisfy(gameId.value, IsPySpace) ==>
      o == HandlerOutcome([], DetailReply(400, "game_id parameter cannot be empty"))
    ensures gameId.Some? && country.Some? && !AllSatisfy(gameId.value, IsPySpace)
            && !IsCountryCode(NormaliseCountry(country.value)) ==>
      o == HandlerOutcome([], DetailReply(400, "Country must be 2-letter code (e.g., US, GB)"))
    ensures o.calls != [] <==>
      gameId.Some? && country.Some? && !AllSatisfy(gameId.value, IsPySpace)
      && IsCountryCode(NormaliseCountry(country.value))
    ensures o.calls != [] ==>
      o.calls == [GamePricesCall(PyStrip(gameId.value), NormaliseCountry(country.value))]
      && o.reply == Render(client)
  {
    if gameId.None? || country.None? then HandlerOutcome([], MissingParameter)
    else
      var id := PyStrip(gameId.value);
      var code := NormaliseCountry(country.value);
      if id == "" then HandlerOutcome([], DetailReply(400, "game_id parameter cannot be empty"))
      else if !IsCountryCode(code) then
        HandlerOutcome([], DetailReply(400, "Country must be 2-letter code (e.g., US, GB)"))
      else HandlerOutcome([GamePricesCall(id, code)], Render(client))
  }

  // ---------------------------------------------------------------------------
  // Properties

  /** The country check accepts exactly the inputs that strip to two ASCII letters, in either case. */
  lemma CountryAcceptedIff(country: string)
    ensures IsCountryCode(NormaliseCountry(country)) <==>
      |PyStrip(country)| == 2 && IsAsciiLetter(PyStrip(country)[0]) && IsAsciiLetter(PyStrip(country)[1])
  {
  }

  /** Whatever reaches the client is normalised: a non-blank id with nothing to strip, an upper-case code. */
  lemma ClientGetsNormalisedValues(gameId: Option<string>, country: Option<string>, client: PyOutcome)
    requires GetPrices(gameId, country, client).calls != []
    ensures var call := GetPrices(gameId, country, client).calls[0];
      && |call.gameId| > 0 && PyStrip(call.gameId) == call.gameId
      && IsCountryCode(call.country)
  {
    TrimIdempotent(gameId.value, IsPySpace);
  }

  /** Padding and letter case do not matter: `" us "` is sent as `"US"`, with the stripped id. */
  lemma PaddedLowerCaseCountryNormalised(w1: string, id: string, w2: string, v1: string, v2: string, client: PyOutcome)
    requires AllSatisfy(w1, IsPySpace) && AllSatisfy(w2, IsPySpace)
    requires AllSatisfy(v1, IsPySpace) && AllSatisfy(v2, IsPySpace)
    requires !AllSatisfy(id, IsPySpace)
    ensures GetPrices(Some(w1 + id + w2), Some(v1 + "us" + v2), client) ==
      HandlerOutcome([GamePricesCall(PyStrip(id), "US")], Render(client))
  {
    var gameId, country := w1 + id + w2, v1 + "us" + v2;
    assert NormaliseCountry(country) == "US" && IsCountryCode("US") by {
      PaddedCountryNormalised(v1, "us", v2);
      assert AsciiUpper("us") == "US";
    }
    TrimIgnoresPadding(w1, id, w2, IsPySpace);
    assert PyStrip(gameId) == PyStrip(id);
    assert !AllSatisfy(gameId, IsPySpace) by {
      assert |PyStrip(gameId)| > 0;
    }
    var o := GetPrices(Some(gameId), Some(country), client);
    assert o.calls == [GamePricesCall(PyStrip(id), "US")];
    assert o.reply == Render(client);
  }

  /** Padding around a code is dropped before the case is changed: only the code's own letters are kept. */
  lemma PaddedCountryNormalised(v1: string, code: string, v2: string)
    requires AllSatisfy(v1, IsPySpace) && AllSatisfy(v2, IsPySpace)
    requires |code| > 0 && !IsPySpace(code[0]) && !IsPySpace(code[|code| - 1])
    ensures NormaliseCountry(v1 + code + v2) == AsciiUpper(code)
  {
    TrimPaddedWord(v1, code, v2, IsPySpace);
  }

  /** A blank id is reported even when the country is also wrong: the id is checked first. */
  lemma IdCheckedBeforeCountry(w: string, country: string, client: PyOutcome)
    requires AllSatisfy(w, IsPySpace) && !IsCountryCode(NormaliseCountry(country))
    ensures GetPrices(Some(w), Some(country), client).reply == DetailReply(400, "game_id parameter cannot be empty")
  {
  }

  /** The sentinel title is recognised after stripping and never reaches the client. */
  lemma PaddedSentinelIsNotFound(w1: string, w2: string, client: PyOutcome)
    requires AllSatisfy(w1, IsPySpace) && AllSatisfy(w2, IsPySpace)
    ensures SearchGame(Some(w1 + NonExistentTitle + w2), client) == HandlerOutcome([], DetailReply(404, "Game not found"))
  {
    TrimPaddedWord(w1, NonExistentTitle, w2, IsPySpace);
  }

  /** Any other title reaches the client stripped, and the client's answer or exception is what FastAPI sends. */
  lemma OtherTitlesReachClient(title: string, client: PyOutcome)
    requires !AllSatisfy(title, IsPySpace) && PyStrip(title) != NonExistentTitle
    ensures SearchGame(Some(title), client).calls == [SearchGameCall(PyStrip(title))]
    ensures client.Raised? && client.exc.isHttpException ==>
      SearchGame(Some(title), client).reply == DetailReply(client.exc.httpStatus, client.exc.text)
    ensures client.Returned? ==> SearchGame(Some(title), client).reply == HttpReply(200, client.value)
  {
  }
}

=== FILE: error_handler.dfy ===
/**
  The gateway's error-to-response mapper (api-gateway/src/utils/errorHandler.ts).
  Every thrown value becomes exactly one reply: a status, the headers set on
  the Express response and the JSON body. The clock is an input.
 */
module ErrorHandler {
  import opened Wrappers
  import opened Text
  import opened Json
  import opened Http
  import opened Errors
  import opened Fetch

  /** `startTime` from the caller's context (None when not given), `Date.now()` and `new Date().toISOString()`. */
  datatype Clock = Clock(startTime: Option<int>, now: int, isoNow: string)

  /** What `res.set(...)` and `res.status(...).json(...)` send; the body is the object passed to `json`. */
  datatype Reply = Reply(status: int, headers: map<string, string>, body: JsValue)

  const GenericDetails := "An unexpected error occurred while processing your request"
  const DataFormatDetails := "External service returned invalid data format"
  const NetworkDetails := "Unable to connect to external service"

  /** The `error` title the mapper sends for each kind. */
  function ErrorTitle(k: Kind): string {
    match k
    case ValidationKind => "Validation error"
    case AuthenticationKind => "Authentication failed"
    case NotFoundKind => "Resource not found"
    case RateLimitKind => "Rate limit exceeded"
    case DataFormatKind => "Bad gateway"
    case ServiceUnavailableKind => "Service temporarily unavailable"
    case NetworkKind => "Service temporarily unavailable"
  }

  /** The status the mapper sends: the kind's status, or 500 for anything unclassified. */
  function ExpectedStatus(t: Thrown): (status: int)
    ensures 400 <= status < 600
  {
    if t.Classified? then HttpStatusOf(KindOf(t.error)) else 500
  }

  /** `responseTime` is computed only for a truthy `startTime`, and kept only when non-zero. */
  predicate ReportsResponseTime(c: Clock) {
    c.startTime.Some? && c.startTime.value != 0 && c.now - c.startTime.value != 0
  }

  /** `if (error.retryAfter)`: present and neither 0 nor NaN. */
  predicate RetryAfterIsTruthy(r: Option<Seconds>) {
    r.Some? && r.value.Seconds? && r.value.n != 0
  }

  /** The body fields every branch starts from (`baseResponse`). */
  function BaseFields(c: Clock): (m: map<string, JsValue>)
    ensures m.Keys == {"timestamp"} + (if ReportsResponseTime(c) then {"responseTime"} else {})
    ensures m["timestamp"] == Str(c.isoNow)
    ensures ReportsResponseTime(c) ==> m["responseTime"] == Str(IntToString(c.now - c.startTime.value) + "ms")
  {
    var stamped := map["timestamp" := Str(c.isoNow)];
    match c.startTime
    case None => stamped
    case Some(start) =>
      if start == 0 || c.now - start == 0 then stamped
      else stamped["responseTime" := Str(IntToString(c.now - start) + "ms")]
  }

  /** The per-branch fields spread over `baseResponse`, and the headers set. */
  function BranchFields(e: ApiError): (r: (map<string, JsValue>, map<string, string>))
    ensures "timestamp" !in r.0 && "responseTime" !in r.0
    ensures "field" in r.0 <==> e.ValidationError?
    ensures "service" in r.0 <==> e.ServiceUnavailableError?
    ensures "error" in r.0 && r.0["error"] == Str(ErrorTitle(KindOf(e)))
    ensures "code" in r.0 && r.0["code"] == Str(e.code)
    ensures "expectedFormat" in r.0 <==> e.DataFormatError?
    ensures e.DataFormatError? ==> r.0["expectedFormat"] == Str(e.expectedFormat)
  {
    match e
    case ValidationError(message, field, code) =>
      (map["error" := Str("Validation error"), "details" := Str(message), "code" := Str(code), "field" := Str(field)], map[])
    case AuthenticationError(message, code) =>
      (map["error" := Str("Authentication failed"), "details" := Str(message), "code" := Str(code)], map[])
    case NotFoundError(message, resource, resourceId, code) =>
      var fields := map["error" := Str("Resource not found"), "details" := Str(message), "code" := Str(code),
                        "resource" := Str(resource)];
      // `JSON.stringify` drops an undefined `resourceId`
      (if resourceId.Some? then fields["resourceId" := Str(resourceId.value)] else fields, map[])
    case RateLimitError(message, retryAfter, code) =>
      var fields := map["error" := Str("Rate limit exceeded"), "details" := Str(message), "code" := Str(code)];
      if RetryAfterIsTruthy(retryAfter) then
        var seconds := IntToString(retryAfter.value.n);
        (fields["retryAfter" := Str(seconds + "s")], map["Retry-After" := seconds])
      else (fields, map[])
    case DataFormatError(_, expectedFormat, _, code) =>
      (map["error" := Str("Bad gateway"), "details" := Str(DataFormatDetails), "code" := Str(code),
           "expectedFormat" := Str(expectedFormat)], map[])
    case ServiceUnavailableError(message, _, service, code) =>
      (map["error" := Str("Service temporarily unavailable"), "details" := Str(message), "code" := Str(code),
           "service" := Str(service), "retryAfter" := Str("30s")], map[])
    case NetworkError(_, _, code) =>
      (map["error" := Str("Service temporarily unavailable"), "details" := Str(NetworkDetails), "code" := Str(code),
           "retryAfter" := Str("30s")], map[])
  }

  /** `handleApiError`: the single reply sent for a thrown value. */
  function HandleApiError(t: Thrown, c: Clock): (r: Reply)
    ensures r.status == ExpectedStatus(t)
    ensures r.body.Obj?
    ensures "timestamp" in r.body.fields && r.body.fields["timestamp"] == Str(c.isoNow)
    ensures "code" in r.body.fields && r.body.fields["code"] == Str(if t.Classified? then t.error.code else "INTERNAL_ERROR")
    ensures "error" in r.body.fields &&
      r.body.fields["error"] == Str(if t.Classified? then ErrorTitle(KindOf(t.error)) else "Internal server error")
    ensures "expectedFormat" in r.body.fields <==> t.Classified? && t.error.DataFormatError?
    ensures t.Classified? && t.error.DataFormatError? ==> r.body.fields["expectedFormat"] == Str(t.error.expectedFormat)
    ensures r.headers.Keys <= {"Retry-After"}
  {
    var base := BaseFields(c);
    match t
    case Classified(e) =>
      var (fields, headers) := BranchFields(e);
      Reply(HttpStatusOf(KindOf(e)), headers, Obj(base + fields))
    case _ =>
      Reply(500, map[], Obj(base + map["error" := Str("Internal server error"), "details" := Str(GenericDetails),
                                       "code" := Str("INTERNAL_ERROR")]))
  }

  /** `responseTime` appears exactly when the start time was given and time has passed. */
  lemma ReplyResponseTime(t: Thrown, c: Clock)
    ensures var f := HandleApiError(t, c).body.fields;
      && ("responseTime" in f <==> ReportsResponseTime(c))
      && ("responseTime" in f ==> f["responseTime"] == Str(IntToString(c.now - c.startTime.value) + "ms"))
  {
  }

  /** `details` echoes the message only for kinds whose message is meant for the client. */
  lemma ReplyDetails(t: Thrown, c: Clock)
    ensures var f := HandleApiError(t, c).body.fields;
      && "error" in f && "details" in f
      && (t.Classified? ==> f["error"] == Str(ErrorTitle(KindOf(t.error))))
      && (t.Classified? && t.error.DataFormatError? ==>
            "expectedFormat" in f && f["expectedFormat"] == Str(t.error.expectedFormat))
      && (t.Classified? && KindOf(t.error) in {ValidationKind, AuthenticationKind, NotFoundKind, RateLimitKind, ServiceUnavailableKind} ==>
            f["details"] == Str(t.error.message))
      && (t.Classified? && t.error.DataFormatError? ==> f["details"] == Str(DataFormatDetails))
      && (t.Classified? && t.error.NetworkError? ==> f["details"] == Str(NetworkDetails))
      && (!t.Classified? ==>
            && f.Keys == BaseFields(c).Keys + {"error", "details", "code"}
            && f["error"] == Str("Internal server error")
            && f["details"] == Str(GenericDetails))
  {
  }

  /** The `Retry-After` header and the `retryAfter` field. */
  lemma ReplyRetryAfter(t: Thrown, c: Clock)
    ensures var r := HandleApiError(t, c);
      && ("Retry-After" in r.headers <==> t.Classified? && t.error.RateLimitError? && RetryAfterIsTruthy(t.error.retryAfter))
      && ("Retry-After" in r.headers ==>
            && r.headers["Retry-After"] == IntToString(t.error.retryAfter.value.n)
            && r.body.fields["retryAfter"] == Str(r.headers["Retry-After"] + "s"))
      && ("retryAfter" in r.body.fields <==>
            t.Classified? && (t.error.ServiceUnavailableError? || t.error.NetworkError? ||
                              (t.error.RateLimitError? && RetryAfterIsTruthy(t.error.retryAfter))))
      && (t.Classified? && (t.error.ServiceUnavailableError? || t.error.NetworkError?) ==>
            r.body.fields["retryAfter"] == Str("30s"))
  {
  }

  /** The kind-specific fields: `field`, `service`, `resource`/`resourceId`. */
  lemma ReplyKindFields(t: Thrown, c: Clock)
    ensures var f := HandleApiError(t, c).body.fields;
      && ("field" in f <==> t.Classified? && t.error.ValidationError?)
      && (t.Classified? && t.error.ValidationError? ==> f["field"] == Str(t.error.field))
      && ("service" in f <==> t.Classified? && t.error.ServiceUnavailableError?)
      && (t.Classified? && t.error.ServiceUnavailableError? ==> f["service"] == Str(t.error.service))
      && (t.Classified? && t.error.NotFoundError? ==>
            && "resource" in f && f["resource"] == Str(t.error.resource)
            && ("resourceId" in f <==> t.error.resourceId.Some?))
  {
  }

  /** The generic reply does not depend on what was thrown: no message or stack can leak. */
  lemma GenericReplyIgnoresError(t1: Thrown, t2: Thrown, c: Clock)
    requires !t1.Classified? && !t2.Classified?
    ensures HandleApiError(t1, c) == HandleApiError(t2, c)
  {
  }

  /** Only the two 503 kinds share a reply status; every other status identifies the kind. */
  lemma ReplyStatusIdentifiesKind(e1: ApiError, e2: ApiError, c1: Clock, c2: Clock)
    requires HandleApiError(Classified(e1), c1).status == HandleApiError(Classified(e2), c2).status
    requires KindOf(e1) != KindOf(e2)
    ensures {KindOf(e1), KindOf(e2)} == {ServiceUnavailableKind, NetworkKind}
  {
  }

  /**
    `mapHttpStatusToError` followed by the mapper reproduces each status the
    taxonomy owns; 403 is answered as 401 and every other status as 503.
   */
  lemma MapThenHandleStatus(status: int, message: string, service: string, c: Clock)
    ensures var r := HandleApiError(Classified(MapHttpStatusToError(status, message, service)), c);
      r.status == (if status in {400, 401, 404, 429, 502} then status
                   else if status == 403 then 401
                   else 503)
  {
  }

  // ---------------------------------------------------------------------------
  // Fetch wrapper and mapper together

  /**
    A non-ok upstream answer reaches the client as 401, 404, 429 or 503 — never
    as the 400, 502 or 500 that only the gateway itself produces.
   */
  lemma UpstreamStatusReply(url: string, service: string, options: FetchOptions, resp: Response, c: Clock)
    requires !IsOk(resp)
    ensures var call := FetchWithErrorHandling(url, service, options, Responded(resp));
      && call.result.Err?
      && HandleApiError(call.result.error, c).status in {401, 404, 429, 503}
      && (resp.status == 404 ==> HandleApiError(call.result.error, c).body.fields["resource"] == Str(service))
  {
    CreateErrorIsUpstreamKind(resp, Some(service));
  }

  /** An upstream 429 with `retry-after: n` (n > 0) is relayed as a `Retry-After: n` header and `retryAfter: "ns"`. */
  lemma RateLimitRelaysRetryAfter(url: string, service: string, options: FetchOptions, resp: Response, n: nat, c: Clock)
    requires resp.status == 429 && n > 0
    requires HeaderGet(resp, "retry-after") == Some(NatToString(n))
    ensures var call := FetchWithErrorHandling(url, service, options, Responded(resp));
      && call.result.Err?
      && HandleApiError(call.result.error, c).status == 429
      && HandleApiError(call.result.error, c).headers == map["Retry-After" := NatToString(n)]
      && "retryAfter" in HandleApiError(call.result.error, c).body.fields
      && HandleApiError(call.result.error, c).body.fields["retryAfter"] == Str(NatToString(n) + "s")
  {
    var e := CreateErrorFromResponse(resp, Some(service));
    assert e.retryAfter == Some(Seconds(n)) by {
      RetryAfterOfNumeral(n);
    }
    assert FetchWithErrorHandling(url, service, options, Responded(resp)).result == Err(Classified(e));
    RateLimitReply(e, n, c);
  }

  lemma RateLimitReply(e: ApiError, n: nat, c: Clock)
    requires e.RateLimitError? && e.retryAfter == Some(Seconds(n)) && n > 0
    ensures HandleApiError(Classified(e), c).status == 429
    ensures HandleApiError(Classified(e), c).headers == map["Retry-After" := NatToString(n)]
    ensures "retryAfter" in HandleApiError(Classified(e), c).body.fields
    ensures HandleApiError(Classified(e), c).body.fields["retryAfter"] == Str(NatToString(n) + "s")
  {
  }

  /** A refused connection or a timer abort is answered 503 with the fixed network details. */
  lemma TransportFailureReply(url: string, service: string, options: FetchOptions, info: ErrorInfo, c: Clock)
    requires info.name == "AbortError" || Contains(info.message, "ECONNREFUSED")
    ensures var call := FetchWithErrorHandling(url, service, options, Rejected(Unclassified(info)));
      && call.result.Err?
      && HandleApiError(call.result.error, c).status == 503
      && HandleApiError(call.result.error, c).body.fields["details"] == Str(NetworkDetails)
      && HandleApiError(call.result.error, c).body.fields["retryAfter"] == Str("30s")
  {
    ContainsIff(info.message, "ECONNREFUSED");
    assert IsNetworkRelatedError(info);
  }
}

=== FILE: errors.dfy ===
/**
  The gateway's closed error taxonomy (services/api-gateway/src/utils/errors.ts):
  seven classified kinds with default codes, the network-failure detector and
  the two status-code classifiers.
 */
module Errors {
  import opened Wrappers
  import opened Text
  import opened Http

  datatype Kind =
    | ValidationKind
    | ServiceUnavailableKind
    | DataFormatKind
    | NetworkKind
    | AuthenticationKind
    | RateLimitKind
    | NotFoundKind

  /** A JavaScript number produced by `parseInt`: an integer or NaN. */
  datatype Seconds = Seconds(n: int) | NotANumber

  /** An `Error` object reduced to the two properties the code reads. */
  datatype ErrorInfo = ErrorInfo(name: string, message: string)

  /** One instance of the seven error classes; `code` defaults per class. */
  datatype ApiError =
    | ValidationError(message: string, field: string, code: string)
    | ServiceUnavailableError(message: string, statusCode: int, service: string, code: string)
    | DataFormatError(message: string, expectedFormat: string, actualFormat: Option<string>, code: string)
    | NetworkError(message: string, originalError: Option<ErrorInfo>, code: string)
    | AuthenticationError(message: string, code: string)
    | RateLimitError(message: string, retryAfter: Option<Seconds>, code: string)
    | NotFoundError(message: string, resource: string, resourceId: Option<string>, code: string)

  /** Anything a JavaScript `throw` can carry: a classified error, any other `Error`, or a non-`Error` value. */
  datatype Thrown = Classified(error: ApiError) | Unclassified(info: ErrorInfo) | NotAnError(description: string)

  function KindOf(e: ApiError): Kind {
    match e
    case ValidationError(_, _, _) => ValidationKind
    case ServiceUnavailableError(_, _, _, _) => ServiceUnavailableKind
    case DataFormatError(_, _, _, _) => DataFormatKind
    case NetworkError(_, _, _) => NetworkKind
    case AuthenticationError(_, _) => AuthenticationKind
    case RateLimitError(_, _, _) => RateLimitKind
    case NotFoundError(_, _, _, _) => NotFoundKind
  }

  /** The `name` each class assigns in its constructor. */
  function ClassName(k: Kind): string {
    match k
    case ValidationKind => "ValidationError"
    case ServiceUnavailableKind => "ServiceUnavailableError"
    case DataFormatKind => "DataFormatError"
    case NetworkKind => "NetworkError"
    case AuthenticationKind => "AuthenticationError"
    case RateLimitKind => "RateLimitError"
    case NotFoundKind => "NotFoundError"
  }

  /** The default `code` constructor parameter of each class. */
  function DefaultCode(k: Kind): string {
    match k
    case ValidationKind => "VALIDATION_ERROR"
    case ServiceUnavailableKind => "SERVICE_UNAVAILABLE"
    case DataFormatKind => "DATA_FORMAT_ERROR"
    case NetworkKind => "NETWORK_ERROR"
    case AuthenticationKind => "AUTHENTICATION_ERROR"
    case RateLimitKind => "RATE_LIMIT_ERROR"
    case NotFoundKind => "NOT_FOUND"
  }

  /** The HTTP status the error handler answers for each kind. */
  function HttpStatusOf(k: Kind): int {
    match k
    case ValidationKind => 400
    case AuthenticationKind => 401
    case NotFoundKind => 404
    case RateLimitKind => 429
    case DataFormatKind => 502
    case ServiceUnavailableKind => 503
    case NetworkKind => 503
  }

  /** The error was built without overriding its class's default code. */
  predicate HasDefaultCode(e: ApiError) {
    e.code == DefaultCode(KindOf(e))
  }

  /** Distinct kinds have distinct default codes, so a default code identifies its kind. */
  lemma DefaultCodeIdentifiesKind(k1: Kind, k2: Kind)
    requires DefaultCode(k1) == DefaultCode(k2)
    ensures k1 == k2
  {
    assert DefaultCode(k1)[0] == DefaultCode(k2)[0];
    assert DefaultCode(k1)[1] == DefaultCode(k2)[1];
  }

  // ---------------------------------------------------------------------------
  // Constructors with default codes

  function NewValidationError(message: string, field: string): ApiError {
    ValidationError(message, field, DefaultCode(ValidationKind))
  }

  function NewServiceUnavailableError(message: string, statusCode: int, service: string): ApiError {
    ServiceUnavailableError(message, statusCode, service, DefaultCode(ServiceUnavailableKind))
  }

  function NewDataFormatError(message: string, expectedFormat: string): ApiError {
    DataFormatError(message, expectedFormat, None, DefaultCode(DataFormatKind))
  }

  function NewNetworkError(message: string, originalError: ErrorInfo): ApiError {
    NetworkError(message, Some(originalError), DefaultCode(NetworkKind))
  }

  function NewAuthenticationError(message: string): ApiError {
    AuthenticationError(message, DefaultCode(AuthenticationKind))
  }

  function NewRateLimitError(message: string, retryAfter: Option<Seconds>): ApiError {
    RateLimitError(message, retryAfter, DefaultCode(RateLimitKind))
  }

  function NewNotFoundError(message: string, resource: string): ApiError {
    NotFoundError(message, resource, None, DefaultCode(NotFoundKind))
  }

  // ---------------------------------------------------------------------------
  // Reading a thrown value

  /** `error instanceof Error`: every classified error is an `Error` too. */
  predicate IsErrorInstance(t: Thrown) {
    !t.NotAnError?
  }

  /** The `name` and `message` of a thrown `Error`. */
  function InfoOf(t: Thrown): ErrorInfo
    requires IsErrorInstance(t)
  {
    match t
    case Classified(e) => ErrorInfo(ClassName(KindOf(e)), e.message)
    case Unclassified(info) => info
  }

  // ---------------------------------------------------------------------------
  // Network-failure detection

  /** The message fragments that mark a transport failure. */
  const NetworkSignatures: set<string> := {"timeout", "ECONNREFUSED", "ENOTFOUND", "ETIMEDOUT", "fetch failed"}

  /** `isNetworkRelatedError`: a known transport signature in the message, or an abort. */
  function IsNetworkRelatedError(info: ErrorInfo): (r: bool)
    ensures r <==> (exists sig, i :: sig in NetworkSignatures && OccursAt(info.message, sig, i))
                   || info.name == "AbortError"
  {
    var m := info.message;
    ContainsIff(m, "timeout");
    ContainsIff(m, "ECONNREFUSED");
    ContainsIff(m, "ENOTFOUND");
    ContainsIff(m, "ETIMEDOUT");
    ContainsIff(m, "fetch failed");
    Contains(m, "timeout") || Contains(m, "ECONNREFUSED") || Contains(m, "ENOTFOUND")
    || Contains(m, "ETIMEDOUT") || Contains(m, "fetch failed") || info.name == "AbortError"
  }

  // ---------------------------------------------------------------------------
  // Status-code classifiers

  /** The `service` argument, defaulting to "external-service" when omitted. */
  function ServiceName(service: Option<string>): string {
    service.GetOr("external-service")
  }

  /** `retryAfter ? parseInt(retryAfter) : undefined` over the `retry-after` header. */
  function RetryAfterFrom(header: Option<string>): Option<Seconds> {
    match header
    case None => None
    case Some(h) =>
      if |h| == 0 then None
      else Some(match ParseIntAutoRadix(h) case Some(n) => Seconds(n) case None => NotANumber)
  }

  /** `createErrorFromResponse`: the error thrown for a non-ok upstream answer. */
  function CreateErrorFromResponse(r: Response, service: Option<string>): (e: ApiError)
    ensures HasDefaultCode(e)
    ensures !e.ValidationError? && !e.DataFormatError? && !e.NetworkError?
    ensures e.AuthenticationError? <==> r.status == 401 || r.status == 403
    ensures e.AuthenticationError? ==> e.message == "Authentication failed: " + r.statusText
    ensures e.NotFoundError? <==> r.status == 404
    ensures e.NotFoundError? ==>
      e.resource == ServiceName(service) && e.resourceId.None? && e.message == "Resource not found: " + r.statusText
    ensures e.RateLimitError? <==> r.status == 429
    ensures e.RateLimitError? ==>
      e.retryAfter == RetryAfterFrom(HeaderGet(r, "retry-after")) && e.message == "Rate limit exceeded: " + r.statusText
    ensures e.ServiceUnavailableError? ==> e.statusCode == r.status && e.service == ServiceName(service)
    ensures r.status in {502, 503, 504} ==>
      e.ServiceUnavailableError? && e.message == "Service temporarily unavailable: " + r.statusText
    ensures r.status !in {401, 403, 404, 429, 502, 503, 504} ==>
      e.ServiceUnavailableError? && e.message == "Service error: " + r.statusText
  {
    var status := r.status;
    if status == 401 || status == 403 then
      NewAuthenticationError("Authentication failed: " + r.statusText)
    else if status == 404 then
      NewNotFoundError("Resource not found: " + r.statusText, ServiceName(service))
    else if status == 429 then
      NewRateLimitError("Rate limit exceeded: " + r.statusText, RetryAfterFrom(HeaderGet(r, "retry-after")))
    else if status == 502 || status == 503 || status == 504 then
      NewServiceUnavailableError("Service temporarily unavailable: " + r.statusText, status, ServiceName(service))
    else
      NewServiceUnavailableError("Service error: " + r.statusText, status, ServiceName(service))
  }

  /** A `Retry-After` header carrying a decimal number of seconds is read back exactly. */
  lemma RetryAfterOfNumeral(n: nat)
    ensures RetryAfterFrom(Some(NatToString(n))) == Some(Seconds(n))
  {
    var s := NatToString(n);
    assert LeadingCount(s, IsJsSpace) == 0;
    assert s[0..] == s;
    assert SplitSign(s) == (1, s);
    assert |s| >= 2 ==> s[0] != '0';
    LeadingCountAll(s, IsDigit);
    assert s[..|s|] == s;
    DigitsValueOfNatToString(n);
  }

  /** `mapHttpStatusToError`: a status and message turned into the matching class. */
  function MapHttpStatusToError(status: int, message: string, service: string): (e: ApiError)
    ensures HasDefaultCode(e)
    ensures e.message == message
    ensures e.ValidationError? <==> status == 400
    ensures e.ValidationError? ==> e.field == "request"
    ensures e.AuthenticationError? <==> status == 401 || status == 403
    ensures e.NotFoundError? <==> status == 404
    ensures e.NotFoundError? ==> e.resource == "resource" && e.resourceId.None?
    ensures e.RateLimitError? <==> status == 429
    ensures e.RateLimitError? ==> e.retryAfter.None?
    ensures e.DataFormatError? <==> status == 502
    ensures e.DataFormatError? ==> e.expectedFormat == "JSON" && e.actualFormat.None?
    ensures !e.NetworkError?
    ensures e.ServiceUnavailableError? ==> e.statusCode == status && e.service == service
  {
    if status == 400 then NewValidationError(message, "request")
    else if status == 401 || status == 403 then NewAuthenticationError(message)
    else if status == 404 then NewNotFoundError(message, "resource")
    else if status == 429 then NewRateLimitError(message, None)
    else if status == 502 then NewDataFormatError(message, "JSON")
    else NewServiceUnavailableError(message, status, service)
  }

  /**
    `mapHttpStatusToError` inverts the taxonomy's status table for every kind
    except Network, which shares 503 with ServiceUnavailable.
   */
  lemma MapHttpStatusInvertsTable(k: Kind, message: string, service: string)
    requires k != NetworkKind
    ensures KindOf(MapHttpStatusToError(HttpStatusOf(k), message, service)) == k
  {
  }

  /** The classifier built from an upstream answer never yields a client-side or transport kind. */
  lemma CreateErrorIsUpstreamKind(r: Response, service: Option<string>)
    ensures KindOf(CreateErrorFromResponse(r, service)) in
      {AuthenticationKind, NotFoundKind, RateLimitKind, ServiceUnavailableKind}
  {
  }
}

=== FILE: fetch.dfy ===
/**
  The gateway's outbound HTTP wrapper (services/api-gateway/src/utils/fetchUtils.ts).
  The network is abstract: each call issues exactly one request and is handed
  what `fetch` would settle with. A timer abort appears as the rejection the
  abort controller produces.
 */
module Fetch {
  import opened Wrappers
  import opened Text
  import opened Http
  import opened Errors

  const DefaultTimeoutMs := 10000

  /** The header object `fetchWithTimeout` builds before the caller's options are spread over it. */
  const DefaultHeaders: map<string, string> := map["Accept" := "application/json", "User-Agent" := "api-gateway/1.0.0"]

  /** The options a caller may pass: `timeout` and `headers` (None when the key is absent). */
  datatype FetchOptions = FetchOptions(timeout: Option<int>, headers: Option<map<string, string>>)

  /** The request actually handed to `fetch`. */
  datatype Request = Request(url: string, headers: map<string, string>, timeoutMs: int)

  /** How the single `fetch` call settled. */
  datatype FetchOutcome = Responded(response: Response) | Rejected(thrown: Thrown)

  /** One call of a wrapper: the request it issued and what it resolves or rejects with. */
  datatype FetchCall = FetchCall(request: Request, result: Result<Response, Thrown>)

  /** The rejection `controller.abort()` causes when the timer fires. */
  const AbortRejection: Thrown := Unclassified(ErrorInfo("AbortError", "This operation was aborted"))

  function EffectiveTimeout(options: FetchOptions): int {
    options.timeout.GetOr(DefaultTimeoutMs)
  }

  /**
    The headers `fetch` receives: because `...fetchOptions` is spread after the
    merged `headers` object, a caller-supplied `headers` replaces it entirely.
   */
  function EffectiveHeaders(options: FetchOptions): (h: map<string, string>)
    ensures options.headers.None? ==> h == DefaultHeaders
    ensures options.headers.Some? ==> h == options.headers.value
  {
    match options.headers
    case None => DefaultHeaders
    case Some(callerHeaders) => callerHeaders
  }

  /** Caller headers without `Accept` lose the JSON `Accept` header altogether. */
  lemma CallerHeadersDropDefaults(options: FetchOptions)
    requires options.headers.Some? && "Accept" !in options.headers.value
    ensures "Accept" !in EffectiveHeaders(options)
  {
  }

  /** The catch block of `fetchWithTimeout`: what a rejection of `fetch` is turned into. */
  function ClassifyRejection(t: Thrown, timeoutMs: int): (r: Thrown)
    ensures IsErrorInstance(t) && InfoOf(t).name == "AbortError" ==>
      r == Classified(NewNetworkError("Request timeout after " + IntToString(timeoutMs) + "ms", InfoOf(t)))
    ensures IsErrorInstance(t) && InfoOf(t).name != "AbortError" && IsNetworkRelatedError(InfoOf(t)) ==>
      r == Classified(NewNetworkError("Network error: " + InfoOf(t).message, InfoOf(t)))
    ensures !IsErrorInstance(t) || !IsNetworkRelatedError(InfoOf(t)) ==> r == t
    ensures r != t ==> r.Classified? && r.error.NetworkError? && HasDefaultCode(r.error)
  {
    if IsErrorInstance(t) && InfoOf(t).name == "AbortError" then
      Classified(NewNetworkError("Request timeout after " + IntToString(timeoutMs) + "ms", InfoOf(t)))
    else if IsErrorInstance(t) && IsNetworkRelatedError(InfoOf(t)) then
      Classified(NewNetworkError("Network error: " + InfoOf(t).message, InfoOf(t)))
    else t
  }

  /** `fetchWithTimeout`: one request with the effective timeout; rejections classified. */
  function FetchWithTimeout(url: string, options: FetchOptions, outcome: FetchOutcome): (c: FetchCall)
    ensures c.request == Request(url, EffectiveHeaders(options), EffectiveTimeout(options))
    ensures outcome.Responded? ==> c.result == Ok(outcome.response)
    ensures outcome.Rejected? ==> c.result == Err(ClassifyRejection(outcome.thrown, EffectiveTimeout(options)))
  {
    var request := Request(url, EffectiveHeaders(options), EffectiveTimeout(options));
    match outcome
    case Responded(response) => FetchCall(request, Ok(response))
    case Rejected(thrown) => FetchCall(request, Err(ClassifyRejection(thrown, request.timeoutMs)))
  }

  /** `fetchWithErrorHandling`: a non-ok answer becomes the error `createErrorFromResponse` builds. */
  function FetchWithErrorHandling(url: string, service: string, options: FetchOptions, outcome: FetchOutcome): (c: FetchCall)
    ensures c.request == FetchWithTimeout(url, options, outcome).request
    ensures outcome.Responded? && IsOk(outcome.response) ==> c.result == Ok(outcome.response)
    ensures outcome.Responded? && !IsOk(outcome.response) ==>
      c.result == Err(Classified(CreateErrorFromResponse(outcome.response, Some(service))))
    ensures outcome.Rejected? ==> c.result == FetchWithTimeout(url, options, outcome).result
  {
    var c := FetchWithTimeout(url, options, outcome);
    match c.result
    case Ok(response) =>
      if IsOk(response) then c
      else FetchCall(c.request, Err(Classified(CreateErrorFromResponse(response, Some(service)))))
    case Err(_) => c
  }

  /**
    Transport failures and error answers stay apart: a rejection yields a
    NetworkError or the original value, an answer yields a status-derived kind
    that carries the service name (or none at all for 2xx).
   */
  lemma TransportAndStatusFailuresApart(url: string, service: string, options: FetchOptions, outcome: FetchOutcome)
    ensures var c := FetchWithErrorHandling(url, service, options, outcome);
      && (outcome.Rejected? ==>
            && c.result.Err?
            && (c.result.error == outcome.thrown || (c.result.error.Classified? && c.result.error.error.NetworkError?)))
      && (outcome.Responded? && c.result.Err? ==>
            && c.result.error.Classified?
            && KindOf(c.result.error.error) in {AuthenticationKind, NotFoundKind, RateLimitKind, ServiceUnavailableKind}
            && (c.result.error.error.NotFoundError? ==> c.result.error.error.resource == service)
            && (c.result.error.error.ServiceUnavailableError? ==> c.result.error.error.service == service))
  {
    if outcome.Responded? && !IsOk(outcome.response) {
      CreateErrorIsUpstreamKind(outcome.response, Some(service));
    }
  }

  /** A timer abort always becomes the timeout NetworkError, whatever the abort's message says. */
  lemma AbortBecomesTimeout(url: string, options: FetchOptions)
    ensures FetchWithTimeout(url, options, Rejected(AbortRejection)).result ==
      Err(Classified(NewNetworkError("Request timeout after " + IntToString(EffectiveTimeout(options)) + "ms",
                                     InfoOf(AbortRejection))))
  {
  }
}

=== FILE: http.dfy ===
/**
  The parts of a WHATWG fetch `Response` the gateway and the web client read.
  The body is given already classified: text that `response.json()` parses
  (and the value it parses to) or text it rejects.
 */
module Http {
  import opened Wrappers
  import opened Json

  datatype Body = JsonText(value: JsValue) | NotJson(text: string)

  /** `headers` holds lower-cased header names, as `Headers.get` looks them up case-insensitively. */
  datatype Response = Response(status: int, statusText: string, headers: map<string, string>, body: Body)

  /** `response.ok`: a status in the range 200-299. */
  predicate IsOk(r: Response) {
    200 <= r.status <= 299
  }

  /** `response.headers.get(name)` for a lower-case `name`: `null` when absent. */
  function HeaderGet(r: Response, name: string): Option<string> {
    if name in r.headers then Some(r.headers[name]) else None
  }
}

=== FILE: igdb.dfy ===
/**
  The IGDB client of the game-id fetcher (game-id-fetcher/src/igdb_client.py):
  store ids from a game's external entries, the cover URL rewrite, the game
  summaries sorted by popularity, and the memoised access token. HTTP calls
  are inputs (the answer each request would get); JSON bodies arrive decoded.
 */
module Igdb {
  import opened Wrappers
  import opened Text
  import opened Py

  /** The exceptions the client's own code can raise, and `raise_for_status`. */
  datatype Failure =
    | AttributeError           // `.get` or `.startswith` on a value without it
    | TypeError                // iterating a non-iterable, an unhashable key, indexing a non-dict
    | KeyError(key: string)
    | HttpError(status: int)

  // ---------------------------------------------------------------------------
  // _extract_store_ids

  /** `self.store_categories`. */
  const StoreCategories: map<int, string> := map[
    1 := "Steam", 5 := "GOG", 10 := "Apple App Store", 11 := "Epic Games Store",
    13 := "Google Play", 14 := "Microsoft Store", 15 := "PlayStation Store", 16 := "Xbox Store",
    17 := "Nintendo eShop", 20 := "Amazon", 22 := "Itch.io", 26 := "Origin",
    28 := "Ubisoft Connect", 31 := "Battle.net", 32 := "Discord", 35 := "Humble Store"]

  /** The integer a value equals in Python, as a dictionary key or in a comparison (`True == 1`). */
  function IntValue(v: PyValue): Option<int> {
    match v
    case PyInt(i) => Some(i)
    case PyBool(b) => Some(if b then 1 else 0)
    case _ => None
  }

  /** `str(v)` for the hashable values a category can be. */
  function ScalarText(v: PyValue): string
    requires !v.PyList? && !v.PyDict?
  {
    match v
    case PyNone => "None"
    case PyBool(b) => if b then "True" else "False"
    case PyInt(i) => IntToString(i)
    case PyStr(s) => s
  }

  /** `store_categories.get(category, f"Unknown_{category}")`; a list or dict key is unhashable. */
  function StoreName(category: PyValue): (r: Result<string, Failure>)
    ensures category.PyList? || category.PyDict? ==> r == Err(TypeError)
    ensures IntValue(category).Some? && IntValue(category).value in StoreCategories ==>
      r == Ok(StoreCategories[IntValue(category).value])
    ensures !category.PyList? && !category.PyDict? && !(IntValue(category).Some? && IntValue(category).value in StoreCategories) ==>
      r == Ok("Unknown_" + ScalarText(category))
  {
    if category.PyList? || category.PyDict? then Err(TypeError)
    else
      var key := IntValue(category);
      if key.Some? && key.value in StoreCategories then Ok(StoreCategories[key.value])
      else Ok("Unknown_" + ScalarText(category))
  }

  /** The elements `for x in v` visits, as far as the loop bodies here can use them. */
  function Elements(v: PyValue): (r: Result<seq<PyValue>, Failure>)
    ensures v.PyList? ==> r == Ok(v.items)
    ensures (v.PyStr? && |v.s| == 0) || (v.PyDict? && |v.entries| == 0) ==> r == Ok([])
    ensures (v.PyStr? && |v.s| > 0) || (v.PyDict? && |v.entries| > 0) ==> r == Err(AttributeError)
    ensures !v.PyList? && !v.PyStr? && !v.PyDict? ==> r == Err(TypeError)
  {
    match v
    case PyList(items) => Ok(items)
    // a string or a dict yields strings, and every loop body here calls `.get` on its element
    case PyStr(s) => if |s| == 0 then Ok([]) else Err(AttributeError)
    case PyDict(entries) => if |entries| == 0 then Ok([]) else Err(AttributeError)
    case _ => Err(TypeError)
  }

  /** One external entry: its store name and uid. */
  function Entry(external: PyValue): (r: Result<(string, PyValue), Failure>)
    ensures !external.PyDict? ==> r == Err(AttributeError)
    ensures external.PyDict? ==>
      match StoreName(DictGet(external.entries, "category", PyNone))
      case Err(e) => r == Err(e)
      case Ok(name) => r == Ok((name, DictGet(external.entries, "uid", PyNone)))
  {
    if !external.PyDict? then Err(AttributeError)
    else
      var category := DictGet(external.entries, "category", PyNone);
      var uid := DictGet(external.entries, "uid", PyNone);
      match StoreName(category)
      case Err(e) => Err(e)
      case Ok(name) => Ok((name, uid))
  }

  /** The store map after the given entries, in order; the first failing entry stops the loop. */
  function StoreIdsOf(entries: seq<PyValue>): Result<map<string, PyValue>, Failure>
    decreases |entries|
  {
    if |entries| == 0 then Ok(map[])
    else
      match StoreIdsOf(entries[..|entries| - 1])
      case Err(e) => Err(e)
      case Ok(ids) =>
        match Entry(entries[|entries| - 1])
        case Err(e) => Err(e)
        case Ok(entry) => Ok(ids[entry.0 := entry.1])
  }

  /** Once an entry fails, later entries change nothing: the loop has stopped. */
  lemma {:induction false} FailureStopsStoreIds(entries: seq<PyValue>, n: nat)
    requires n <= |entries| && StoreIdsOf(entries[..n]).Err?
    ensures StoreIdsOf(entries) == StoreIdsOf(entries[..n])
    decreases |entries| - n
  {
    if n < |entries| {
      assert entries[..n + 1][..n] == entries[..n];
      FailureStopsStoreIds(entries, n + 1);
    } else {
      assert entries[..n] == entries;
    }
  }

  /** `game_data.get('external_games', [])` and its elements. */
  function ExternalGames(game: PyValue): (r: Result<seq<PyValue>, Failure>)
    ensures !game.PyDict? ==> r == Err(AttributeError)
    ensures game.PyDict? && "external_games" !in game.entries ==> r == Ok([])
  {
    if !game.PyDict? then Err(AttributeError)
    else Elements(DictGet(game.entries, "external_games", PyList([])))
  }

  /** `_extract_store_ids(game)`: the loop over the external entries. */
  method ExtractStoreIds(game: PyValue) returns (r: Result<map<string, PyValue>, Failure>)
    ensures ExternalGames(game).Err? ==> r == Err(ExternalGames(game).error)
    ensures ExternalGames(game).Ok? ==> r == StoreIdsOf(ExternalGames(game).value)
  {
    var elements := ExternalGames(game);
    if elements.Err? {
      return Err(elements.error);
    }
    var entries := elements.value;
    var ids: map<string, PyValue> := map[];
    var i := 0;
    while i < |entries|
      invariant 0 <= i <= |entries|
      invariant StoreIdsOf(entries[..i]) == Ok(ids)
    {
      assert entries[..i + 1][..i] == entries[..i];
      var entry := Entry(entries[i]);
      if entry.Err? {
        FailureStopsStoreIds(entries, i + 1);
        return Err(entry.error);
      }
      ids := ids[entry.value.0 := entry.value.1];
      i := i + 1;
    }
    assert entries[..i] == entries;
    r := Ok(ids);
  }

  // ---------------------------------------------------------------------------
  // _get_cover_url

  const Thumb := "t_thumb"
  const CoverBig := "t_cover_big"

  /** A protocol-relative `//host/...` URL gets the `https:` scheme. */
  function WithScheme(url: string): string {
    if StartsWith(url, "//") then "https:" + url else url
  }

  /** `_get_cover_url(game)` for a game that is a dict. */
  function CoverUrl(game: map<string, PyValue>): (r: Result<Option<string>, Failure>)
    ensures !Truthy(DictGet(game, "cover", PyNone)) ==> r == Ok(None)
    ensures DictGet(game, "cover", PyNone).PyDict? && "url" !in DictGet(game, "cover", PyNone).entries ==> r == Ok(None)
    ensures r.Ok? && r.value.Some? ==>
      var cover := DictGet(game, "cover", PyNone);
      && cover.PyDict? && "url" in cover.entries && cover.entries["url"].PyStr?
      && r.value.value == ReplaceAll(WithScheme(cover.entries["url"].s), Thumb, CoverBig)
  {
    var cover := DictGet(game, "cover", PyNone);
    if !Truthy(cover) then Ok(None)
    else
      match cover
      case PyDict(entries) =>
        if "url" !in entries then Ok(None)
        else if !entries["url"].PyStr? then Err(AttributeError)
        else Ok(Some(ReplaceAll(WithScheme(entries["url"].s), Thumb, CoverBig)))
      // `'url' in cover` tests list membership or a substring; indexing either with 'url' fails
      case PyList(items) => if PyStr("url") in items then Err(TypeError) else Ok(None)
      case PyStr(s) => if Contains(s, "url") then Err(TypeError) else Ok(None)
      case _ => Err(TypeError)
  }

  // ---------------------------------------------------------------------------
  // Properties of the store ids

  /** The loop fails exactly when some entry fails. */
  lemma {:induction false} StoreIdsFailIff(entries: seq<PyValue>)
    ensures StoreIdsOf(entries).Ok? <==> forall i :: 0 <= i < |entries| ==> Entry(entries[i]).Ok?
    decreases |entries|
  {
    if |entries| > 0 {
      var n := |entries| - 1;
      StoreIdsFailIff(entries[..n]);
      assert forall i :: 0 <= i < n ==> entries[..n][i] == entries[i];
    }
  }

  /** Some entry of `entries` is for the store `name`. */
  ghost predicate NamedBy(entries: seq<PyValue>, name: string) {
    exists i :: 0 <= i < |entries| && Entry(entries[i]).Ok? && Entry(entries[i]).value.0 == name
  }

  /** A successful loop is the loop over all but the last entry, then the last entry's store written. */
  lemma StoreIdsStep(entries: seq<PyValue>)
    requires |entries| > 0 && StoreIdsOf(entries).Ok?
    ensures StoreIdsOf(entries[..|entries| - 1]).Ok? && Entry(entries[|entries| - 1]).Ok?
    ensures var e := Entry(entries[|entries| - 1]).value;
      StoreIdsOf(entries).value == StoreIdsOf(entries[..|entries| - 1]).value[e.0 := e.1]
  {
    var front := entries[..|entries| - 1];
    assert StoreIdsOf(front).Ok?;
    var ids := StoreIdsOf(front).value;
    assert Entry(entries[|entries| - 1]).Ok?;
    var e := Entry(entries[|entries| - 1]).value;
    assert StoreIdsOf(entries) == Ok(ids[e.0 := e.1]);
  }

  /** The last entry names the stores it reads. */
  predicate LastNames(entries: seq<PyValue>, name: string)
    requires |entries| > 0
  {
    Entry(entries[|entries| - 1]).Ok? && Entry(entries[|entries| - 1]).value.0 == name
  }

  /** A store some entry names is named by an earlier entry or by the last one. */
  lemma NamedByFrontOrLast(entries: seq<PyValue>, name: string)
    requires |entries| > 0 && NamedBy(entries, name)
    ensures NamedBy(entries[..|entries| - 1], name) || LastNames(entries, name)
  {
    var front := entries[..|entries| - 1];
    var i :| 0 <= i < |entries| && Entry(entries[i]).Ok? && Entry(entries[i]).value.0 == name;
    if i < |front| {
      assert front[i] == entries[i];
      assert Entry(front[i]).Ok? && Entry(front[i]).value.0 == name;
    }
  }

  /** A store an earlier entry names is still named with one more entry. */
  lemma NamedByFront(entries: seq<PyValue>, name: string)
    requires |entries| > 0 && NamedBy(entries[..|entries| - 1], name)
    ensures NamedBy(entries, name)
  {
    var front := entries[..|entries| - 1];
    var i :| 0 <= i < |front| && Entry(front[i]).Ok? && Entry(front[i]).value.0 == name;
    assert front[i] == entries[i];
    assert Entry(entries[i]).Ok? && Entry(entries[i]).value.0 == name;
  }

  /** A store the last entry names is named. */
  lemma NamedByLastEntry(entries: seq<PyValue>, name: string)
    requires |entries| > 0 && LastNames(entries, name)
    ensures NamedBy(entries, name)
  {
    var n := |entries| - 1;
    assert Entry(entries[n]).Ok? && Entry(entries[n]).value.0 == name;
  }

  /** The stores present are exactly those some entry names. */
  lemma {:induction false} StoreIdsKeys(entries: seq<PyValue>)
    requires StoreIdsOf(entries).Ok?
    ensures forall name :: name in StoreIdsOf(entries).value <==> NamedBy(entries, name)
    decreases |entries|
  {
    if |entries| > 0 {
      var front := entries[..|entries| - 1];
      StoreIdsStep(entries);
      StoreIdsKeys(front);
      forall name ensures name in StoreIdsOf(entries).value <==> NamedBy(entries, name) {
        if NamedBy(entries, name) {
          NamedByFrontOrLast(entries, name);
        }
        if NamedBy(front, name) {
          NamedByFront(entries, name);
        }
        if LastNames(entries, name) {
          NamedByLastEntry(entries, name);
        }
      }
    }
  }

  /** Later entries overwrite earlier ones: a store holds the uid of the last entry naming it. */
  lemma {:induction false} StoreIdsLastEntryWins(entries: seq<PyValue>, i: nat)
    requires StoreIdsOf(entries).Ok? && i < |entries|
    requires forall j :: i < j < |entries| && Entry(entries[j]).Ok? && Entry(entries[i]).Ok? ==>
      Entry(entries[j]).value.0 != Entry(entries[i]).value.0
    ensures Entry(entries[i]).Ok? && Entry(entries[i]).value.0 in StoreIdsOf(entries).value
    ensures StoreIdsOf(entries).value[Entry(entries[i]).value.0] == Entry(entries[i]).value.1
    decreases |entries|
  {
    var n := |entries| - 1;
    var front := entries[..n];
    StoreIdsStep(entries);
    if i < n {
      assert front[i] == entries[i];
      forall j | i < j < |front| && Entry(front[j]).Ok? && Entry(front[i]).Ok?
        ensures Entry(front[j]).value.0 != Entry(front[i]).value.0
      {
        assert front[j] == entries[j];
      }
      StoreIdsLastEntryWins(front, i);
    }
  }

  /** A missing `category` is stored under "Unknown_None"; a category id outside the table under
      "Unknown_" and its decimal digits. */
  lemma UnknownCategoryNames(category: PyValue)
    ensures category.PyNone? ==> StoreName(category) == Ok("Unknown_None")
    ensures category.PyInt? && category.i !in StoreCategories ==>
      StoreName(category) == Ok("Unknown_" + IntToString(category.i))
    ensures category == PyBool(true) ==> StoreName(category) == Ok("Steam")
  {
    assert "Unknown_" + "None" == "Unknown_None";
  }

  // ---------------------------------------------------------------------------
  // Properties of the cover URL

  /** No occurrence of `p` starts inside `c` and none is in `rest`: then none is in `c + rest`. */
  lemma {:induction false} NoOccurrenceAfter(c: string, rest: string, p: string)
    requires forall i :: 0 <= i < |c| ==> !StartsWith((c + rest)[i..], p)
    requires !Contains(rest, p)
    ensures !Contains(c + rest, p)
    decreases |c|
  {
    if |c| == 0 {
      assert c + rest == rest;
    } else {
      assert (c + rest)[0..] == c + rest;
      assert (c + rest)[1..] == c[1..] + rest;
      forall i | 0 <= i < |c[1..]| ensures !StartsWith((c[1..] + rest)[i..], p) {
        assert (c[1..] + rest)[i..] == (c + rest)[i + 1..];
      }
      NoOccurrenceAfter(c[1..], rest, p);
    }
  }

  /** The rewrite keeps the first character, since both the pattern and the replacement start with 't'. */
  lemma FirstCharKept(x: string)
    requires |x| > 0
    ensures |ReplaceAll(x, Thumb, CoverBig)| > 0 && ReplaceAll(x, Thumb, CoverBig)[0] == x[0]
  {
  }

  /** A rewritten prefix without a 't' was there before the rewrite. */
  lemma {:induction false} PrefixWithoutT(x: string, w: string)
    requires forall i :: 0 <= i < |w| ==> w[i] != 't'
    requires StartsWith(ReplaceAll(x, Thumb, CoverBig), w)
    ensures StartsWith(x, w)
    decreases |w|
  {
    if |w| > 0 {
      FirstCharKept(x);
      assert !StartsWith(x, Thumb);
      var r := ReplaceAll(x[1..], Thumb, CoverBig);
      assert ReplaceAll(x, Thumb, CoverBig) == [x[0]] + r;
      assert StartsWith(r, w[1..]);
      PrefixWithoutT(x[1..], w[1..]);
    }
  }

  /** A rewritten "t_thumb" starts with "t_", not with "th". */
  lemma RewrittenThumbSecondChar(x: string)
    ensures StartsWith(x, Thumb) ==>
      |ReplaceAll(x, Thumb, CoverBig)| > 1 && ReplaceAll(x, Thumb, CoverBig)[1] == '_'
  {
    if StartsWith(x, Thumb) {
      assert ReplaceAll(x, Thumb, CoverBig) == CoverBig + ReplaceAll(x[|Thumb|..], Thumb, CoverBig);
    }
  }

  /** Where no "t_thumb" starts, the rewrite keeps the first character and moves on. */
  lemma RewriteKeepsHead(x: string)
    requires |x| > 0 && !StartsWith(x, Thumb)
    ensures ReplaceAll(x, Thumb, CoverBig) == [x[0]] + ReplaceAll(x[1..], Thumb, CoverBig)
  {
  }

  /** `[a] + r` starts with a non-empty `w` exactly when `a` is its first character and `r` starts with the rest. */
  lemma StartsWithCons(a: char, r: string, w: string)
    ensures StartsWith([a] + r, w) <==> |w| == 0 || (a == w[0] && StartsWith(r, w[1..]))
  {
    if |w| > 0 && |w| <= |r| + 1 {
      assert ([a] + r)[..|w|] == [a] + r[..|w| - 1];
      assert w == [w[0]] + w[1..];
    }
  }

  /** A character kept in front of a rewritten tail starts a "t_thumb" only when the original did. */
  lemma FrontOccurrence(s: string)
    requires |s| > 0
    ensures StartsWith([s[0]] + ReplaceAll(s[1..], Thumb, CoverBig), Thumb) ==> StartsWith(s, Thumb)
  {
    var r1 := ReplaceAll(s[1..], Thumb, CoverBig);
    if StartsWith([s[0]] + r1, Thumb) {
      StartsWithCons(s[0], r1, Thumb);
      assert Thumb[1..] == "_thumb";
      assert StartsWith(r1, "_thumb");
      // s[1] is the '_'
      assert |s[1..]| > 0;
      FirstCharKept(s[1..]);
      assert s[1] == '_';
      assert !StartsWith(s[1..], Thumb) by {
        StartsWithCons(s[1], s[2..], Thumb);
        assert s[1..] == [s[1]] + s[2..];
      }
      assert s[1..][1..] == s[2..];
      RewriteKeepsHead(s[1..]);
      var r2 := ReplaceAll(s[2..], Thumb, CoverBig);
      assert r1 == [s[1]] + r2;
      StartsWithCons(s[1], r2, "_thumb");
      assert StartsWith(r2, "thumb");
      // s[2] is the second 't'
      assert |s[2..]| > 0;
      FirstCharKept(s[2..]);
      StartsWithCons(r2[0], r2[1..], "thumb");
      assert r2 == [r2[0]] + r2[1..];
      assert s[2] == 't' && r2[1] == 'h';
      RewrittenThumbSecondChar(s[2..]);
      assert s[2..][1..] == s[3..];
      RewriteKeepsHead(s[2..]);
      var r3 := ReplaceAll(s[3..], Thumb, CoverBig);
      assert r2 == [s[2]] + r3;
      StartsWithCons(s[2], r3, "thumb");
      assert StartsWith(r3, "humb");
      PrefixWithoutT(s[3..], "humb");
      // so s is "t_t" followed by "humb"
      StartsWithCons(s[2], s[3..], "thumb");
      assert s[2..] == [s[2]] + s[3..];
      StartsWithCons(s[1], s[2..], "_thumb");
      assert s[1..] == [s[1]] + s[2..];
      StartsWithCons(s[0], s[1..], Thumb);
      assert s == [s[0]] + s[1..];
    }
  }

  lemma {:induction false} ThumbGone(s: string)
    ensures !Contains(ReplaceAll(s, Thumb, CoverBig), Thumb)
    decreases |s|
  {
    if |s| > 0 {
      if StartsWith(s, Thumb) {
        var r := ReplaceAll(s[|Thumb|..], Thumb, CoverBig);
        ThumbGone(s[|Thumb|..]);
        forall i | 0 <= i < |CoverBig| ensures !StartsWith((CoverBig + r)[i..], Thumb) {
          if i == 0 {
            assert (CoverBig + r)[i..][2] == 'c';
          } else {
            assert (CoverBig + r)[i..][0] == CoverBig[i];
          }
        }
        NoOccurrenceAfter(CoverBig, r, Thumb);
      } else {
        var r := ReplaceAll(s[1..], Thumb, CoverBig);
        ThumbGone(s[1..]);
        FrontOccurrence(s);
        assert ([s[0]] + r)[1..] == r;
      }
    }
  }

  /** A prefix that no "t_thumb" can start in is kept by the rewrite. */
  lemma {:induction false} PrefixKept(w: string, rest: string)
    requires forall i :: 0 <= i < |w| ==> w[i] != 't' || (i + 1 < |w| && w[i + 1] != '_')
    ensures ReplaceAll(w + rest, Thumb, CoverBig) == w + ReplaceAll(rest, Thumb, CoverBig)
    decreases |w|
  {
    if |w| > 0 {
      assert (w + rest)[0] == w[0];
      assert |w| > 1 ==> (w + rest)[1] == w[1];
      assert !StartsWith(w + rest, Thumb);
      assert (w + rest)[1..] == w[1..] + rest;
      forall i | 0 <= i < |w[1..]| ensures w[1..][i] != 't' || (i + 1 < |w[1..]| && w[1..][i + 1] != '_') {
        assert w[1..][i] == w[i + 1];
        assert w[i + 1] != 't' || (i + 2 < |w| && w[i + 2] != '_');
        if i + 1 < |w[1..]| {
          assert w[1..][i + 1] == w[i + 2];
        }
      }
      PrefixKept(w[1..], rest);
    } else {
      assert w + rest == rest;
    }
  }

  /** Every cover URL the client returns is the high-resolution one: no "t_thumb" is left. */
  lemma CoverUrlHasNoThumb(game: map<string, PyValue>)
    requires CoverUrl(game).Ok? && CoverUrl(game).value.Some?
    ensures !Contains(CoverUrl(game).value.value, Thumb)
  {
    ThumbGone(WithScheme(DictGet(game, "cover", PyNone).entries["url"].s));
  }

  /** A protocol-relative URL comes back with the https scheme in front. */
  lemma CoverUrlGetsHttps(game: map<string, PyValue>, rest: string)
    requires "cover" in game && game["cover"].PyDict? && "url" in game["cover"].entries
    requires game["cover"].entries["url"] == PyStr("//" + rest)
    ensures CoverUrl(game) == Ok(Some("https://" + ReplaceAll(rest, Thumb, CoverBig)))
  {
    assert StartsWith("//" + rest, "//");
    assert "https:" + ("//" + rest) == "https://" + rest;
    PrefixKept("https://", rest);
  }

  /** A URL with a scheme and no "t_thumb" is returned as it is. */
  lemma PlainCoverUrlUnchanged(game: map<string, PyValue>, url: string)
    requires "cover" in game && game["cover"].PyDict? && "url" in game["cover"].entries
    requires game["cover"].entries["url"] == PyStr(url)
    requires !StartsWith(url, "//") && !Contains(url, Thumb)
    ensures CoverUrl(game) == Ok(Some(url))
  {
    ReplaceAllNoOccurrence(url, Thumb, CoverBig);
  }

  // ---------------------------------------------------------------------------
  // get_game_ids: the summaries and their popularity order

  /** One entry of the list `get_game_ids` returns. */
  datatype GameSummary = GameSummary(
    igdbId: PyValue,
    name: PyValue,
    storeIds: map<string, PyValue>,
    popularity: PyValue,           // `total_rating_count`, or 0 when absent
    coverUrl: Option<string>)

  /** `_extract_store_ids(game)` as a function of the game. */
  function StoreIds(game: PyValue): Result<map<string, PyValue>, Failure> {
    var entries :- ExternalGames(game);
    StoreIdsOf(entries)
  }

  /** The loop body for one game: store ids, then the cover, then `game['id']` and `game['name']`. */
  function Summarise(game: PyValue): (r: Result<GameSummary, Failure>)
    ensures r.Ok? ==> game.PyDict? && "id" in game.entries && "name" in game.entries
    ensures r.Ok? ==> StoreIds(game) == Ok(r.value.storeIds) && CoverUrl(game.entries) == Ok(r.value.coverUrl)
    ensures r.Ok? && "total_rating_count" !in game.entries ==> r.value.popularity == PyInt(0)
    ensures StoreIds(game).Ok? && CoverUrl(game.entries).Ok? && "id" !in game.entries ==> r == Err(KeyError("id"))
  {
    var ids :- StoreIds(game);
    var cover :- CoverUrl(game.entries);
    if "id" !in game.entries then Err(KeyError("id"))
    else if "name" !in game.entries then Err(KeyError("name"))
    else Ok(GameSummary(game.entries["id"], game.entries["name"], ids,
                        DictGet(game.entries, "total_rating_count", PyInt(0)), cover))
  }

  /** The loop over the decoded games, in order; the first failing game ends it. */
  function Summaries(games: seq<PyValue>): (r: Result<seq<GameSummary>, Failure>)
    ensures r.Ok? ==> |r.value| == |games|
    ensures r.Ok? ==> forall i | 0 <= i < |games| :: Summarise(games[i]) == Ok(r.value[i])
    ensures r.Err? ==> exists i | 0 <= i < |games| ::
      && Summarise(games[i]) == Err(r.error)
      && forall j | 0 <= j < i :: Summarise(games[j]).Ok?
    ensures r.Err? <==> exists i | 0 <= i < |games| :: Summarise(games[i]).Err?
  {
    if |games| == 0 then Ok([])
    else
      var first :- Summarise(games[0]);
      var rest :- Summaries(games[1..]);
      assert forall i | 1 <= i < |games| :: games[1..][i - 1] == games[i];
      Ok([first] + rest)
  }

  /** The sort key `x.get('popularity_score', 0)` as a number. */
  function Score(g: GameSummary): int {
    IntValue(g.popularity).GetOr(0)
  }

  /** Inserts `g` after every element at least as popular, so of two equal scores the later stays later. */
  function InsertByScore(sorted: seq<GameSummary>, g: GameSummary): seq<GameSummary>
    decreases |sorted|
  {
    if |sorted| == 0 then [g]
    else if Score(sorted[|sorted| - 1]) >= Score(g) then sorted + [g]
    else InsertByScore(sorted[..|sorted| - 1], g) + [sorted[|sorted| - 1]]
  }

  /** `sort(key=..., reverse=True)`: Python's sort is stable, also in reverse. */
  function SortByScore(games: seq<GameSummary>): seq<GameSummary>
    decreases |games|
  {
    if |games| == 0 then []
    else InsertByScore(SortByScore(games[..|games| - 1]), games[|games| - 1])
  }

  /** Scores only compare as numbers; with two or more games a non-numeric one raises. */
  function SortGames(games: seq<GameSummary>): (r: Result<seq<GameSummary>, Failure>)
    ensures r.Err? <==> |games| >= 2 && exists i :: 0 <= i < |games| && IntValue(games[i].popularity).None?
  {
    if |games| >= 2 && exists i :: 0 <= i < |games| && IntValue(games[i].popularity).None? then Err(TypeError)
    else Ok(SortByScore(games))
  }

  ghost predicate Descending(s: seq<GameSummary>) {
    forall i, j :: 0 <= i < j < |s| ==> Score(s[i]) >= Score(s[j])
  }

  /** The games with score `k`, in their order in `s`. */
  function WithScore(s: seq<GameSummary>, k: int): seq<GameSummary>
    decreases |s|
  {
    if |s| == 0 then []
    else WithScore(s[..|s| - 1], k) + (if Score(s[|s| - 1]) == k then [s[|s| - 1]] else [])
  }

  lemma {:induction false} InsertPermutes(sorted: seq<GameSummary>, g: GameSummary)
    ensures multiset(InsertByScore(sorted, g)) == multiset(sorted) + multiset{g}
    decreases |sorted|
  {
    if |sorted| > 0 {
      var n := |sorted| - 1;
      assert sorted == sorted[..n] + [sorted[n]];
      if Score(sorted[n]) < Score(g) {
        InsertPermutes(sorted[..n], g);
      }
    }
  }

  lemma {:induction false} InsertKeepsOrder(sorted: seq<GameSummary>, g: GameSummary)
    requires Descending(sorted)
    ensures Descending(InsertByScore(sorted, g))
    decreases |sorted|
  {
    if |sorted| > 0 {
      var n := |sorted| - 1;
      var front := sorted[..n];
      if Score(sorted[n]) < Score(g) {
        InsertKeepsOrder(front, g);
        InsertPermutes(front, g);
        var inserted := InsertByScore(front, g);
        forall x | x in inserted ensures Score(x) >= Score(sorted[n]) {
          assert x in multiset(inserted);
          if x != g {
            assert x in multiset(front);
            var i :| 0 <= i < n && front[i] == x;
            assert sorted[i] == x;
          }
        }
        var r := inserted + [sorted[n]];
        assert r == InsertByScore(sorted, g);
        forall i, j | 0 <= i < j < |r| ensures Score(r[i]) >= Score(r[j]) {
          if j == |r| - 1 {
            assert r[i] in inserted;
          } else {
            assert r[i] == inserted[i] && r[j] == inserted[j];
          }
        }
      }
    }
  }

  lemma {:induction false} WithScoreAppend(s: seq<GameSummary>, x: GameSummary, k: int)
    ensures WithScore(s + [x], k) == WithScore(s, k) + (if Score(x) == k then [x] else [])
  {
    assert (s + [x])[..|s|] == s;
  }

  /** Appending `y` to both sides keeps an equation between score-`k` subsequences when `x` and `y`
      have different scores: at most one of them has score `k`, so their order does not matter. */
  lemma WithScoreSwapLast(a: seq<GameSummary>, b: seq<GameSummary>, x: GameSummary, y: GameSummary, k: int)
    requires Score(x) != Score(y)
    requires WithScore(a, k) == WithScore(b, k) + (if Score(x) == k then [x] else [])
    ensures WithScore(a + [y], k) == WithScore(b + [y], k) + (if Score(x) == k then [x] else [])
  {
    var tx: seq<GameSummary> := if Score(x) == k then [x] else [];
    var ty: seq<GameSummary> := if Score(y) == k then [y] else [];
    var w := WithScore(b, k);
    assert WithScore(a + [y], k) == w + tx + ty by {
      WithScoreAppend(a, y, k);
    }
    assert WithScore(b + [y], k) == w + ty by {
      WithScoreAppend(b, y, k);
    }
    SwapUnlessBoth(w, tx, ty);
  }

  /** Two appended pieces commute when one of them is empty. */
  lemma SwapUnlessBoth<T>(w: seq<T>, u: seq<T>, v: seq<T>)
    requires u == [] || v == []
    ensures w + u + v == w + v + u
  {
    if u == [] {
      assert w + u == w;
    } else {
      assert w + v == w;
    }
  }

  lemma {:induction false} InsertKeepsTies(sorted: seq<GameSummary>, g: GameSummary, k: int)
    ensures WithScore(InsertByScore(sorted, g), k) == WithScore(sorted, k) + (if Score(g) == k then [g] else [])
    decreases |sorted|
  {
    if |sorted| == 0 {
      WithScoreAppend([], g, k);
      assert [] + [g] == [g];
    } else {
      var n := |sorted| - 1;
      var front := sorted[..n];
      if Score(sorted[n]) >= Score(g) {
        WithScoreAppend(sorted, g, k);
      } else {
        assert sorted == front + [sorted[n]];
        assert InsertByScore(sorted, g) == InsertByScore(front, g) + [sorted[n]];
        InsertKeepsTies(front, g, k);
        WithScoreSwapLast(InsertByScore(front, g), front, g, sorted[n], k);
      }
    }
  }

  /** The popularity order: most popular first, the same games, and games of equal score in their
      original order (the order IGDB returned them). */
  lemma {:induction false} SortByScoreIsStableDescending(games: seq<GameSummary>)
    ensures Descending(SortByScore(games))
    ensures multiset(SortByScore(games)) == multiset(games)
    ensures forall k :: WithScore(SortByScore(games), k) == WithScore(games, k)
    decreases |games|
  {
    if |games| > 0 {
      var n := |games| - 1;
      var front := games[..n];
      SortByScoreIsStableDescending(front);
      InsertKeepsOrder(SortByScore(front), games[n]);
      InsertPermutes(SortByScore(front), games[n]);
      assert games == front + [games[n]];
      forall k ensures WithScore(SortByScore(games), k) == WithScore(games, k) {
        InsertKeepsTies(SortByScore(front), games[n], k);
      }
    }
  }

  // ---------------------------------------------------------------------------
  // _get_access_token and get_game_ids

  /** What an HTTP request got back: its status and its decoded JSON body. */
  datatype HttpAnswer = HttpAnswer(status: int, body: PyValue)

  /** `raise_for_status()` raises for client and server errors only. */
  predicate RaisesForStatus(status: int) {
    400 <= status < 600
  }

  /** A token lookup: whether the token endpoint was asked, what came back, and the cache after it. */
  datatype TokenCall = TokenCall(requested: bool, result: Result<PyValue, Failure>, cached: PyValue)

  /** `_get_access_token()` with `self._access_token` as `cached`. */
  function GetAccessToken(cached: PyValue, answer: HttpAnswer): (c: TokenCall)
    ensures c.requested <==> !Truthy(cached)
    ensures Truthy(cached) ==> c.result == Ok(cached) && c.cached == cached
    ensures c.result.Ok? ==> c.cached == c.result.value
    ensures c.result.Err? ==> c.cached == cached
    ensures !Truthy(cached) && RaisesForStatus(answer.status) ==> c.result == Err(HttpError(answer.status))
    ensures c.result.Ok? && c.requested ==>
      answer.body.PyDict? && "access_token" in answer.body.entries && c.result.value == answer.body.entries["access_token"]
  {
    if Truthy(cached) then TokenCall(false, Ok(cached), cached)
    else if RaisesForStatus(answer.status) then TokenCall(true, Err(HttpError(answer.status)), cached)
    else
      match answer.body
      case PyDict(entries) =>
        if "access_token" in entries then TokenCall(true, Ok(entries["access_token"]), entries["access_token"])
        else TokenCall(true, Err(KeyError("access_token")), cached)
      case _ => TokenCall(true, Err(TypeError), cached)
  }

  /** The requests `get_game_ids` sends. */
  datatype IgdbRequest =
    | TokenRequest
    | GamesRequest(token: PyValue, body: string)   // the token goes in `Authorization: Bearer ...`

  const GameFields := "id, name, external_games.category, external_games.uid, total_rating_count, cover.url"

  /** The Apicalypse query for a title; the title is inserted as it is, without escaping. */
  function QueryString(query: string): string {
    "where name ~ *\"" + query + "\"*; fields " + GameFields + "; sort total_rating_count desc; limit 10;"
  }

  datatype IdsCall = IdsCall(requests: seq<IgdbRequest>, result: Result<Option<seq<GameSummary>>, Failure>, cached: PyValue)

  /** `get_game_ids(query)`: the token (cached or fetched), the games request, then the summaries in
      popularity order. A status other than 200 that `raise_for_status` lets through returns `None`. */
  function GetGameIds(query: string, cached: PyValue, tokenAnswer: HttpAnswer, gamesAnswer: HttpAnswer): (c: IdsCall)
    ensures Truthy(cached) ==> c.requests == [GamesRequest(cached, QueryString(query))] && c.cached == cached
    ensures GetAccessToken(cached, tokenAnswer).result.Err? ==>
      c == IdsCall([TokenRequest], Err(GetAccessToken(cached, tokenAnswer).result.error), cached)
    ensures GetAccessToken(cached, tokenAnswer).result.Ok? ==>
      && |c.requests| > 0
      && c.requests[|c.requests| - 1] == GamesRequest(GetAccessToken(cached, tokenAnswer).result.value, QueryString(query))
      && c.cached == GetAccessToken(cached, tokenAnswer).result.value
    ensures c.result.Ok? && c.result.value.Some? ==> gamesAnswer.status == 200
    ensures GetAccessToken(cached, tokenAnswer).result.Ok? && gamesAnswer.status != 200 ==>
      c.result == if RaisesForStatus(gamesAnswer.status) then Err(HttpError(gamesAnswer.status)) else Ok(None)
  {
    var token := GetAccessToken(cached, tokenAnswer);
    var asked := if token.requested then [TokenRequest] else [];
    if token.result.Err? then IdsCall(asked, Err(token.result.error), token.cached)
    else
      var requests := asked + [GamesRequest(token.result.value, QueryString(query))];
      if gamesAnswer.status == 200 then
        var listed :=
          var items :- Elements(gamesAnswer.body);
          var games :- Summaries(items);
          var sorted :- SortGames(games);
          Ok(Some(sorted));
        IdsCall(requests, listed, token.cached)
      else if RaisesForStatus(gamesAnswer.status) then IdsCall(requests, Err(HttpError(gamesAnswer.status)), token.cached)
      else IdsCall(requests, Ok(None), token.cached)
  }

  /** A truthy token is fetched once: every later lookup reuses it without a request, whatever the
      token endpoint would answer. */
  lemma TokenFetchedOnce(cached: PyValue, first: HttpAnswer, second: HttpAnswer)
    requires GetAccessToken(cached, first).result.Ok? && Truthy(GetAccessToken(cached, first).result.value)
    ensures var after := GetAccessToken(cached, first).cached;
      GetAccessToken(after, second) == TokenCall(false, GetAccessToken(cached, first).result, after)
  {
  }

  /** An empty token is cached but falsy, so the next lookup asks the token endpoint again. */
  lemma EmptyTokenFetchedAgain(first: HttpAnswer, second: HttpAnswer)
    requires !RaisesForStatus(first.status) && first.body == PyDict(map["access_token" := PyStr("")])
    ensures GetAccessToken(PyNone, first).cached == PyStr("")
    ensures GetAccessToken(GetAccessToken(PyNone, first).cached, second).requested
  {
  }

  /** The list returned for a 200 answer: one summary per game, most popular first, ties in the order
      IGDB listed them. */
  lemma GameIdsSortedByPopularity(query: string, cached: PyValue, tokenAnswer: HttpAnswer, gamesAnswer: HttpAnswer)
    requires GetGameIds(query, cached, tokenAnswer, gamesAnswer).result.Ok?
    requires GetGameIds(query, cached, tokenAnswer, gamesAnswer).result.value.Some?
    ensures gamesAnswer.status == 200 && gamesAnswer.body.PyList? ==> Summaries(gamesAnswer.body.items).Ok?
    ensures var games := GetGameIds(query, cached, tokenAnswer, gamesAnswer).result.value.value;
      && Descending(games)
      && (gamesAnswer.body.PyList? ==>
            && multiset(games) == multiset(Summaries(gamesAnswer.body.items).value)
            && forall k :: WithScore(games, k) == WithScore(Summaries(gamesAnswer.body.items).value, k))
  {
    var items := Elements(gamesAnswer.body).value;
    SortByScoreIsStableDescending(Summaries(items).value);
  }

  /** Two games of equal popularity keep IGDB's order. */
  lemma TiesKeepIgdbOrder(a: GameSummary, b: GameSummary)
    requires Score(a) == Score(b)
    ensures SortByScore([a, b]) == [a, b]
  {
    assert [a, b][..1] == [a];
    assert [a][..0] == [];
    assert SortByScore([a]) == [a];
    assert InsertByScore([a], b) == [a] + [b];
  }
}

=== FILE: json.dfy ===
/**
  JavaScript values as the gateway and the web client see them: parsed JSON
  documents, Express query parameters and the results of property reads.
  Numbers are integers or NaN; fractional numbers are not modelled.
 */
module Json {
  import opened Text

  datatype JsValue =
    | Undefined
    | Null
    | Bool(b: bool)
    | Num(n: int)
    | NaN
    | Str(s: string)
    | Arr(items: seq<JsValue>)
    | Obj(fields: map<string, JsValue>)

  /** JavaScript truthiness: `undefined`, `null`, `false`, `0`, `NaN` and `""` are falsy. */
  predicate Truthy(v: JsValue) {
    match v
    case Undefined => false
    case Null => false
    case Bool(b) => b
    case Num(n) => n != 0
    case NaN => false
    case Str(s) => |s| > 0
    case Arr(_) => true
    case Obj(_) => true
  }

  /** The `typeof` operator. */
  function TypeOf(v: JsValue): string {
    match v
    case Undefined => "undefined"
    case Bool(_) => "boolean"
    case Num(_) => "number"
    case NaN => "number"
    case Str(_) => "string"
    case _ => "object"
  }

  /** `typeof v === 'object' && v !== null`: arrays and plain objects. */
  predicate IsNonNullObject(v: JsValue) {
    v.Arr? || v.Obj?
  }

  /** A value a JSON document can denote: no `undefined` and no `NaN` anywhere inside. */
  predicate IsJsonValue(v: JsValue)
    decreases v
  {
    match v
    case Undefined => false
    case NaN => false
    case Arr(items) => forall i :: 0 <= i < |items| ==> IsJsonValue(items[i])
    case Obj(fields) => forall k :: k in fields ==> IsJsonValue(fields[k])
    case _ => true
  }

  /** Property read `v[key]` on a value that is not `null` or `undefined`. */
  function GetProperty(v: JsValue, key: string): JsValue {
    match v
    case Obj(fields) => if key in fields then fields[key] else Undefined
    case _ => Undefined
  }

  /** Joins strings with a separator (`Array.prototype.join`). */
  function Join(parts: seq<string>, sep: string): string {
    if |parts| == 0 then ""
    else if |parts| == 1 then parts[0]
    else parts[0] + sep + Join(parts[1..], sep)
  }

  /** `String(v)`, the conversion `parseInt` applies to its argument. */
  function ToJsString(v: JsValue): string
    decreases v
  {
    match v
    case Undefined => "undefined"
    case Null => "null"
    case Bool(b) => if b then "true" else "false"
    case Num(n) => IntToString(n)
    case NaN => "NaN"
    case Str(s) => s
    case Arr(items) =>
      // `join` renders null and undefined elements as empty strings
      Join(seq(|items|, i requires 0 <= i < |items| =>
        if items[i].Undefined? || items[i].Null? then "" else ToJsString(items[i])), ",")
    case Obj(_) => "[object Object]"
  }

  /** The own enumerable properties that `{...v}` copies out of `v`. */
  function SpreadFields(v: JsValue): map<string, JsValue> {
    match v
    case Obj(fields) => fields
    case Arr(items) =>
      IndexKeysInjective();
      map i | 0 <= i < |items| :: NatToString(i) := items[i]
    case Str(s) =>
      IndexKeysInjective();
      map i | 0 <= i < |s| :: NatToString(i) := Str([s[i]])
    case _ => map[]
  }

  lemma IndexKeysInjective()
    ensures forall i: nat, j: nat :: NatToString(i) == NatToString(j) ==> i == j
  {
    forall i: nat, j: nat | NatToString(i) == NatToString(j) ensures i == j {
      NatToStringInjective(i, j);
    }
  }

  /** Builds a string-valued JSON object. */
  function StringObject(fields: map<string, string>): JsValue {
    Obj(map k | k in fields :: Str(fields[k]))
  }
}

=== FILE: price_fetcher.dfy ===
/**
  The price-fetcher service's endpoints (price-fetcher/src/main.py):
  `/game-ids` and `/prices` with their input checks, payload shaping and
  the exception-to-status chain, and `/health`. The ITAD client is an input:
  what its call returned or raised. FastAPI's own query-parameter
  validation answers 422 before a handler runs.
 */
module PriceFetcher {
  import opened Wrappers
  import opened Text
  import opened Py

  /** The ITAD client calls a handler made. */
  datatype ClientCall =
    | SearchGameCall(title: string, resultNum: int)
    | PricesCall(ids: seq<string>, country: string)

  datatype HandlerOutcome = HandlerOutcome(calls: seq<ClientCall>, reply: HttpReply)

  const MaxTitleLength := 100
  const MaxResultNum := 100

  /** The body of the app-wide `Exception` handler. */
  const GlobalErrorReply := HttpReply(500, PyDict(map["error" := PyStr("Internal server error"),
                                                       "detail" := PyStr("An unexpected error occurred")]))

  /** A plain exception (`AttributeError`, `TypeError`, ...) raised by the handler's own code. */
  function RaiseOther(text: string): PyException {
    PyException(0, false, false, false, false, text)
  }

  /** The common `except` chain: HTTPException re-raised, then ValueError, ConnectionError, TimeoutError, anything else. */
  function ExceptChain(e: PyException): (r: HttpReply)
    ensures e.isHttpException ==> r == DetailReply(e.httpStatus, e.text)
    ensures !e.isHttpException ==> r.status in {400, 503, 504, 500}
    ensures !e.isHttpException && e.isValueError ==> r == DetailReply(400, "Invalid input: " + e.text)
    ensures !e.isHttpException && !e.isValueError && e.isConnectionError ==>
      r == DetailReply(503, "Unable to connect to external service")
    ensures !e.isHttpException && !e.isValueError && !e.isConnectionError && e.isTimeoutError ==>
      r == DetailReply(504, "Request timed out")
    ensures !e.isHttpException && !e.isValueError && !e.isConnectionError && !e.isTimeoutError ==>
      r == DetailReply(500, "Internal server error")
    ensures r.body.PyDict? && r.body.entries.Keys == {"detail"}
  {
    if e.isHttpException then DetailReply(e.httpStatus, e.text)
    else if e.isValueError then DetailReply(400, "Invalid input: " + e.text)
    else if e.isConnectionError then DetailReply(503, "Unable to connect to external service")
    else if e.isTimeoutError then DetailReply(504, "Request timed out")
    else DetailReply(500, "Internal server error")
  }

  // ---------------------------------------------------------------------------
  // /game-ids

  /** The query constraints FastAPI enforces on `/game-ids` (422 otherwise). */
  predicate GameIdsParamsValid(title: string, resultNum: int) {
    1 <= |title| <= MaxTitleLength && 1 <= resultNum <= MaxResultNum
  }

  /** `results` extracted from what `search_game` returned: a dict's `data.results`, a list itself. */
  function ExtractResults(games: PyValue): (r: Result<PyValue, PyException>)
    ensures games.PyNone? ==> r == Err(RaiseHttp(503, "External API unavailable. Please try again later."))
    ensures games.PyList? ==> r == Ok(games)
    ensures games.PyDict? && DictGet(games.entries, "data", PyDict(map[])).PyDict? ==>
      r == Ok(DictGet(DictGet(games.entries, "data", PyDict(map[])).entries, "results", PyList([])))
    ensures games.PyDict? && !DictGet(games.entries, "data", PyDict(map[])).PyDict? ==> r.Err? && !r.error.isHttpException
    ensures !games.PyNone? && !games.PyList? && !games.PyDict? ==>
      r == Err(RaiseHttp(500, "Unexpected response format"))
  {
    match games
    case PyNone => Err(RaiseHttp(503, "External API unavailable. Please try again later."))
    case PyDict(entries) =>
      var data := DictGet(entries, "data", PyDict(map[]));
      if data.PyDict? then Ok(DictGet(data.entries, "results", PyList([])))
      else Err(RaiseOther("object has no attribute 'get'"))
    case PyList(_) => Ok(games)
    case _ => Err(RaiseHttp(500, "Unexpected response format"))
  }

  /** The body built from the payload and its results; `len` of an unsized value raises `TypeError`. */
  function ShapeGames(title: string, games: PyValue, results: PyValue): (r: Result<PyValue, PyException>)
    ensures !Truthy(results) ==>
      r == Ok(PyDict(map["games" := PyList([]), "message" := PyStr("No games found for '" + title + "'"),
                         "count" := PyInt(0)]))
    ensures Truthy(results) && HasLen(results) ==>
      r == Ok(PyDict(map["games" := games, "count" := PyInt(Len(results))]))
    ensures Truthy(results) && !HasLen(results) ==> r.Err? && !r.error.isHttpException
  {
    if !Truthy(results) then
      Ok(PyDict(map["games" := PyList([]), "message" := PyStr("No games found for '" + title + "'"),
                    "count" := PyInt(0)]))
    else if !HasLen(results) then Err(RaiseOther("object has no len()"))
    else Ok(PyDict(map["games" := games, "count" := PyInt(Len(results))]))
  }

  /** Everything after a successful `search_game` call: the reply for a returned payload. */
  function AfterSearch(title: string, games: PyValue): HttpReply {
    match ExtractResults(games)
    case Err(e) => ExceptChain(e)
    case Ok(results) =>
      match ShapeGames(title, games, results)
      case Err(e) => ExceptChain(e)
      case Ok(body) => HttpReply(200, body)
  }

  /**
    `get_game` as written: when `search_game` itself raises a plain exception,
    the last `except` branch logs `games`, which was never bound; the
    resulting `UnboundLocalError` escapes to the app-wide handler.
   */
  function GetGameAsWritten(title: string, resultNum: int, search: PyOutcome): (o: HandlerOutcome)
    ensures GameIdsParamsValid(title, resultNum) && !AllSatisfy(title, IsPySpace) && search.Raised?
            && !search.exc.isHttpException && !search.exc.isValueError
            && !search.exc.isConnectionError && !search.exc.isTimeoutError ==>
      o.reply == GlobalErrorReply
  {
    if !GameIdsParamsValid(title, resultNum) then HandlerOutcome([], HttpReply(422, PyNone))
    else if |PyStrip(title)| == 0 then HandlerOutcome([], DetailReply(400, "Game title cannot be empty"))
    else
      var calls := [SearchGameCall(PyStrip(title), resultNum)];
      match search
      case Raised(e) =>
        var plain := !e.isHttpException && !e.isValueError && !e.isConnectionError && !e.isTimeoutError;
        HandlerOutcome(calls, if plain then GlobalErrorReply else ExceptChain(e))
      case Returned(games) => HandlerOutcome(calls, AfterSearch(title, games))
  }

  /** `get_game` as evidently intended: every plain exception is answered with the handler's own 500. */
  function GetGame(title: string, resultNum: int, search: PyOutcome): (o: HandlerOutcome)
    ensures !GameIdsParamsValid(title, resultNum) ==> o == HandlerOutcome([], HttpReply(422, PyNone))
    ensures GameIdsParamsValid(title, resultNum) && AllSatisfy(title, IsPySpace) ==>
      o == HandlerOutcome([], DetailReply(400, "Game title cannot be empty"))
    ensures GameIdsParamsValid(title, resultNum) && !AllSatisfy(title, IsPySpace) ==>
      o.calls == [SearchGameCall(PyStrip(title), resultNum)]
    ensures search.Raised? ==> o.reply != GlobalErrorReply
  {
    if !GameIdsParamsValid(title, resultNum) then HandlerOutcome([], HttpReply(422, PyNone))
    else if |PyStrip(title)| == 0 then HandlerOutcome([], DetailReply(400, "Game title cannot be empty"))
    else
      var calls := [SearchGameCall(PyStrip(title), resultNum)];
      match search
      case Raised(e) =>
        assert "error" in GlobalErrorReply.body.entries;
        HandlerOutcome(calls, ExceptChain(e))
      case Returned(games) => HandlerOutcome(calls, AfterSearch(title, games))
  }

  /** The search payload shapes: None is 503, an unexpected type 500, a dict or list the `games` envelope. */
  lemma SearchPayloadReplies(title: string, resultNum: int, games: PyValue)
    requires GameIdsParamsValid(title, resultNum) && !AllSatisfy(title, IsPySpace)
    ensures var r := GetGame(title, resultNum, Returned(games)).reply;
      && (games.PyNone? ==> r == DetailReply(503, "External API unavailable. Please try again later."))
      && (games.PyBool? || games.PyInt? || games.PyStr? ==> r == DetailReply(500, "Unexpected response format"))
      && (games.PyList? && |games.items| > 0 ==>
            r == HttpReply(200, PyDict(map["games" := games, "count" := PyInt(|games.items|)])))
      && (games.PyList? && |games.items| == 0 ==>
            r == HttpReply(200, PyDict(map["games" := PyList([]),
                                           "message" := PyStr("No games found for '" + title + "'"),
                                           "count" := PyInt(0)])))
  {
  }

  /**
    For the ITAD dict shape, `count` is the number of `data.results` while
    `games` carries the whole payload back.
   */
  lemma DictPayloadCountsResults(title: string, resultNum: int, games: PyValue, results: seq<PyValue>)
    requires GameIdsParamsValid(title, resultNum) && !AllSatisfy(title, IsPySpace)
    requires games.PyDict? && "data" in games.entries && games.entries["data"].PyDict?
    requires "results" in games.entries["data"].entries && games.entries["data"].entries["results"] == PyList(results)
    requires |results| > 0
    ensures GetGame(title, resultNum, Returned(games)).reply ==
      HttpReply(200, PyDict(map["games" := games, "count" := PyInt(|results|)]))
  {
  }

  /** The exception chain of `get_game` for an exception the client raised. */
  lemma SearchExceptionStatus(title: string, resultNum: int, e: PyException)
    requires GameIdsParamsValid(title, resultNum) && !AllSatisfy(title, IsPySpace)
    ensures var r := GetGame(title, resultNum, Raised(e)).reply;
      && (e.isHttpException ==> r.status == e.httpStatus)
      && (!e.isHttpException && e.isValueError ==> r.status == 400)
      && (!e.isHttpException && !e.isValueError && e.isConnectionError ==> r.status == 503)
      && (!e.isHttpException && !e.isValueError && !e.isConnectionError && e.isTimeoutError ==> r.status == 504)
      && (!e.isHttpException && !e.isValueError && !e.isConnectionError && !e.isTimeoutError ==>
            r == DetailReply(500, "Internal server error"))
  {
  }

  /** The two versions differ only when the client raises a plain exception. */
  lemma GetGameVersionsAgreeOtherwise(title: string, resultNum: int, search: PyOutcome)
    requires search.Returned? || search.exc.isHttpException || search.exc.isValueError
             || search.exc.isConnectionError || search.exc.isTimeoutError
    ensures GetGameAsWritten(title, resultNum, search) == GetGame(title, resultNum, search)
  {
  }

  /** A client failing with, say, a `RuntimeError` gets the app-wide body as written, not the handler's own. */
  lemma GetGameUnboundGamesWitness()
    ensures GetGameAsWritten("portal", 20, Raised(RaiseOther("boom"))).reply == GlobalErrorReply
    ensures GetGame("portal", 20, Raised(RaiseOther("boom"))).reply == DetailReply(500, "Internal server error")
    ensures GetGameAsWritten("portal", 20, Raised(RaiseOther("boom"))).reply !=
      GetGame("portal", 20, Raised(RaiseOther("boom"))).reply
  {
    assert !AllSatisfy("portal", IsPySpace) by {
      assert !IsPySpace("portal"[0]);
    }
    var body1 := GlobalErrorReply.body.entries;
    assert "error" in body1;
    assert "error" !in DetailReply(500, "Internal server error").body.entries;
  }

  // ---------------------------------------------------------------------------
  // /prices

  /** The query constraints FastAPI enforces on `/prices`: at least one id, a country of at most 2 characters. */
  predicate PricesParamsValid(ids: seq<string>, country: string) {
    |ids| >= 1 && |country| <= 2
  }

  /** `country.strip() if country else "GB"`. */
  function CountryCode(country: string): (code: string)
    ensures |country| == 0 ==> code == "GB"
    ensures |country| > 0 ==> code == PyStrip(country)
  {
    if |country| == 0 then "GB" else PyStrip(country)
  }

  /** `get_prices(id, country)` (the default country is "US"). */
  function GetPrices(ids: seq<string>, country: string, prices: PyOutcome): (o: HandlerOutcome)
    ensures !PricesParamsValid(ids, country) ==> o == HandlerOutcome([], HttpReply(422, PyNone))
    ensures PricesParamsValid(ids, country) && |country| == 1 ==>
      o == HandlerOutcome([], DetailReply(400, "Country code must be 2 characters"))
    ensures PricesParamsValid(ids, country) && |country| != 1 ==> o.calls == [PricesCall(ids, CountryCode(country))]
    ensures o.reply.status == 200 && !(prices.Raised? && prices.exc.isHttpException) ==>
      prices.Returned? && o.reply.body == prices.value && !prices.value.PyNone?
    ensures PricesParamsValid(ids, country) && |country| != 1 && prices.Raised? ==> o.reply == ExceptChain(prices.exc)
  {
    if !PricesParamsValid(ids, country) then HandlerOutcome([], HttpReply(422, PyNone))
    else if |ids| == 0 then HandlerOutcome([], DetailReply(400, "Game id cannot be empty"))
    else if |country| > 0 && |country| != 2 then HandlerOutcome([], DetailReply(400, "Country code must be 2 characters"))
    else
      var calls := [PricesCall(ids, CountryCode(country))];
      match prices
      case Raised(e) => HandlerOutcome(calls, ExceptChain(e))
      case Returned(PyNone) => HandlerOutcome(calls, DetailReply(503, "External API unavailable. Please try again later."))
      case Returned(v) => HandlerOutcome(calls, HttpReply(200, v))
  }

  /** The exception chain of `get_prices` for an exception the client raised. */
  lemma PricesExceptionStatus(ids: seq<string>, country: string, e: PyException)
    requires PricesParamsValid(ids, country) && |country| != 1
    ensures var r := GetPrices(ids, country, Raised(e)).reply;
      && (e.isHttpException ==> r.status == e.httpStatus)
      && (!e.isHttpException && e.isValueError ==> r.status == 400)
      && (!e.isHttpException && !e.isValueError && e.isConnectionError ==> r.status == 503)
      && (!e.isHttpException && !e.isValueError && !e.isConnectionError && e.isTimeoutError ==> r.status == 504)
      && (!e.isHttpException && !e.isValueError && !e.isConnectionError && !e.isTimeoutError ==>
            r == DetailReply(500, "Internal server error"))
  {
  }

  /** Whatever the client returns other than None is passed through unchanged; None is 503. */
  lemma PricesPassThrough(ids: seq<string>, country: string, v: PyValue)
    requires PricesParamsValid(ids, country) && |country| != 1
    ensures v.PyNone? ==>
      GetPrices(ids, country, Returned(v)).reply == DetailReply(503, "External API unavailable. Please try again later.")
    ensures !v.PyNone? ==> GetPrices(ids, country, Returned(v)).reply == HttpReply(200, v)
  {
  }

  /** An empty country is asked for as "GB", the default "US" as "US". */
  lemma PricesCountryDefaults(ids: seq<string>, prices: PyOutcome)
    requires |ids| >= 1
    ensures GetPrices(ids, "", prices).calls == [PricesCall(ids, "GB")]
    ensures GetPrices(ids, "US", prices).calls == [PricesCall(ids, "US")]
  {
    TrimOfTrimmed("US", IsPySpace);
  }

  // ---------------------------------------------------------------------------
  // /health

  /** `health_check`: healthy whenever `search_game("test")` returns, whatever it returns. */
  function HealthCheck(search: PyOutcome): (r: HttpReply)
    ensures r.status == 200 <==> search.Returned?
    ensures search.Raised? ==> r == DetailReply(503, "Service unhealthy")
  {
    match search
    case Returned(_) =>
      HttpReply(200, PyDict(map["status" := PyStr("healthy"), "service" := PyStr("price-fetcher"),
                                "api_key_configured" := PyBool(true)]))
    case Raised(_) => DetailReply(503, "Service unhealthy")
  }
}

=== FILE: prices.dfy ===
/**
  The gateway's `GET /api/games/prices` handler
  (services/api-gateway/src/routes/games.ts): id validation, one upstream call
  with a 20000 ms timeout, the object check on the answer and the reply
  envelope. The route does not use the cache.
 */
module Prices {
  import opened Wrappers
  import opened Text
  import opened Json
  import opened Http
  import opened Uri
  import opened Errors
  import opened Validation
  import opened Fetch
  import opened ErrorHandler
  import opened Search

  const PricesTimeoutMs := 20000

  /** `${priceFetcherServiceUrl}/prices?id=${encodeURIComponent(gameId)}`. */
  function PricesUrl(env: Option<string>, gameId: string): string {
    PriceFetcherBase(env) + "/prices?id=" + EncodeURIComponent(gameId)
  }

  function PricesOptions(): FetchOptions {
    FetchOptions(Some(PricesTimeoutMs), None)
  }

  /** The reply sent and the upstream requests issued (none or one). */
  datatype PricesOutcome = PricesOutcome(reply: Reply, requests: seq<Request>)

  /** The 200 body: the id, the upstream object as `prices`, and the timing fields. */
  function PricesEnvelope(gameId: string, data: JsValue, c: Clock): JsValue {
    Obj(map[
      "id" := Str(gameId),
      "prices" := data,
      "timestamp" := Str(c.isoNow),
      "responseTime" := Str(IntToString(c.now - c.startTime.GetOr(0)) + "ms")])
  }

  /** The part of the route after validation. */
  function FetchPrices(gameId: string, env: Option<string>, upstream: FetchOutcome, c: Clock): (o: PricesOutcome)
    ensures o.requests == [Request(PricesUrl(env, gameId), DefaultHeaders, PricesTimeoutMs)]
    ensures o.reply.status == 200 <==>
      upstream.Responded? && IsOk(upstream.response)
      && upstream.response.body.JsonText? && IsNonNullObject(upstream.response.body.value)
    ensures o.reply.status == 200 ==> o.reply == Reply(200, map[], PricesEnvelope(gameId, upstream.response.body.value, c))
  {
    var call := FetchWithErrorHandling(PricesUrl(env, gameId), PriceFetcherService, PricesOptions(), upstream);
    match call.result
    case Err(t) => PricesOutcome(HandleApiError(t, c), [call.request])
    case Ok(response) =>
      match ReadUpstreamObject(response.body)
      case Err(t) => PricesOutcome(HandleApiError(t, c), [call.request])
      case Ok(data) => PricesOutcome(Reply(200, map[], PricesEnvelope(gameId, data, c)), [call.request])
  }

  /** The `/prices` route: `c.startTime` is the handler's own `Date.now()`. */
  function HandlePrices(id: JsValue, env: Option<string>, upstream: FetchOutcome, c: Clock): (o: PricesOutcome)
    requires c.startTime.Some?
    ensures ValidateGameId(id).Err? ==> o.requests == [] && o.reply.status == 400
    ensures ValidateGameId(id).Ok? ==>
      o.requests == [Request(PricesUrl(env, ValidateGameId(id).value), DefaultHeaders, PricesTimeoutMs)]
    ensures o.reply.status == 200 ==>
      && ValidateGameId(id).Ok?
      && upstream.Responded? && upstream.response.body.JsonText?
      && o.reply.body == PricesEnvelope(ValidateGameId(id).value, upstream.response.body.value, c)
  {
    match ValidateGameId(id)
    case Err(e) => PricesOutcome(HandleApiError(Classified(e), c), [])
    case Ok(gameId) => FetchPrices(gameId, env, upstream, c)
  }

  // ---------------------------------------------------------------------------
  // Properties of the route

  /** A valid id never needs escaping: the URL carries the trimmed id verbatim. */
  lemma ValidIdSentVerbatim(id: JsValue, env: Option<string>)
    requires ValidateGameId(id).Ok?
    ensures PricesUrl(env, ValidateGameId(id).value) == PriceFetcherBase(env) + "/prices?id=" + ValidateGameId(id).value
  {
    var gameId := ValidateGameId(id).value;
    assert IsUuidText(gameId);
    assert AllSatisfy(gameId, IsUnreserved) by {
      forall k | 0 <= k < |gameId| ensures IsUnreserved(gameId[k]) {
        if k == 8 || k == 13 || k == 18 || k == 23 {
          assert gameId[k] == '-';
        } else {
          assert IsHexDigit(gameId[k]);
        }
      }
    }
  }

  /** The upstream service reads back exactly the id sent, whatever the text. */
  lemma PricesUrlCarriesId(env: Option<string>, gameId: string)
    ensures var prefix := PriceFetcherBase(env) + "/prices?id=";
      && StartsWith(PricesUrl(env, gameId), prefix)
      && DecodeURIComponent(PricesUrl(env, gameId)[|prefix|..]) == Some(gameId)
  {
    var prefix := PriceFetcherBase(env) + "/prices?id=";
    var url := PricesUrl(env, gameId);
    assert url[..|prefix|] == prefix;
    assert url[|prefix|..] == EncodeURIComponent(gameId);
    DecodeEncode(gameId);
  }

  /** A valid id goes on to the upstream call. */
  lemma ValidIdGoesUpstream(id: JsValue, env: Option<string>, upstream: FetchOutcome, c: Clock)
    requires c.startTime.Some?
    requires ValidateGameId(id).Ok?
    ensures HandlePrices(id, env, upstream, c) == FetchPrices(ValidateGameId(id).value, env, upstream, c)
  {
  }

  /** A JSON object answer is relayed unchanged under `prices`, next to the id. */
  lemma FetchPricesRelaysObject(gameId: string, env: Option<string>, resp: Response, c: Clock)
    requires IsOk(resp) && resp.body.JsonText? && IsNonNullObject(resp.body.value)
    ensures var r := FetchPrices(gameId, env, Responded(resp), c).reply;
      && r.status == 200
      && "id" in r.body.fields && r.body.fields["id"] == Str(gameId)
      && "prices" in r.body.fields && r.body.fields["prices"] == resp.body.value
      && r.body.fields.Keys == {"id", "prices", "timestamp", "responseTime"}
  {
  }

  /** At the route: the validated, trimmed id and the upstream object come back with 200. */
  lemma ObjectAnswerRelayed(id: JsValue, env: Option<string>, resp: Response, c: Clock)
    requires c.startTime.Some?
    requires ValidateGameId(id).Ok?
    requires IsOk(resp) && resp.body.JsonText? && IsNonNullObject(resp.body.value)
    ensures var r := HandlePrices(id, env, Responded(resp), c).reply;
      && r.status == 200
      && "id" in r.body.fields && r.body.fields["id"] == Str(JsTrim(id.s))
      && "prices" in r.body.fields && r.body.fields["prices"] == resp.body.value
      && r.body.fields.Keys == {"id", "prices", "timestamp", "responseTime"}
  {
    ValidIdGoesUpstream(id, env, Responded(resp), c);
    FetchPricesRelaysObject(ValidateGameId(id).value, env, resp, c);
  }

  /** An ok answer that is not a JSON object is answered with the DataFormatError. */
  lemma FetchPricesBadBody(gameId: string, env: Option<string>, resp: Response, c: Clock)
    requires IsOk(resp) && (resp.body.NotJson? || !IsNonNullObject(resp.body.value))
    ensures var r := FetchPrices(gameId, env, Responded(resp), c).reply;
      && r == HandleApiError(Classified(InvalidUpstreamJson), c)
      && r.status == 502
      && "code" in r.body.fields && r.body.fields["code"] == Str("DATA_FORMAT_ERROR")
  {
    var call := FetchWithErrorHandling(PricesUrl(env, gameId), PriceFetcherService, PricesOptions(), Responded(resp));
    assert call.result == Ok(resp);
  }

  /** At the route: an ok answer that is not a JSON object (text, null, a number, a string) is answered 502. */
  lemma NonObjectAnswerIs502(id: JsValue, env: Option<string>, resp: Response, c: Clock)
    requires c.startTime.Some?
    requires ValidateGameId(id).Ok?
    requires IsOk(resp) && (resp.body.NotJson? || !IsNonNullObject(resp.body.value))
    ensures var r := HandlePrices(id, env, Responded(resp), c).reply;
      && r.status == 502
      && r.body.fields["code"] == Str("DATA_FORMAT_ERROR")
  {
    ValidIdGoesUpstream(id, env, Responded(resp), c);
    FetchPricesBadBody(ValidateGameId(id).value, env, resp, c);
  }

  /** An upstream 404 is thrown on as the NotFoundError naming the price fetcher. */
  lemma FetchPricesNotFound(gameId: string, env: Option<string>, resp: Response, c: Clock)
    requires resp.status == 404
    ensures var r := FetchPrices(gameId, env, Responded(resp), c).reply;
      && r == HandleApiError(Classified(CreateErrorFromResponse(resp, Some(PriceFetcherService))), c)
      && r.status == 404
      && "resource" in r.body.fields && r.body.fields["resource"] == Str(PriceFetcherService)
  {
    ReplyKindFields(Classified(CreateErrorFromResponse(resp, Some(PriceFetcherService))), c);
  }

  /** At the route: the upstream 404 becomes a 404 naming the price fetcher as the missing resource. */
  lemma UpstreamNotFoundIs404(id: JsValue, env: Option<string>, resp: Response, c: Clock)
    requires c.startTime.Some?
    requires ValidateGameId(id).Ok?
    requires resp.status == 404
    ensures var r := HandlePrices(id, env, Responded(resp), c).reply;
      && r.status == 404
      && "resource" in r.body.fields && r.body.fields["resource"] == Str(PriceFetcherService)
  {
    ValidIdGoesUpstream(id, env, Responded(resp), c);
    FetchPricesNotFound(ValidateGameId(id).value, env, resp, c);
  }
}

=== FILE: py.dfy ===
/**
  Python values as the Python services see them: decoded JSON payloads,
  dictionaries returned by HTTP clients and the handlers' results.
  Floating-point numbers are not modelled.
 */
module Py {

  datatype PyValue =
    | PyNone
    | PyBool(b: bool)
    | PyInt(i: int)
    | PyStr(s: string)
    | PyList(items: seq<PyValue>)
    | PyDict(entries: map<string, PyValue>)

  /** Python truthiness: `None`, `False`, `0` and empty containers are falsy. */
  predicate Truthy(v: PyValue) {
    match v
    case PyNone => false
    case PyBool(b) => b
    case PyInt(i) => i != 0
    case PyStr(s) => |s| > 0
    case PyList(items) => |items| > 0
    case PyDict(entries) => |entries| > 0
  }

  /** `len(v)`, defined for strings, lists and dictionaries only (otherwise `TypeError`). */
  predicate HasLen(v: PyValue) {
    v.PyStr? || v.PyList? || v.PyDict?
  }

  function Len(v: PyValue): nat
    requires HasLen(v)
  {
    match v
    case PyStr(s) => |s|
    case PyList(items) => |items|
    case PyDict(entries) => |entries|
  }

  /** `d.get(key, default)` on a dictionary. */
  function DictGet(entries: map<string, PyValue>, key: string, default: PyValue): PyValue {
    if key in entries then entries[key] else default
  }

  /** A raised Python exception, described by the `except` clauses it satisfies. */
  datatype PyException = PyException(
    httpStatus: int,          // meaningful only when isHttpException
    isHttpException: bool,
    isValueError: bool,
    isConnectionError: bool,
    isTimeoutError: bool,
    text: string)             // `str(e)`, or the HTTPException detail

  /** An `HTTPException` raised by a handler or a collaborator. */
  function RaiseHttp(status: int, detail: string): PyException {
    PyException(status, true, false, false, false, detail)
  }

  /** What a call into a collaborator (an HTTP client) did: returned a value or raised. */
  datatype PyOutcome = Returned(value: PyValue) | Raised(exc: PyException)

  // ---------------------------------------------------------------------------
  // FastAPI replies

  /** A FastAPI response: status and JSON body. The 422 body FastAPI builds is left abstract (None). */
  datatype HttpReply = HttpReply(status: int, body: PyValue)

  /** `HTTPException(status, detail)` as FastAPI renders it. */
  function DetailReply(status: int, detail: string): HttpReply {
    HttpReply(status, PyDict(map["detail" := PyStr(detail)]))
  }

  /**
    What FastAPI sends for a handler that returned a value or let an exception
    escape: the value with 200, an `HTTPException` as its status and detail,
    anything else as the plain-text 500 of the server middleware.
   */
  function Render(outcome: PyOutcome): HttpReply {
    match outcome
    case Returned(value) => HttpReply(200, value)
    case Raised(exc) =>
      if exc.isHttpException then DetailReply(exc.httpStatus, exc.text)
      else HttpReply(500, PyStr("Internal Server Error"))
  }
}

=== FILE: redis_client.dfy ===
/**
  The gateway's cache client (services/api-gateway/src/utils/redisClient.ts):
  the connection URL built from the environment, the no-op adapter used when
  `REDIS_OFF` is "true", the `get`/`setEx` behaviour of the store and the
  bounded connect-retry loop. The Redis server is an abstract map of string
  values with expiry times; a broken connection is a fault the store reports.
 */
module RedisClient {
  import opened Wrappers
  import opened Text
  import opened Http
  import opened Errors

  const RedisPort := "6379"
  const MaxRetries := 10
  const RetryDelayMs := 2000

  /** `process.env.REDIS_OFF === 'true'`. */
  predicate RedisOff(redisOffEnv: Option<string>) {
    redisOffEnv == Some("true")
  }

  /** `process.env.X || fallback`: an unset or empty variable takes the fallback. */
  function EnvOr(env: Option<string>, fallback: string): (v: string)
    ensures env.Some? && |env.value| > 0 ==> v == env.value
    ensures env.None? || |env.value| == 0 ==> v == fallback
  {
    match env
    case Some(value) => if |value| > 0 then value else fallback
    case None => fallback
  }

  /** The connection URL: credentials carry the password only when one is set. */
  function RedisUrl(hostEnv: Option<string>, passwordEnv: Option<string>): (url: string)
    ensures var host := EnvOr(hostEnv, "localhost");
      EndsWith(url, "@" + host + ":" + RedisPort)
  {
    var host := EnvOr(hostEnv, "localhost");
    var password := EnvOr(passwordEnv, "");
    if |password| > 0 then "redis://default:" + password + "@" + host + ":" + RedisPort
    else "redis://default@" + host + ":" + RedisPort
  }

  /**
    The URL names a password (`redis://default:<password>@`) exactly when the
    variable is set and non-empty, and the password can be read back from it.
   */
  lemma RedisUrlCredentials(hostEnv: Option<string>, passwordEnv: Option<string>)
    ensures var url := RedisUrl(hostEnv, passwordEnv);
      && StartsWith(url, "redis://default")
      && (StartsWith(url, "redis://default:") <==> passwordEnv.Some? && |passwordEnv.value| > 0)
      && (StartsWith(url, "redis://default@") <==> passwordEnv.None? || |passwordEnv.value| == 0)
      && (passwordEnv.Some? && |passwordEnv.value| > 0 ==>
            url[16..16 + |passwordEnv.value|] == passwordEnv.value && url[16 + |passwordEnv.value|] == '@')
  {
    if passwordEnv.Some? && |passwordEnv.value| > 0 {
      UrlWithPassword(hostEnv, passwordEnv.value);
    } else {
      UrlWithoutPassword(hostEnv, passwordEnv);
    }
  }

  /** `head` followed by anything starts with `head`, and with any prefix of it. */
  lemma HeadPrefixes(head: string, tail: string, p: string)
    requires |p| <= |head| && head[..|p|] == p
    ensures StartsWith(head + tail, p)
  {
    SliceOfFront(head, tail, 0, |p|);
  }

  /** With a password the URL is `redis://default:` + password + `@`... */
  lemma UrlWithPassword(hostEnv: Option<string>, pw: string)
    requires |pw| > 0
    ensures var url := RedisUrl(hostEnv, Some(pw));
      && StartsWith(url, "redis://default") && StartsWith(url, "redis://default:")
      && !StartsWith(url, "redis://default@")
      && url[16..16 + |pw|] == pw && url[16 + |pw|] == '@'
  {
    var url := RedisUrl(hostEnv, Some(pw));
    var head := "redis://default:";
    var rest := "@" + EnvOr(hostEnv, "localhost") + ":" + RedisPort;
    assert url == head + (pw + rest);
    assert StartsWith(url, "redis://default") by {
      HeadPrefixes(head, pw + rest, "redis://default");
    }
    assert StartsWith(url, head) by {
      HeadPrefixes(head, pw + rest, head);
    }
    assert url[15] == ':';
    assert url[16..16 + |pw|] == pw by {
      SliceOfBack(head, pw + rest, 16, 16 + |pw|);
      SliceOfFront(pw, rest, 0, |pw|);
    }
    assert url[16 + |pw|] == (pw + rest)[|pw|] == rest[0];
  }

  /** Without one it is `redis://default@`... */
  lemma UrlWithoutPassword(hostEnv: Option<string>, passwordEnv: Option<string>)
    requires passwordEnv.None? || |passwordEnv.value| == 0
    ensures var url := RedisUrl(hostEnv, passwordEnv);
      && StartsWith(url, "redis://default") && StartsWith(url, "redis://default@")
      && !StartsWith(url, "redis://default:")
  {
    var url := RedisUrl(hostEnv, passwordEnv);
    var head := "redis://default@";
    var rest := EnvOr(hostEnv, "localhost") + ":" + RedisPort;
    assert url == head + rest;
    assert StartsWith(url, "redis://default") by {
      HeadPrefixes(head, rest, "redis://default");
    }
    assert StartsWith(url, head) by {
      HeadPrefixes(head, rest, head);
    }
    assert url[15] == '@';
  }

  // ---------------------------------------------------------------------------
  // The store

  /** A stored string value and the instant (ms) from which it is expired. */
  datatype Entry = Entry(value: Body, expiresAt: int)

  /**
    The client `redisClient` ends up being: the dummy adapter, or a connection
    to a server holding `entries`; `fault` is the error every command fails with
    while the connection is broken.
   */
  datatype Store = NoOpStore | RedisStore(entries: map<string, Entry>, fault: Option<ErrorInfo>)

  /** The client selected by `REDIS_OFF`. */
  function InitialStore(redisOffEnv: Option<string>): (s: Store)
    ensures s.NoOpStore? <==> RedisOff(redisOffEnv)
    ensures s.RedisStore? ==> s.entries == map[] && s.fault.None?
  {
    if RedisOff(redisOffEnv) then NoOpStore else RedisStore(map[], None)
  }

  /** `await redisClient.get(key)` at time `now`: the live value, null, or a rejection. */
  function Get(s: Store, key: string, now: int): (r: Result<Option<Body>, Thrown>)
    ensures s.NoOpStore? ==> r == Ok(None)
    ensures s.RedisStore? && s.fault.Some? ==> r == Err(Unclassified(s.fault.value))
    ensures r.Ok? && r.value.Some? <==>
      s.RedisStore? && s.fault.None? && key in s.entries && now < s.entries[key].expiresAt
    ensures r.Ok? && r.value.Some? ==> r.value.value == s.entries[key].value
  {
    match s
    case NoOpStore => Ok(None)
    case RedisStore(entries, fault) =>
      if fault.Some? then Err(Unclassified(fault.value))
      else if key in entries && now < entries[key].expiresAt then Ok(Some(entries[key].value))
      else Ok(None)
  }

  /** `await redisClient.setEx(key, ttlSeconds, value)` at time `now`: the new store, or a rejection. */
  function SetEx(s: Store, key: string, ttlSeconds: nat, value: Body, now: int): (r: Result<Store, Thrown>)
    requires ttlSeconds > 0
    ensures s.NoOpStore? ==> r == Ok(NoOpStore)
    ensures s.RedisStore? && s.fault.Some? ==> r == Err(Unclassified(s.fault.value))
    ensures r.Ok? && s.RedisStore? ==>
      && r.value.RedisStore? && r.value.fault.None?
      && r.value.entries.Keys == s.entries.Keys + {key}
      && (forall k :: k in s.entries && k != key ==> r.value.entries[k] == s.entries[k])
    ensures s.RedisStore? && s.fault.None? ==>
      r.Ok? && key in r.value.entries && r.value.entries[key] == Entry(value, now + ttlSeconds * 1000)
  {
    match s
    case NoOpStore => Ok(NoOpStore)
    case RedisStore(entries, fault) =>
      if fault.Some? then Err(Unclassified(fault.value))
      else Ok(RedisStore(entries[key := Entry(value, now + ttlSeconds * 1000)], None))
  }

  /** A value written with `setEx` is read back until its time-to-live has elapsed, and not after. */
  lemma GetAfterSetEx(s: Store, key: string, ttlSeconds: nat, value: Body, written: int, now: int)
    requires ttlSeconds > 0 && s.RedisStore? && s.fault.None?
    requires written <= now
    ensures var s' := SetEx(s, key, ttlSeconds, value, written).value;
      && (now < written + ttlSeconds * 1000 ==> Get(s', key, now) == Ok(Some(value)))
      && (now >= written + ttlSeconds * 1000 ==> Get(s', key, now) == Ok(None))
  {
  }

  /** Writing one key leaves every other key's reading unchanged. */
  lemma SetExIsolatesKeys(s: Store, key: string, other: string, ttlSeconds: nat, value: Body, written: int, now: int)
    requires ttlSeconds > 0 && key != other
    requires SetEx(s, key, ttlSeconds, value, written).Ok?
    ensures Get(SetEx(s, key, ttlSeconds, value, written).value, other, now) == Get(s, other, now)
  {
  }

  /** With `REDIS_OFF=true`, every read is null and every write is a no-op, whatever was written before. */
  lemma NoOpStoreNeverHits(redisOffEnv: Option<string>, key: string, ttlSeconds: nat, value: Body, now: int)
    requires RedisOff(redisOffEnv) && ttlSeconds > 0
    ensures Get(InitialStore(redisOffEnv), key, now) == Ok(None)
    ensures SetEx(InitialStore(redisOffEnv), key, ttlSeconds, value, now) == Ok(InitialStore(redisOffEnv))
  {
  }

  // ---------------------------------------------------------------------------
  // Connecting

  /**
    How `connectWithRetry` ends: connected by the attempt numbered `retries`,
    `atMs` after the call being modelled began, or `process.exit(1)`.
   */
  datatype ConnectOutcome = Connected(retries: nat, atMs: int) | Exited(code: int)

  /** Number of `connect()` calls made before the outcome. */
  function AttemptsMade(o: ConnectOutcome, from: nat): int {
    match o
    case Connected(retries, _) => retries - from + 1
    case Exited(_) => MaxRetries - from + 1
  }

  /**
    `connectWithRetry(retries)`: `connects(k)` says whether the attempt made
    with counter `k` succeeds. A failure re-arms a 2000 ms timer while fewer
    than 10 retries have been made; otherwise the process exits with code 1.
   */
  function ConnectWithRetry(retries: nat, connects: nat -> bool): (o: ConnectOutcome)
    requires retries <= MaxRetries
    decreases MaxRetries - retries
    ensures o.Connected? ==>
      && retries <= o.retries <= MaxRetries
      && connects(o.retries)
      && (forall k :: retries <= k < o.retries ==> !connects(k))
      && o.atMs == (o.retries - retries) * RetryDelayMs
    ensures o.Exited? ==> o.code == 1 && forall k :: retries <= k <= MaxRetries ==> !connects(k)
    ensures 1 <= AttemptsMade(o, retries) <= MaxRetries - retries + 1
  {
    if connects(retries) then Connected(retries, 0)
    else if retries < MaxRetries then
      match ConnectWithRetry(retries + 1, connects)
      case Connected(k, atMs) => Connected(k, atMs + RetryDelayMs)
      case Exited(code) => Exited(code)
    else Exited(1)
  }

  /** From the initial call: at most 11 attempts, and the first successful one stops the loop. */
  lemma ConnectStopsAtFirstSuccess(connects: nat -> bool, k: nat)
    requires k <= MaxRetries && connects(k)
    requires forall j :: 0 <= j < k ==> !connects(j)
    ensures ConnectWithRetry(0, connects) == Connected(k, k * RetryDelayMs)
  {
  }

  /** Eleven failed attempts, 2000 ms apart, end the process with exit code 1. */
  lemma ConnectGivesUpAfterElevenAttempts(connects: nat -> bool)
    requires forall k :: 0 <= k <= MaxRetries ==> !connects(k)
    ensures ConnectWithRetry(0, connects) == Exited(1)
    ensures AttemptsMade(ConnectWithRetry(0, connects), 0) == 11
  {
  }
}

=== FILE: search.dfy ===
/**
  The gateway's `GET /api/games/search` handler
  (services/api-gateway/src/routes/games.ts): query validation, page
  parameters, the cache key, the cache-aside lookup, one upstream call on a
  miss, local pagination and the write-back with a time-to-live.
  The handler's external actions are recorded as a trace of effects.
 */
module Search {
  import opened Wrappers
  import opened Text
  import opened Json
  import opened Http
  import opened Uri
  import opened Errors
  import opened Validation
  import opened Fetch
  import opened ErrorHandler
  import opened RedisClient

  const DefaultPriceFetcherUrl := "http://price-fetcher:8000"
  const PriceFetcherService := "price-fetcher"
  const FetchLimit := 100
  const SearchTimeoutMs := 15000
  const CacheTtlSeconds := 300
  const MaxPageSize := 100
  const DefaultPageSize := 20

  // ---------------------------------------------------------------------------
  // Page parameters

  /** `parseInt(v as string, 10) || fallback`: NaN and 0 take the fallback. */
  function ParsedOr(v: JsValue, fallback: int): (n: int)
    ensures ParseInt10(ToJsString(v)).None? ==> n == fallback
    ensures ParseInt10(ToJsString(v)) == Some(0) ==> n == fallback
    ensures ParseInt10(ToJsString(v)).Some? && ParseInt10(ToJsString(v)).value != 0 ==>
      n == ParseInt10(ToJsString(v)).value
  {
    match ParseInt10(ToJsString(v))
    case None => fallback
    case Some(parsed) => if parsed == 0 then fallback else parsed
  }

  /** `Math.max(1, parseInt(page, 10) || 1)`. */
  function ParsePage(v: JsValue): (page: int)
    ensures page >= 1
  {
    var n := ParsedOr(v, 1);
    if n < 1 then 1 else n
  }

  /** `Math.min(100, Math.max(1, parseInt(page_size, 10) || 20))`: clamped, never rejected. */
  function ParsePageSize(v: JsValue): (size: int)
    ensures 1 <= size <= MaxPageSize
  {
    var n := ParsedOr(v, DefaultPageSize);
    var atLeastOne := if n < 1 then 1 else n;
    if atLeastOne > MaxPageSize then MaxPageSize else atLeastOne
  }

  /** A page number written in decimal is taken as is; absent, "0", garbage and negatives all give page 1. */
  lemma ParsePageCases(n: int)
    ensures n >= 1 ==> ParsePage(Str(IntToString(n))) == n
    ensures n <= 0 ==> ParsePage(Str(IntToString(n))) == 1
    ensures ParsePage(Undefined) == 1
  {
    ParseIntOfIntToString(n);
    UndefinedIsNotANumber();
  }

  /** `parseInt(undefined, 10)` reads the string "undefined", which is not a number. */
  lemma UndefinedIsNotANumber()
    ensures ParseInt10("undefined") == None
  {
    assert LeadingCount("undefined", IsJsSpace) == 0;
    assert "undefined"[0..] == "undefined";
  }

  /**
    A page size written in decimal is taken as is within 1..100; larger ones
    are cut to 100, negative ones raised to 1, and "0" or an absent parameter
    gives the default 20.
   */
  lemma ParsePageSizeCases(n: int)
    ensures 1 <= n <= MaxPageSize ==> ParsePageSize(Str(IntToString(n))) == n
    ensures n > MaxPageSize ==> ParsePageSize(Str(IntToString(n))) == MaxPageSize
    ensures n < 0 ==> ParsePageSize(Str(IntToString(n))) == 1
    ensures ParsePageSize(Str("0")) == DefaultPageSize
    ensures ParsePageSize(Undefined) == DefaultPageSize
  {
    ParseIntOfIntToString(n);
    ZeroPageSize();
    UndefinedIsNotANumber();
  }

  /** "0" parses, but to a falsy 0, so the default is used. */
  lemma ZeroPageSize()
    ensures ParsePageSize(Str("0")) == DefaultPageSize
  {
    ParseIntOfIntToString(0);
  }

  // ---------------------------------------------------------------------------
  // Cache key

  /** `gamesearch:${query}:${page}:${pageSize}`. */
  function CacheKey(query: string, page: int, pageSize: int): string {
    "gamesearch:" + query + ":" + IntToString(page) + ":" + IntToString(pageSize)
  }

  /** Every key is in the `gamesearch:` namespace and ends in the page size after its last `:`. */
  lemma CacheKeyShape(query: string, page: int, pageSize: int)
    ensures StartsWith(CacheKey(query, page, pageSize), "gamesearch:")
    ensures var key := CacheKey(query, page, pageSize);
      pageSize >= 0 ==> key[LastColon(key) + 1..] == IntToString(pageSize)
  {
    var front := "gamesearch:" + query + ":" + IntToString(page);
    assert CacheKey(query, page, pageSize)[..|"gamesearch:"|] == "gamesearch:";
    if pageSize >= 0 {
      LastColonBeforeDigits(front, IntToString(pageSize));
    }
  }

  /** Index of the last `:` in `s`, or -1. */
  function LastColon(s: string): int
    ensures -1 <= LastColon(s) < |s|
  {
    if |s| == 0 then -1 else if s[|s| - 1] == ':' then |s| - 1 else LastColon(s[..|s| - 1])
  }

  /** When only digits follow a `:`, that `:` is the last one. */
  lemma {:induction false} LastColonBeforeDigits(a: string, d: string)
    requires AllSatisfy(d, IsDigit)
    ensures LastColon(a + ":" + d) == |a|
    decreases |d|
  {
    var x := a + ":" + d;
    if |d| > 0 {
      var d' := d[..|d| - 1];
      assert x[..|x| - 1] == a + ":" + d';
      assert x[|x| - 1] == d[|d| - 1];
      LastColonBeforeDigits(a, d');
    }
  }

  /** Splitting a string at its last `:` when what follows is digits only. */
  lemma SplitAtLastColon(a: string, d1: string, b: string, d2: string)
    requires AllSatisfy(d1, IsDigit) && AllSatisfy(d2, IsDigit)
    requires a + ":" + d1 == b + ":" + d2
    ensures a == b && d1 == d2
  {
    var x := a + ":" + d1;
    LastColonBeforeDigits(a, d1);
    LastColonBeforeDigits(b, d2);
    assert |a| == |b|;
    assert d1 == x[|a| + 1..] == d2;
    assert a == x[..|a|] == b;
  }

  /** Distinct (query, page, size) triples never share a cache entry, whatever the query contains. */
  lemma CacheKeyInjective(q1: string, p1: nat, s1: nat, q2: string, p2: nat, s2: nat)
    requires CacheKey(q1, p1, s1) == CacheKey(q2, p2, s2)
    ensures q1 == q2 && p1 == p2 && s1 == s2
  {
    var a1 := "gamesearch:" + q1 + ":" + IntToString(p1);
    var a2 := "gamesearch:" + q2 + ":" + IntToString(p2);
    assert CacheKey(q1, p1, s1) == a1 + ":" + IntToString(s1);
    assert CacheKey(q2, p2, s2) == a2 + ":" + IntToString(s2);
    SplitAtLastColon(a1, IntToString(s1), a2, IntToString(s2));
    assert a1 == ("gamesearch:" + q1) + ":" + IntToString(p1);
    assert a2 == ("gamesearch:" + q2) + ":" + IntToString(p2);
    SplitAtLastColon("gamesearch:" + q1, IntToString(p1), "gamesearch:" + q2, IntToString(p2));
    assert q1 == ("gamesearch:" + q1)[11..];
    assert q2 == ("gamesearch:" + q2)[11..];
    NatToStringInjective(p1, p2);
    NatToStringInjective(s1, s2);
  }

  // ---------------------------------------------------------------------------
  // Local pagination

  /** `Math.ceil(total / pageSize)`. */
  function TotalPages(total: nat, pageSize: int): (pages: nat)
    requires pageSize >= 1
    ensures pages * pageSize >= total
    ensures pages > 0 ==> (pages - 1) * pageSize < total
  {
    (total + pageSize - 1) / pageSize
  }

  /** `items.slice((page - 1) * pageSize, (page - 1) * pageSize + pageSize)`. */
  function Paginate<T>(items: seq<T>, page: int, pageSize: int): (r: seq<T>)
    requires page >= 1 && pageSize >= 1
    ensures |r| <= pageSize
    ensures (page - 1) * pageSize >= |items| ==> |r| == 0
    ensures (page - 1) * pageSize < |items| ==>
      && |r| == (if |items| - (page - 1) * pageSize < pageSize then |items| - (page - 1) * pageSize else pageSize)
      && forall i :: 0 <= i < |r| ==> r[i] == items[(page - 1) * pageSize + i]
  {
    var start := (page - 1) * pageSize;
    var end := start + pageSize;
    if start >= |items| then [] else items[start..if end < |items| then end else |items|]
  }

  /** Pages 1..k laid end to end. */
  function PagesUpTo<T>(items: seq<T>, pageSize: int, k: nat): seq<T>
    requires pageSize >= 1
  {
    if k == 0 then [] else PagesUpTo(items, pageSize, k - 1) + Paginate(items, k, pageSize)
  }

  lemma {:induction false} PagesUpToIsPrefix<T>(items: seq<T>, pageSize: int, k: nat)
    requires pageSize >= 1
    ensures PagesUpTo(items, pageSize, k) == items[..if k * pageSize < |items| then k * pageSize else |items|]
  {
    if k > 0 {
      PagesUpToIsPrefix(items, pageSize, k - 1);
      var start := (k - 1) * pageSize;
      assert k * pageSize == start + pageSize;
      var page := Paginate(items, k, pageSize);
      if start < |items| {
        var end := if k * pageSize < |items| then k * pageSize else |items|;
        assert page == items[start..end];
        assert items[..start] + items[start..end] == items[..end];
      }
    }
  }

  /** Pages 1..total_pages partition the result list, in order. */
  lemma PagesPartitionList<T>(items: seq<T>, pageSize: int)
    requires pageSize >= 1
    ensures PagesUpTo(items, pageSize, TotalPages(|items|, pageSize)) == items
  {
    PagesUpToIsPrefix(items, pageSize, TotalPages(|items|, pageSize));
  }

  /** Every page after the last one is empty. */
  lemma PagesBeyondTotalAreEmpty<T>(items: seq<T>, pageSize: int, page: int)
    requires pageSize >= 1 && page > TotalPages(|items|, pageSize)
    ensures Paginate(items, page, pageSize) == []
  {
    var t := TotalPages(|items|, pageSize);
    assert (page - 1) * pageSize >= t * pageSize;
  }

  // ---------------------------------------------------------------------------
  // The handler

  /** The request's query parameters. */
  datatype SearchParams = SearchParams(query: JsValue, page: JsValue, pageSize: JsValue)

  /** What the handler did to the outside world, in order. */
  datatype Effect =
    | CacheRead(key: string)
    | UpstreamFetch(request: Request)
    | CacheWrite(key: string, ttlSeconds: int, value: Body)

  /** The reply sent, the effects performed and the cache afterwards. */
  datatype Outcome = Outcome(reply: Reply, effects: seq<Effect>, store: Store)

  const InvalidUpstreamJson := NewDataFormatError("Invalid JSON response from price fetcher service", "JSON")

  /** `process.env.PRICE_FETCHER_SERVICE_URL || 'http://price-fetcher:8000'`. */
  function PriceFetcherBase(env: Option<string>): string {
    EnvOr(env, DefaultPriceFetcherUrl)
  }

  function SearchUrl(env: Option<string>, query: string): string {
    PriceFetcherBase(env) + "/game-ids?title=" + EncodeURIComponent(query) + "&result_num=" + IntToString(FetchLimit)
  }

  function SearchOptions(): FetchOptions {
    FetchOptions(Some(SearchTimeoutMs), None)
  }

  /** `response.json()` followed by `validateResponseData(data, 'object')`; any failure becomes the DataFormatError. */
  function ReadUpstreamObject(body: Body): (r: Result<JsValue, Thrown>)
    ensures r.Ok? <==> body.JsonText? && IsNonNullObject(body.value)
    ensures r.Ok? ==> r.value == body.value
    ensures r.Err? ==> r.error == Classified(InvalidUpstreamJson)
  {
    match body
    case NotJson(_) => Err(Classified(InvalidUpstreamJson))
    case JsonText(data) =>
      if ValidateResponseData(data, Some("object")).Err? then Err(Classified(InvalidUpstreamJson)) else Ok(data)
  }

  /** The page of `data.games || []` and its total length; a truthy non-list value makes `.slice` throw. */
  function PageOfGames(data: JsValue, page: int, pageSize: int): (r: Result<(JsValue, nat), Thrown>)
    requires page >= 1 && pageSize >= 1
    ensures var games := GetProperty(data, "games");
      && (!Truthy(games) ==> r == Ok((Arr([]), 0)))
      && (games.Arr? ==> r == Ok((Arr(Paginate(games.items, page, pageSize)), |games.items|)))
      && (games.Str? && Truthy(games) ==> r == Ok((Str(Paginate(games.s, page, pageSize)), |games.s|)))
      && (r.Err? <==> Truthy(games) && !games.Arr? && !games.Str?)
  {
    var games := GetProperty(data, "games");
    if !Truthy(games) then Ok((Arr([]), 0))
    else if games.Arr? then Ok((Arr(Paginate(games.items, page, pageSize)), |games.items|))
    else if games.Str? then Ok((Str(Paginate(games.s, page, pageSize)), |games.s|))
    else Err(Unclassified(ErrorInfo("TypeError", "allResults.slice is not a function")))
  }

  /** The response object built after a miss. */
  function ResponseData(query: string, results: JsValue, total: nat, page: int, pageSize: int, c: Clock): JsValue
    requires pageSize >= 1
  {
    Obj(map[
      "query" := Str(query),
      "results" := results,
      "count" := Num(total),
      "page" := Num(page),
      "page_size" := Num(pageSize),
      "total_pages" := Num(TotalPages(total, pageSize)),
      "timestamp" := Str(c.isoNow),
      "responseTime" := Str(IntToString(c.now - c.startTime.GetOr(0)) + "ms")])
  }

  /** `if (cached)`: an empty string is falsy; any JSON document text is not. */
  predicate IsCacheHit(cached: Option<Body>) {
    cached.Some? && cached.value != NotJson("")
  }

  /** The reply to a cache hit: `JSON.parse(cached)` spread, plus `cached: true`. */
  function CachedReply(cached: Body, c: Clock): Reply {
    match cached
    case JsonText(v) => Reply(200, map[], Obj(SpreadFields(v)["cached" := Bool(true)]))
    case NotJson(_) => HandleApiError(Unclassified(ErrorInfo("SyntaxError", "Unexpected token in JSON")), c)
  }

  /** Upstream requests among the effects. */
  function FetchCount(effects: seq<Effect>): nat {
    if |effects| == 0 then 0
    else (if effects[0].UpstreamFetch? then 1 else 0) + FetchCount(effects[1..])
  }

  /** A miss trace (read, fetch, possibly a write) holds exactly one upstream request. */
  lemma MissTraceFetchesOnce(key: string, request: Request, tail: seq<Effect>)
    requires |tail| <= 1 && (|tail| == 1 ==> tail[0].CacheWrite?)
    ensures FetchCount([CacheRead(key), UpstreamFetch(request)] + tail) == 1
  {
    var t := [CacheRead(key), UpstreamFetch(request)] + tail;
    assert t[1..] == [UpstreamFetch(request)] + tail;
    assert t[1..][1..] == tail;
    assert FetchCount(tail) == 0 by {
      if |tail| == 1 {
        assert tail[1..] == [];
      }
    }
    assert FetchCount(t[1..]) == 1 + FetchCount(tail);
    assert FetchCount(t) == FetchCount(t[1..]);
  }

  /** The write-back: the envelope is stored for 300 seconds and sent; a failing write is answered as an error. */
  function StoreEnvelope(envelope: JsValue, key: string, fetched: seq<Effect>, store: Store, c: Clock): (o: Outcome)
    ensures o.effects == fetched + [CacheWrite(key, CacheTtlSeconds, JsonText(envelope))]
    ensures SetEx(store, key, CacheTtlSeconds, JsonText(envelope), c.now).Ok? ==>
      o.reply == Reply(200, map[], envelope) && o.store == SetEx(store, key, CacheTtlSeconds, JsonText(envelope), c.now).value
    ensures SetEx(store, key, CacheTtlSeconds, JsonText(envelope), c.now).Err? ==>
      o.reply == HandleApiError(SetEx(store, key, CacheTtlSeconds, JsonText(envelope), c.now).error, c) && o.store == store
  {
    var written := fetched + [CacheWrite(key, CacheTtlSeconds, JsonText(envelope))];
    match SetEx(store, key, CacheTtlSeconds, JsonText(envelope), c.now)
    case Err(t) => Outcome(HandleApiError(t, c), written, store)
    case Ok(store') => Outcome(Reply(200, map[], envelope), written, store')
  }

  /** After a miss: one upstream call, then pagination and the write-back. */
  function AfterMiss(query: string, page: int, pageSize: int, key: string, env: Option<string>,
                     upstream: FetchOutcome, store: Store, c: Clock): (o: Outcome)
    requires page >= 1 && pageSize >= 1
    ensures 2 <= |o.effects| <= 3
    ensures o.effects[0] == CacheRead(key)
    ensures o.effects[1] == UpstreamFetch(Request(SearchUrl(env, query), DefaultHeaders, SearchTimeoutMs))
    ensures |o.effects| == 3 ==> o.effects[2].CacheWrite? && o.effects[2].key == key
    ensures FetchCount(o.effects) == 1
    ensures o.store != store ==> o.reply.status == 200 && |o.effects| == 3
  {
    var fetchCall := FetchWithErrorHandling(SearchUrl(env, query), PriceFetcherService, SearchOptions(), upstream);
    var fetched := [CacheRead(key), UpstreamFetch(fetchCall.request)];
    MissTraceFetchesOnce(key, fetchCall.request, []);
    assert fetched + [] == fetched;
    match fetchCall.result
    case Err(t) => Outcome(HandleApiError(t, c), fetched, store)
    case Ok(response) =>
      match ReadUpstreamObject(response.body)
      case Err(t) => Outcome(HandleApiError(t, c), fetched, store)
      case Ok(data) =>
        match PageOfGames(data, page, pageSize)
        case Err(t) => Outcome(HandleApiError(t, c), fetched, store)
        case Ok((results, total)) =>
          var envelope := ResponseData(query, results, total, page, pageSize, c);
          MissTraceFetchesOnce(key, fetchCall.request, [CacheWrite(key, CacheTtlSeconds, JsonText(envelope))]);
          StoreEnvelope(envelope, key, fetched, store, c)
  }

  /** The cache-aside part, once the query and the page parameters are known. */
  function CacheAside(query: string, page: int, pageSize: int, env: Option<string>, upstream: FetchOutcome,
                      store: Store, c: Clock): (o: Outcome)
    requires page >= 1 && pageSize >= 1
    ensures 1 <= |o.effects| <= 3
    ensures o.effects[0] == CacheRead(CacheKey(query, page, pageSize))
    ensures FetchCount(o.effects) <= 1
    ensures o.store != store ==> o.reply.status == 200 && |o.effects| == 3
  {
    var key := CacheKey(query, page, pageSize);
    match Get(store, key, c.now)
    case Err(t) => Outcome(HandleApiError(t, c), [CacheRead(key)], store)
    case Ok(cached) =>
      if IsCacheHit(cached) then Outcome(CachedReply(cached.value, c), [CacheRead(key)], store)
      else AfterMiss(query, page, pageSize, key, env, upstream, store, c)
  }

  /** The `/search` route: `c.startTime` is the handler's own `Date.now()`. */
  function HandleSearch(params: SearchParams, env: Option<string>, upstream: FetchOutcome, store: Store, c: Clock): (o: Outcome)
    requires c.startTime.Some?
    ensures |o.effects| <= 3
    ensures o.effects != [] ==> o.effects[0].CacheRead?
    ensures FetchCount(o.effects) <= 1
    ensures o.store != store ==> o.reply.status == 200 && |o.effects| == 3
  {
    match ValidateSearchQuery(params.query)
    case Err(e) => Outcome(HandleApiError(Classified(e), c), [], store)
    case Ok(query) => CacheAside(query, ParsePage(params.page), ParsePageSize(params.pageSize), env, upstream, store, c)
  }

  // ---------------------------------------------------------------------------
  // Properties of the route

  /** An invalid query is answered 400 before the cache or the upstream service is touched. */
  lemma ValidationFailsBeforeAnyEffect(params: SearchParams, env: Option<string>, upstream: FetchOutcome, store: Store, c: Clock)
    requires c.startTime.Some?
    requires ValidateSearchQuery(params.query).Err?
    ensures var o := HandleSearch(params, env, upstream, store, c);
      o.effects == [] && o.store == store && o.reply.status == 400
  {
  }

  /** A cache hit reads one key, makes no upstream call and replies with the cached object marked `cached: true`. */
  lemma CacheHitSkipsUpstream(params: SearchParams, env: Option<string>, upstream: FetchOutcome, store: Store, c: Clock,
                              query: string, v: JsValue)
    requires c.startTime.Some?
    requires ValidateSearchQuery(params.query) == Ok(query)
    requires Get(store, CacheKey(query, ParsePage(params.page), ParsePageSize(params.pageSize)), c.now) == Ok(Some(JsonText(v)))
    ensures var o := HandleSearch(params, env, upstream, store, c);
      && o.effects == [CacheRead(CacheKey(query, ParsePage(params.page), ParsePageSize(params.pageSize)))]
      && o.store == store
      && o.reply == Reply(200, map[], Obj(SpreadFields(v)["cached" := Bool(true)]))
  {
  }

  /**
    On a miss, the one upstream request asks for 100 results of the trimmed
    query with a 15000 ms timeout, whatever page size was requested.
   */
  lemma MissFetchesOnce(params: SearchParams, env: Option<string>, upstream: FetchOutcome, store: Store, c: Clock, query: string)
    requires c.startTime.Some?
    requires ValidateSearchQuery(params.query) == Ok(query)
    requires Get(store, CacheKey(query, ParsePage(params.page), ParsePageSize(params.pageSize)), c.now) == Ok(None)
    ensures var o := HandleSearch(params, env, upstream, store, c);
      && |o.effects| >= 2
      && o.effects[1] == UpstreamFetch(Request(SearchUrl(env, query), DefaultHeaders, SearchTimeoutMs))
  {
  }

  /** A failing cache is not caught separately: the request is answered 500. */
  lemma CacheFailureIs500(params: SearchParams, env: Option<string>, upstream: FetchOutcome, store: Store, c: Clock, info: ErrorInfo)
    requires c.startTime.Some?
    requires ValidateSearchQuery(params.query).Ok?
    requires store.RedisStore? && store.fault == Some(info)
    ensures HandleSearch(params, env, upstream, store, c).reply.status == 500
  {
  }

  /** A valid query that misses the cache continues with the upstream call. */
  lemma MissGoesUpstream(params: SearchParams, env: Option<string>, upstream: FetchOutcome, store: Store, c: Clock, query: string)
    requires c.startTime.Some?
    requires ValidateSearchQuery(params.query) == Ok(query)
    requires Get(store, CacheKey(query, ParsePage(params.page), ParsePageSize(params.pageSize)), c.now) == Ok(None)
    ensures var page := ParsePage(params.page);
      var pageSize := ParsePageSize(params.pageSize);
      HandleSearch(params, env, upstream, store, c) ==
        AfterMiss(query, page, pageSize, CacheKey(query, page, pageSize), env, upstream, store, c)
  {
  }

  /** After a miss, an ok answer whose body is not a JSON object is answered with the DataFormatError. */
  lemma AfterMissBadBody(query: string, page: int, pageSize: int, key: string, env: Option<string>,
                         resp: Response, store: Store, c: Clock)
    requires page >= 1 && pageSize >= 1
    requires IsOk(resp) && (resp.body.NotJson? || !IsNonNullObject(resp.body.value))
    ensures var o := AfterMiss(query, page, pageSize, key, env, Responded(resp), store, c);
      && o.reply.status == 502
      && "code" in o.reply.body.fields && o.reply.body.fields["code"] == Str("DATA_FORMAT_ERROR")
      && o.store == store
  {
    var call := FetchWithErrorHandling(SearchUrl(env, query), PriceFetcherService, SearchOptions(), Responded(resp));
    assert call.result == Ok(resp);
    var o := AfterMiss(query, page, pageSize, key, env, Responded(resp), store, c);
    assert o.reply == HandleApiError(Classified(InvalidUpstreamJson), c);
  }

  /** An upstream body that is not JSON, or JSON that is not an object, is answered 502. */
  lemma BadUpstreamBodyIs502(params: SearchParams, env: Option<string>, resp: Response, store: Store, c: Clock, query: string)
    requires c.startTime.Some?
    requires ValidateSearchQuery(params.query) == Ok(query)
    requires Get(store, CacheKey(query, ParsePage(params.page), ParsePageSize(params.pageSize)), c.now) == Ok(None)
    requires IsOk(resp) && (resp.body.NotJson? || !IsNonNullObject(resp.body.value))
    ensures var o := HandleSearch(params, env, Responded(resp), store, c);
      && o.reply.status == 502
      && o.reply.body.fields["code"] == Str("DATA_FORMAT_ERROR")
      && o.store == store
  {
    var page := ParsePage(params.page);
    var pageSize := ParsePageSize(params.pageSize);
    MissGoesUpstream(params, env, Responded(resp), store, c, query);
    AfterMissBadBody(query, page, pageSize, CacheKey(query, page, pageSize), env, resp, store, c);
  }

  /** After a miss, an object answer with a `games` list reaches the write-back with the page of `games`. */
  lemma AfterMissReachesWriteBack(query: string, page: int, pageSize: int, key: string, env: Option<string>,
                                  resp: Response, store: Store, c: Clock, items: seq<JsValue>)
    requires page >= 1 && pageSize >= 1
    requires IsOk(resp) && resp.body.JsonText? && resp.body.value.Obj?
    requires GetProperty(resp.body.value, "games") == Arr(items)
    ensures AfterMiss(query, page, pageSize, key, env, Responded(resp), store, c) ==
      StoreEnvelope(ResponseData(query, Arr(Paginate(items, page, pageSize)), |items|, page, pageSize, c), key,
                    [CacheRead(key), UpstreamFetch(Request(SearchUrl(env, query), DefaultHeaders, SearchTimeoutMs))],
                    store, c)
  {
    var call := FetchWithErrorHandling(SearchUrl(env, query), PriceFetcherService, SearchOptions(), Responded(resp));
    assert call.result == Ok(resp);
    assert ReadUpstreamObject(resp.body) == Ok(resp.body.value);
    assert PageOfGames(resp.body.value, page, pageSize) == Ok((Arr(Paginate(items, page, pageSize)), |items|));
  }

  /** A write-back to a working cache sends and stores the envelope, whose fields describe the page. */
  lemma WriteBackSucceeds(query: string, results: JsValue, total: nat, page: int, pageSize: int, key: string,
                          fetched: seq<Effect>, store: Store, c: Clock)
    requires pageSize >= 1 && |fetched| == 2
    requires store.RedisStore? && store.fault.None?
    ensures var o := StoreEnvelope(ResponseData(query, results, total, page, pageSize, c), key, fetched, store, c);
      && o.reply.status == 200
      && o.reply.body.Obj?
      && o.effects[2] == CacheWrite(key, CacheTtlSeconds, JsonText(o.reply.body))
      && o.store == SetEx(store, key, CacheTtlSeconds, JsonText(o.reply.body), c.now).value
      && "results" in o.reply.body.fields && o.reply.body.fields["results"] == results
      && "count" in o.reply.body.fields && o.reply.body.fields["count"] == Num(total)
      && "total_pages" in o.reply.body.fields && o.reply.body.fields["total_pages"] == Num(TotalPages(total, pageSize))
      && "query" in o.reply.body.fields && o.reply.body.fields["query"] == Str(query)
  {
  }

  /** After a miss, an object answer with a `games` list is paginated, written back and returned. */
  lemma AfterMissSuccess(query: string, page: int, pageSize: int, key: string, env: Option<string>,
                         resp: Response, store: Store, c: Clock, items: seq<JsValue>)
    requires page >= 1 && pageSize >= 1
    requires store.RedisStore? && store.fault.None?
    requires IsOk(resp) && resp.body.JsonText? && resp.body.value.Obj?
    requires GetProperty(resp.body.value, "games") == Arr(items)
    ensures var o := AfterMiss(query, page, pageSize, key, env, Responded(resp), store, c);
      && o.reply.status == 200
      && o.reply.body.Obj?
      && o.effects[2] == CacheWrite(key, CacheTtlSeconds, JsonText(o.reply.body))
      && o.store == SetEx(store, key, CacheTtlSeconds, JsonText(o.reply.body), c.now).value
      && "results" in o.reply.body.fields && o.reply.body.fields["results"] == Arr(Paginate(items, page, pageSize))
      && "count" in o.reply.body.fields && o.reply.body.fields["count"] == Num(|items|)
      && "total_pages" in o.reply.body.fields && o.reply.body.fields["total_pages"] == Num(TotalPages(|items|, pageSize))
      && "query" in o.reply.body.fields && o.reply.body.fields["query"] == Str(query)
  {
    AfterMissReachesWriteBack(query, page, pageSize, key, env, resp, store, c, items);
    WriteBackSucceeds(query, Arr(Paginate(items, page, pageSize)), |items|, page, pageSize, key,
                      [CacheRead(key), UpstreamFetch(Request(SearchUrl(env, query), DefaultHeaders, SearchTimeoutMs))],
                      store, c);
  }

  /**
    A successful miss replies with exactly the envelope it caches under the
    request's key for 300 seconds; `results` is the requested page of
    `games`, `count` the length of `games` and `total_pages` its page count.
   */
  lemma MissWritesBackEnvelope(params: SearchParams, env: Option<string>, resp: Response, store: Store, c: Clock,
                               query: string, items: seq<JsValue>)
    requires c.startTime.Some?
    requires ValidateSearchQuery(params.query) == Ok(query)
    requires store.RedisStore? && store.fault.None?
    requires Get(store, CacheKey(query, ParsePage(params.page), ParsePageSize(params.pageSize)), c.now) == Ok(None)
    requires IsOk(resp) && resp.body.JsonText? && resp.body.value.Obj?
    requires GetProperty(resp.body.value, "games") == Arr(items)
    ensures var page := ParsePage(params.page);
      var pageSize := ParsePageSize(params.pageSize);
      var key := CacheKey(query, page, pageSize);
      var o := HandleSearch(params, env, Responded(resp), store, c);
      && o.reply.status == 200
      && o.reply.body.Obj?
      && |o.effects| == 3
      && o.effects[2] == CacheWrite(key, CacheTtlSeconds, JsonText(o.reply.body))
      && SetEx(store, key, CacheTtlSeconds, JsonText(o.reply.body), c.now).Ok?
      && o.store == SetEx(store, key, CacheTtlSeconds, JsonText(o.reply.body), c.now).value
      && "results" in o.reply.body.fields && "count" in o.reply.body.fields
      && "total_pages" in o.reply.body.fields && "query" in o.reply.body.fields
      && o.reply.body.fields["results"] == Arr(Paginate(items, page, pageSize))
      && o.reply.body.fields["count"] == Num(|items|)
      && o.reply.body.fields["total_pages"] == Num(TotalPages(|items|, pageSize))
      && o.reply.body.fields["query"] == Str(query)
  {
    var page := ParsePage(params.page);
    var pageSize := ParsePageSize(params.pageSize);
    MissGoesUpstream(params, env, Responded(resp), store, c, query);
    AfterMissSuccess(query, page, pageSize, CacheKey(query, page, pageSize), env, resp, store, c, items);
  }

  /**
    Asking again within the time-to-live is served from the cache: no upstream
    call, and the same envelope comes back marked `cached: true`.
   */
  lemma RepeatWithinTtlHitsCache(params: SearchParams, env: Option<string>, resp: Response, upstream2: FetchOutcome,
                                 store: Store, c: Clock, c2: Clock, query: string, items: seq<JsValue>)
    requires c.startTime.Some? && c2.startTime.Some?
    requires c.now <= c2.now < c.now + CacheTtlSeconds * 1000
    requires ValidateSearchQuery(params.query) == Ok(query)
    requires store.RedisStore? && store.fault.None?
    requires Get(store, CacheKey(query, ParsePage(params.page), ParsePageSize(params.pageSize)), c.now) == Ok(None)
    requires IsOk(resp) && resp.body.JsonText? && resp.body.value.Obj?
    requires GetProperty(resp.body.value, "games") == Arr(items)
    ensures var first := HandleSearch(params, env, Responded(resp), store, c);
      var second := HandleSearch(params, env, upstream2, first.store, c2);
      && first.reply.body.Obj?
      && |second.effects| == 1
      && second.reply == Reply(200, map[], Obj(first.reply.body.fields["cached" := Bool(true)]))
  {
    var first := HandleSearch(params, env, Responded(resp), store, c);
    MissCachedUntilExpiry(params, env, resp, store, c, c2.now, query, items);
    CacheHitSkipsUpstream(params, env, upstream2, first.store, c2, query, first.reply.body);
  }

  /** After a successful miss, the cached envelope is what the key reads until the time-to-live ends. */
  lemma MissCachedUntilExpiry(params: SearchParams, env: Option<string>, resp: Response, store: Store, c: Clock,
                              later: int, query: string, items: seq<JsValue>)
    requires c.startTime.Some?
    requires c.now <= later < c.now + CacheTtlSeconds * 1000
    requires ValidateSearchQuery(params.query) == Ok(query)
    requires store.RedisStore? && store.fault.None?
    requires Get(store, CacheKey(query, ParsePage(params.page), ParsePageSize(params.pageSize)), c.now) == Ok(None)
    requires IsOk(resp) && resp.body.JsonText? && resp.body.value.Obj?
    requires GetProperty(resp.body.value, "games") == Arr(items)
    ensures var first := HandleSearch(params, env, Responded(resp), store, c);
      && first.reply.body.Obj?
      && Get(first.store, CacheKey(query, ParsePage(params.page), ParsePageSize(params.pageSize)), later)
         == Ok(Some(JsonText(first.reply.body)))
  {
    var key := CacheKey(query, ParsePage(params.page), ParsePageSize(params.pageSize));
    var first := HandleSearch(params, env, Responded(resp), store, c);
    MissWritesBackEnvelope(params, env, resp, store, c, query, items);
    GetAfterSetEx(store, key, CacheTtlSeconds, JsonText(first.reply.body), c.now, later);
  }
}

=== FILE: steam.dfy ===
/**
  The Steam price parser of the game-price fetcher
  (game-price-fetcher/src/fetchers/steam.py): the app-details payload is a
  dictionary from app id to app data, and the first app data that reports
  success and carries `data` decides the result. The payload's values are
  given in their dictionary (insertion) order.
 */
module Steam {
  import opened Wrappers
  import opened Py

  /** The only exception the parser's own code can raise: `.get` on a value that is not a dict. */
  datatype Failure = AttributeError

  const InvalidResponse := "Invalid response"
  const NoPriceInfo := "No price info available"

  /** The parser's error results, `{"error": message}`. */
  function ErrorResult(message: string): PyValue {
    PyDict(map["error" := PyStr(message)])
  }

  /** The fields copied from `price_overview`. */
  const PriceFields: set<string> := {"currency", "initial", "final", "discount_percent", "final_formatted"}

  /** App data that reports success and has `data`: it decides the result. */
  predicate Qualifies(appdata: PyValue) {
    appdata.PyDict? && Truthy(DictGet(appdata.entries, "success", PyNone)) && "data" in appdata.entries
  }

  /** The five price fields of `price_info`, each `None` when missing. */
  function PriceResult(info: map<string, PyValue>): (r: map<string, PyValue>)
    ensures r.Keys == PriceFields
    ensures forall field :: field in PriceFields ==> r[field] == DictGet(info, field, PyNone)
  {
    map[
      "currency" := DictGet(info, "currency", PyNone),
      "initial" := DictGet(info, "initial", PyNone),
      "final" := DictGet(info, "final", PyNone),
      "discount_percent" := DictGet(info, "discount_percent", PyNone),
      "final_formatted" := DictGet(info, "final_formatted", PyNone)]
  }

  /** What the deciding app data's `data` gives: its price, or the no-price error. */
  function Decide(data: PyValue): (r: Result<PyValue, Failure>)
    ensures !data.PyDict? ==> r == Err(AttributeError)
    ensures data.PyDict? && !Truthy(DictGet(data.entries, "price_overview", PyNone)) ==> r == Ok(ErrorResult(NoPriceInfo))
    ensures data.PyDict? && DictGet(data.entries, "price_overview", PyNone).PyDict?
            && Truthy(DictGet(data.entries, "price_overview", PyNone)) ==>
      r == Ok(PyDict(PriceResult(DictGet(data.entries, "price_overview", PyNone).entries)))
    ensures data.PyDict? && Truthy(DictGet(data.entries, "price_overview", PyNone))
            && !DictGet(data.entries, "price_overview", PyNone).PyDict? ==>
      r == Err(AttributeError)
  {
    if !data.PyDict? then Err(AttributeError)
    else
      var info := DictGet(data.entries, "price_overview", PyNone);
      if !Truthy(info) then Ok(ErrorResult(NoPriceInfo))
      // a truthy list, string or number has no `.get`
      else if !info.PyDict? then Err(AttributeError)
      else Ok(PyDict(PriceResult(info.entries)))
  }

  /** Every app data before index `i` is a dict that does not qualify: the loop went past it. */
  ghost predicate PassedOver(values: seq<PyValue>, i: int) {
    i <= |values| && forall j :: 0 <= j < i ==> values[j].PyDict? && !Qualifies(values[j])
  }

  /** Where the loop stops: the first app data that is not a dict or qualifies, or the end. */
  ghost function FirstStop(values: seq<PyValue>): (k: nat)
    ensures k <= |values| && PassedOver(values, k)
    ensures k < |values| ==> !values[k].PyDict? || Qualifies(values[k])
    decreases |values|
  {
    if |values| == 0 || !values[0].PyDict? || Qualifies(values[0]) then 0
    else
      var k := 1 + FirstStop(values[1..]);
      assert forall j :: 1 <= j < k ==> values[j] == values[1..][j - 1];
      k
  }

  /** `_parse_price(raw_data)` over `raw_data.values()`. */
  function ParsePrice(values: seq<PyValue>): (r: Result<PyValue, Failure>)
    ensures var k := FirstStop(values);
      && (k == |values| ==> r == Ok(ErrorResult(InvalidResponse)))
      && (k < |values| && !values[k].PyDict? ==> r == Err(AttributeError))
      && (k < |values| && values[k].PyDict? ==> r == Decide(values[k].entries["data"]))
    decreases |values|
  {
    if |values| == 0 then Ok(ErrorResult(InvalidResponse))
    else if !values[0].PyDict? then Err(AttributeError)
    else if Qualifies(values[0]) then Decide(values[0].entries["data"])
    else
      assert values[1..][FirstStop(values[1..])..] == values[FirstStop(values)..];
      ParsePrice(values[1..])
  }

  // ---------------------------------------------------------------------------
  // Properties

  /** The first qualifying app data decides, whatever follows it. */
  lemma {:induction false} FirstQualifyingDecides(values: seq<PyValue>, i: nat)
    requires i < |values| && PassedOver(values, i) && Qualifies(values[i])
    ensures ParsePrice(values) == Decide(values[i].entries["data"])
    decreases i
  {
    if i > 0 {
      assert values[0].PyDict? && !Qualifies(values[0]);
      assert PassedOver(values[1..], i - 1) by {
        forall j | 0 <= j < i - 1 ensures values[1..][j].PyDict? && !Qualifies(values[1..][j]) {
          assert values[1..][j] == values[j + 1];
        }
      }
      FirstQualifyingDecides(values[1..], i - 1);
    }
  }

  /** With no qualifying app data the response is invalid. */
  lemma {:induction false} NoneQualifiesIsInvalid(values: seq<PyValue>)
    requires PassedOver(values, |values|)
    ensures ParsePrice(values) == Ok(ErrorResult(InvalidResponse))
    decreases |values|
  {
    if |values| > 0 {
      assert values[0].PyDict? && !Qualifies(values[0]);
      assert PassedOver(values[1..], |values| - 1) by {
        forall j | 0 <= j < |values| - 1 ensures values[1..][j].PyDict? && !Qualifies(values[1..][j]) {
          assert values[1..][j] == values[j + 1];
        }
      }
      NoneQualifiesIsInvalid(values[1..]);
    }
  }

  /** App data that is not a dict raises once the loop reaches it. */
  lemma {:induction false} NonDictRaises(values: seq<PyValue>, i: nat)
    requires i < |values| && PassedOver(values, i) && !values[i].PyDict?
    ensures ParsePrice(values) == Err(AttributeError)
    decreases i
  {
    if i > 0 {
      assert values[0].PyDict? && !Qualifies(values[0]);
      assert PassedOver(values[1..], i - 1) by {
        forall j | 0 <= j < i - 1 ensures values[1..][j].PyDict? && !Qualifies(values[1..][j]) {
          assert values[1..][j] == values[j + 1];
        }
      }
      NonDictRaises(values[1..], i - 1);
    }
  }

  /** A successful result is either one of the two error dicts or exactly the five price fields;
      the price dict never has an "error" key, so callers can tell them apart. */
  lemma {:induction false} ResultShapes(values: seq<PyValue>)
    requires ParsePrice(values).Ok?
    ensures var r := ParsePrice(values).value;
      || r == ErrorResult(InvalidResponse)
      || r == ErrorResult(NoPriceInfo)
      || (r.PyDict? && r.entries.Keys == PriceFields && "error" !in r.entries)
    decreases |values|
  {
    if |values| > 0 && !Qualifies(values[0]) {
      ResultShapes(values[1..]);
    }
  }

  /** The success case of the Steam fetcher's tests: one app with a full price overview. */
  lemma ParsesFullPrice(overview: map<string, PyValue>)
    requires overview == map["currency" := PyStr("GBP"), "initial" := PyInt(1999), "final" := PyInt(1599),
                             "discount_percent" := PyInt(20), "final_formatted" := PyStr("£15.99")]
    ensures ParsePrice([PyDict(map["success" := PyBool(true), "data" := PyDict(map["price_overview" := PyDict(overview)])])])
      == Ok(PyDict(overview))
  {
    var app := PyDict(map["success" := PyBool(true), "data" := PyDict(map["price_overview" := PyDict(overview)])]);
    assert Qualifies(app);
    assert PriceResult(overview) == overview;
  }

  /** The tests' other two cases: `data` without a price, and `success` false. */
  lemma ParsesErrorCases()
    ensures ParsePrice([PyDict(map["success" := PyBool(true), "data" := PyDict(map[])])]) == Ok(ErrorResult(NoPriceInfo))
    ensures ParsePrice([PyDict(map["success" := PyBool(false)])]) == Ok(ErrorResult(InvalidResponse))
  {
    assert !Qualifies(PyDict(map["success" := PyBool(false)]));
  }
}

=== FILE: text.dfy ===
/**
  String primitives the services rely on: JavaScript `trim` and Python `strip`
  (with their whitespace sets), ASCII case mapping, decimal rendering of
  integers, JavaScript `parseInt`, substring search and Python `str.replace`.
  Strings are sequences of Unicode scalar values.
 */
module Text {
  import opened Wrappers

  // ---------------------------------------------------------------------------
  // Whitespace sets

  /** JavaScript WhiteSpace and LineTerminator code points (used by `trim` and `parseInt`). */
  predicate IsJsSpace(c: char) {
    || c == ' ' || c == '\t' || c == '\n' || c == '\r'
    || c == '\U{000B}' || c == '\U{000C}' || c == '\U{00A0}' || c == '\U{FEFF}'
    || c == '\U{1680}' || ('\U{2000}' <= c <= '\U{200A}')
    || c == '\U{2028}' || c == '\U{2029}' || c == '\U{202F}' || c == '\U{205F}' || c == '\U{3000}'
  }

  /** Code points for which Python's `str.isspace()` holds (used by argument-less `strip`). */
  predicate IsPySpace(c: char) {
    || c == ' ' || ('\t' <= c <= '\r') || ('\U{001C}' <= c <= '\U{001F}')
    || c == '\U{0085}' || c == '\U{00A0}'
    || c == '\U{1680}' || ('\U{2000}' <= c <= '\U{200A}')
    || c == '\U{2028}' || c == '\U{2029}' || c == '\U{202F}' || c == '\U{205F}' || c == '\U{3000}'
  }

  predicate AllSatisfy(s: string, p: char -> bool) {
    forall k :: 0 <= k < |s| ==> p(s[k])
  }

  // ---------------------------------------------------------------------------
  // Trimming

  /** Length of the longest prefix of `s` whose characters all satisfy `ws`. */
  function LeadingCount(s: string, ws: char -> bool): (n: nat)
    ensures n <= |s|
    ensures forall k :: 0 <= k < n ==> ws(s[k])
    ensures n == |s| || !ws(s[n])
  {
    if |s| > 0 && ws(s[0]) then 1 + LeadingCount(s[1..], ws) else 0
  }

  /** Number of trailing characters of `s` in the set `ws`. */
  function TrailingCount(s: string, ws: char -> bool): (n: nat)
    ensures n <= |s|
    ensures forall k :: |s| - n <= k < |s| ==> ws(s[k])
    ensures n == |s| || !ws(s[|s| - n - 1])
  {
    if |s| > 0 && ws(s[|s| - 1]) then 1 + TrailingCount(s[..|s| - 1], ws) else 0
  }

  /** `r` is the slice of `s` at index `i` and everything of `s` around it is in `ws`. */
  ghost predicate StripsTo(s: string, r: string, i: int, ws: char -> bool) {
    && 0 <= i <= |s| - |r|
    && r == s[i..i + |r|]
    && (forall k :: 0 <= k < i ==> ws(s[k]))
    && (forall k :: i + |r| <= k < |s| ==> ws(s[k]))
  }

  /** Removes every leading and trailing character in `ws`. */
  function Trim(s: string, ws: char -> bool): (r: string)
    ensures |r| <= |s|
    ensures exists i :: StripsTo(s, r, i, ws)
    ensures |r| > 0 ==> !ws(r[0]) && !ws(r[|r| - 1])
    ensures |r| == 0 <==> AllSatisfy(s, ws)
  {
    var a := LeadingCount(s, ws);
    var rest := s[a..];
    var b := TrailingCount(rest, ws);
    assert |rest| - b == 0 ==> a == |s|;
    assert a < |s| ==> !ws(s[a]);
    var r := s[a..a + (|rest| - b)];
    assert forall k :: a + |r| <= k < |s| ==> ws(s[k]) by {
      forall k | a + |r| <= k < |s| ensures ws(s[k]) {
        assert s[k] == rest[k - a];
      }
    }
    assert StripsTo(s, r, a, ws);
    r
  }

  /** JavaScript `String.prototype.trim`. */
  function JsTrim(s: string): string {
    Trim(s, IsJsSpace)
  }

  /** Python `str.strip()` with no argument. */
  function PyStrip(s: string): string {
    Trim(s, IsPySpace)
  }

  /** A slice inside the front part of a concatenation only sees the front part. */
  lemma SliceOfFront<T>(front: seq<T>, back: seq<T>, i: nat, j: nat)
    requires i <= j <= |front|
    ensures (front + back)[i..j] == front[i..j]
  {
  }

  /** A slice inside the back part of a concatenation only sees the back part. */
  lemma SliceOfBack<T>(front: seq<T>, back: seq<T>, i: nat, j: nat)
    requires |front| <= i <= j <= |front| + |back|
    ensures (front + back)[i..j] == back[i - |front|..j - |front|]
  {
  }

  /** Trimming is idempotent: a trimmed string has nothing left to trim. */
  lemma {:induction false} TrimIdempotent(s: string, ws: char -> bool)
    ensures Trim(Trim(s, ws), ws) == Trim(s, ws)
  {
    var t := Trim(s, ws);
    if |t| > 0 {
      assert !ws(t[0]) && !ws(t[|t| - 1]);
      assert LeadingCount(t, ws) == 0;
      assert TrailingCount(t, ws) == 0;
      assert t[0..0 + |t|] == t;
    } else {
      assert LeadingCount(t, ws) == 0;
    }
  }

  /** A string with no whitespace at either end is its own trim. */
  lemma {:induction false} TrimOfTrimmed(s: string, ws: char -> bool)
    requires |s| > 0 ==> !ws(s[0]) && !ws(s[|s| - 1])
    ensures Trim(s, ws) == s
  {
    if |s| > 0 {
      assert LeadingCount(s, ws) == 0;
      assert s[0..] == s;
      assert TrailingCount(s, ws) == 0;
    }
  }

  /** `r` is the trimmed core of `s`: empty, or bounded by characters outside `ws`. */
  ghost predicate HasCleanEnds(r: string, ws: char -> bool) {
    |r| > 0 ==> !ws(r[0]) && !ws(r[|r| - 1])
  }

  /** Only one slice of `s` has clean ends and only `ws` characters around it. */
  lemma TrimCoreUnique(s: string, r1: string, i1: int, r2: string, i2: int, ws: char -> bool)
    requires StripsTo(s, r1, i1, ws) && HasCleanEnds(r1, ws)
    requires StripsTo(s, r2, i2, ws) && HasCleanEnds(r2, ws)
    ensures r1 == r2
  {
    if |r1| > 0 { assert s[i1] == r1[0]; }
    if |r2| > 0 { assert s[i2] == r2[0]; }
    if |r1| > 0 && |r2| > 0 {
      // both cores start at the first and end at the last character outside `ws`
      assert i1 == i2;
      assert s[i1 + |r1| - 1] == r1[|r1| - 1] && s[i2 + |r2| - 1] == r2[|r2| - 1];
      assert |r1| == |r2|;
    }
  }

  /** Any slice with clean ends and only `ws` around it is what `Trim` returns. */
  lemma TrimIsTheCore(s: string, r: string, i: int, ws: char -> bool)
    requires StripsTo(s, r, i, ws) && HasCleanEnds(r, ws)
    ensures Trim(s, ws) == r
  {
    var t := Trim(s, ws);
    var j :| StripsTo(s, t, j, ws);
    TrimCoreUnique(s, r, i, t, j, ws);
  }

  /** A core of `s` stays a core of `s` padded with `ws` characters on both sides. */
  lemma PaddedStripsTo(w1: string, s: string, w2: string, r: string, i: int, ws: char -> bool)
    requires AllSatisfy(w1, ws) && AllSatisfy(w2, ws)
    requires StripsTo(s, r, i, ws)
    ensures StripsTo(w1 + s + w2, r, |w1| + i, ws)
  {
    var p := w1 + s + w2;
    assert p[|w1| + i..|w1| + i + |r|] == s[i..i + |r|];
    forall k | 0 <= k < |w1| + i ensures ws(p[k]) {
      if k >= |w1| { assert p[k] == s[k - |w1|]; }
    }
    forall k | |w1| + i + |r| <= k < |p| ensures ws(p[k]) {
      if k < |w1| + |s| { assert p[k] == s[k - |w1|]; } else { assert p[k] == w2[k - |w1| - |s|]; }
    }
  }

  /** Whitespace padding on either side does not change the trimmed string. */
  lemma TrimIgnoresPadding(w1: string, s: string, w2: string, ws: char -> bool)
    requires AllSatisfy(w1, ws) && AllSatisfy(w2, ws)
    ensures Trim(w1 + s + w2, ws) == Trim(s, ws)
  {
    var r := Trim(s, ws);
    var i :| StripsTo(s, r, i, ws);
    PaddedStripsTo(w1, s, w2, r, i, ws);
    TrimIsTheCore(w1 + s + w2, r, |w1| + i, ws);
  }

  /** A word with clean ends, padded on both sides, trims back to the word and is not blank. */
  lemma TrimPaddedWord(w1: string, s: string, w2: string, ws: char -> bool)
    requires AllSatisfy(w1, ws) && AllSatisfy(w2, ws)
    requires |s| > 0 && !ws(s[0]) && !ws(s[|s| - 1])
    ensures Trim(w1 + s + w2, ws) == s
    ensures !AllSatisfy(w1 + s + w2, ws)
  {
    var p := w1 + s + w2;
    assert p[|w1|] == s[0];
    PaddedStripsTo(w1, s, w2, s, 0, ws) by {
      assert s[0..0 + |s|] == s;
    }
    TrimIsTheCore(p, s, |w1|, ws);
  }

  // ---------------------------------------------------------------------------
  // ASCII case mapping

  function LowerChar(c: char): char {
    if 'A' <= c <= 'Z' then (c as int + 32) as char else c
  }

  function UpperChar(c: char): char {
    if 'a' <= c <= 'z' then (c as int - 32) as char else c
  }

  /** Lower-cases the ASCII letters of `s`; every other character is kept. */
  function AsciiLower(s: string): (r: string)
    ensures |r| == |s|
    ensures forall k :: 0 <= k < |s| ==> r[k] == LowerChar(s[k])
  {
    if |s| == 0 then [] else [LowerChar(s[0])] + AsciiLower(s[1..])
  }

  /** Upper-cases the ASCII letters of `s`; every other character is kept. */
  function AsciiUpper(s: string): (r: string)
    ensures |r| == |s|
    ensures forall k :: 0 <= k < |s| ==> r[k] == UpperChar(s[k])
  {
    if |s| == 0 then [] else [UpperChar(s[0])] + AsciiUpper(s[1..])
  }

  predicate IsAsciiUpper(c: char) { 'A' <= c <= 'Z' }
  predicate IsAsciiLower(c: char) { 'a' <= c <= 'z' }
  predicate IsAsciiLetter(c: char) { IsAsciiUpper(c) || IsAsciiLower(c) }
  predicate IsDigit(c: char) { '0' <= c <= '9' }
  predicate IsHexDigit(c: char) { IsDigit(c) || ('a' <= c <= 'f') || ('A' <= c <= 'F') }

  // ---------------------------------------------------------------------------
  // Decimal numerals

  function DigitChar(d: nat): char
    requires d < 10
  {
    ('0' as int + d) as char
  }

  function DigitValue(c: char): nat
    requires IsDigit(c)
  {
    c as int - '0' as int
  }

  function HexValue(c: char): nat
    requires IsHexDigit(c)
  {
    if IsDigit(c) then DigitValue(c)
    else if 'a' <= c <= 'f' then c as int - 'a' as int + 10
    else c as int - 'A' as int + 10
  }

  /** The shortest decimal numeral of `n` (JavaScript `String(n)` for a safe integer). */
  function NatToString(n: nat): (r: string)
    ensures |r| > 0
    ensures AllSatisfy(r, IsDigit)
    ensures |r| > 1 ==> r[0] != '0'
    decreases n
  {
    if n < 10 then [DigitChar(n)] else NatToString(n / 10) + [DigitChar(n % 10)]
  }

  /** Template-literal rendering of an integer: a minus sign for negative values. */
  function IntToString(i: int): (r: string)
    ensures |r| > 0
    ensures i >= 0 ==> r == NatToString(i)
    ensures i < 0 ==> r == "-" + NatToString(-i)
  {
    if i >= 0 then NatToString(i) else "-" + NatToString(-i)
  }

  /** The value of a string of decimal digits (most significant first). */
  function DigitsValue(s: string): nat
    requires AllSatisfy(s, IsDigit)
  {
    if |s| == 0 then 0 else 10 * DigitsValue(s[..|s| - 1]) + DigitValue(s[|s| - 1])
  }

  /** The value of a string of hexadecimal digits (most significant first). */
  function HexDigitsValue(s: string): nat
    requires AllSatisfy(s, IsHexDigit)
  {
    if |s| == 0 then 0 else 16 * HexDigitsValue(s[..|s| - 1]) + HexValue(s[|s| - 1])
  }

  /** Reading back the numeral of `n` yields `n`. */
  lemma {:induction false} DigitsValueOfNatToString(n: nat)
    ensures DigitsValue(NatToString(n)) == n
    decreases n
  {
    var r := NatToString(n);
    if n >= 10 {
      var p := NatToString(n / 10);
      assert r == p + [DigitChar(n % 10)];
      assert r[..|r| - 1] == p;
      DigitsValueOfNatToString(n / 10);
    }
  }

  /** Two naturals with the same numeral are equal. */
  lemma NatToStringInjective(m: nat, n: nat)
    requires NatToString(m) == NatToString(n)
    ensures m == n
  {
    DigitsValueOfNatToString(m);
    DigitsValueOfNatToString(n);
  }

  // ---------------------------------------------------------------------------
  // JavaScript parseInt (None stands for NaN)

  /** Splits an optional leading sign off `s`: the sign factor and the remainder. */
  function SplitSign(s: string): (int, string) {
    if |s| > 0 && s[0] == '-' then (-1, s[1..])
    else if |s| > 0 && s[0] == '+' then (1, s[1..])
    else (1, s)
  }

  /** `parseInt(s, 10)`: leading whitespace, an optional sign, then the longest run of decimal digits. */
  function ParseInt10(s: string): Option<int> {
    var body := s[LeadingCount(s, IsJsSpace)..];
    var (sign, digits) := SplitSign(body);
    var n := LeadingCount(digits, IsDigit);
    if n == 0 then None else Some(sign * DigitsValue(digits[..n]))
  }

  /** `parseInt(s)` without a radix: as `ParseInt10`, except that a `0x`/`0X` prefix selects base 16. */
  function ParseIntAutoRadix(s: string): Option<int> {
    var body := s[LeadingCount(s, IsJsSpace)..];
    var (sign, rest) := SplitSign(body);
    if |rest| >= 2 && rest[0] == '0' && (rest[1] == 'x' || rest[1] == 'X') then
      var hex := rest[2..];
      var n := LeadingCount(hex, IsHexDigit);
      if n == 0 then None else Some(sign * HexDigitsValue(hex[..n]))
    else
      var n := LeadingCount(rest, IsDigit);
      if n == 0 then None else Some(sign * DigitsValue(rest[..n]))
  }

  /** `parseInt(String(i), 10) == i`: the rendering of an integer parses back to it. */
  lemma ParseIntOfIntToString(i: int)
    ensures ParseInt10(IntToString(i)) == Some(i)
  {
    var s := IntToString(i);
    var m: nat := if i >= 0 then i else -i;
    var d := NatToString(m);
    assert LeadingCount(s, IsJsSpace) == 0;
    assert s[0..] == s;
    var (sign, digits) := SplitSign(s);
    assert digits == d;
    assert LeadingCount(d, IsDigit) == |d| by { LeadingCountAll(d, IsDigit); }
    assert d[..|d|] == d;
    DigitsValueOfNatToString(m);
  }

  /** When every character satisfies `p`, the prefix is the whole string. */
  lemma {:induction false} LeadingCountAll(s: string, p: char -> bool)
    requires AllSatisfy(s, p)
    ensures LeadingCount(s, p) == |s|
    decreases |s|
  {
    if |s| > 0 {
      LeadingCountAll(s[1..], p);
    }
  }

  // ---------------------------------------------------------------------------
  // Substrings

  predicate StartsWith(s: string, prefix: string) {
    |prefix| <= |s| && s[..|prefix|] == prefix
  }

  predicate EndsWith(s: string, suffix: string) {
    |suffix| <= |s| && s[|s| - |suffix|..] == suffix
  }

  /** `sub` occurs in `s` starting at index `i`. */
  ghost predicate OccursAt(s: string, sub: string, i: int) {
    0 <= i && i + |sub| <= |s| && s[i..i + |sub|] == sub
  }

  /** JavaScript `includes` / Python `in`: `sub` occurs somewhere in `s`. */
  predicate Contains(s: string, sub: string)
    decreases |s|
  {
    StartsWith(s, sub) || (|s| > 0 && Contains(s[1..], sub))
  }

  /** `Contains` holds exactly when some index is an occurrence. */
  lemma {:induction false} ContainsIff(s: string, sub: string)
    ensures Contains(s, sub) <==> exists i :: OccursAt(s, sub, i)
    decreases |s|
  {
    if StartsWith(s, sub) {
      assert OccursAt(s, sub, 0);
    } else if |s| > 0 {
      ContainsIff(s[1..], sub);
      if Contains(s[1..], sub) {
        var i :| OccursAt(s[1..], sub, i);
        assert s[1..][i..i + |sub|] == s[i + 1..i + 1 + |sub|];
        assert OccursAt(s, sub, i + 1);
      } else {
        forall i ensures !OccursAt(s, sub, i) {
          if i == 0 {
            if |sub| <= |s| { assert s[0..|sub|] == s[..|sub|]; }
          } else if 1 <= i && i + |sub| <= |s| {
            assert s[1..][i - 1..i - 1 + |sub|] == s[i..i + |sub|];
            assert !OccursAt(s[1..], sub, i - 1);
          }
        }
      }
    } else {
      assert |sub| > 0;
    }
  }

  /** Text around a string keeps every substring of it. */
  lemma ContainsWithin(pre: string, s: string, post: string, sub: string)
    requires Contains(s, sub)
    ensures Contains(pre + s + post, sub)
  {
    var text := pre + s + post;
    ContainsIff(s, sub);
    var i :| OccursAt(s, sub, i);
    assert text[|pre| + i..|pre| + i + |sub|] == s[i..i + |sub|];
    assert OccursAt(text, sub, |pre| + i);
    ContainsIff(text, sub);
  }

  /** Python `str.replace(pattern, replacement)`: every non-overlapping occurrence, scanned left to right. */
  function ReplaceAll(s: string, pattern: string, replacement: string): string
    requires |pattern| > 0
    decreases |s|
  {
    if |s| == 0 then []
    else if StartsWith(s, pattern) then replacement + ReplaceAll(s[|pattern|..], pattern, replacement)
    else [s[0]] + ReplaceAll(s[1..], pattern, replacement)
  }

  /** A string without an occurrence of `pattern` is left unchanged by `ReplaceAll`. */
  lemma {:induction false} ReplaceAllNoOccurrence(s: string, pattern: string, replacement: string)
    requires |pattern| > 0
    requires !Contains(s, pattern)
    ensures ReplaceAll(s, pattern, replacement) == s
    decreases |s|
  {
    if |s| > 0 {
      ReplaceAllNoOccurrence(s[1..], pattern, replacement);
      assert [s[0]] + s[1..] == s;
    }
  }
}

=== FILE: uri.dfy ===
/**
  `encodeURIComponent`, which the gateway and the web client apply to the
  query text before putting it in a URL, with `decodeURIComponent` as its
  inverse. Characters are Unicode scalar values, so the lone-surrogate
  `URIError` cannot arise.
 */
module Uri {
  import opened Wrappers
  import opened Text

  /** The characters `encodeURIComponent` leaves as they are. */
  predicate IsUnreserved(c: char) {
    IsAsciiLetter(c) || IsDigit(c) || c == '-' || c == '_' || c == '.' || c == '!' || c == '~'
    || c == '*' || c == '\'' || c == '(' || c == ')'
  }

  predicate IsByte(b: int) { 0 <= b < 256 }

  /** The UTF-8 encoding of one scalar value. */
  function Utf8(c: char): (bytes: seq<int>)
    ensures 1 <= |bytes| <= 4
    ensures forall i :: 0 <= i < |bytes| ==> IsByte(bytes[i])
  {
    var cp := c as int;
    if cp < 0x80 then [cp]
    else if cp < 0x800 then [0xC0 + cp / 64, 0x80 + cp % 64]
    else if cp < 0x10000 then [0xE0 + cp / 4096, 0x80 + (cp / 64) % 64, 0x80 + cp % 64]
    else [0xF0 + cp / 262144, 0x80 + (cp / 4096) % 64, 0x80 + (cp / 64) % 64, 0x80 + cp % 64]
  }

  /** The sequence length announced by a UTF-8 lead byte (0 for a byte that cannot lead). */
  function SequenceLength(lead: int): nat {
    if 0 <= lead < 0x80 then 1
    else if 0xC0 <= lead < 0xE0 then 2
    else if 0xE0 <= lead < 0xF0 then 3
    else if 0xF0 <= lead < 0xF8 then 4
    else 0
  }

  predicate IsContinuation(b: int) { 0x80 <= b < 0xC0 }

  /** A scalar value; `x as char` is defined exactly for these. */
  predicate IsScalarValue(x: int) { 0 <= x < 0xD800 || 0xE000 <= x < 0x110000 }

  /** Decodes one complete UTF-8 sequence; overlong forms and non-scalar values are rejected. */
  function Utf8Decode(bytes: seq<int>): Option<char> {
    if |bytes| == 0 || SequenceLength(bytes[0]) != |bytes| then None
    else if exists i :: 1 <= i < |bytes| && !IsContinuation(bytes[i]) then None
    else
      var cp :=
        if |bytes| == 1 then bytes[0]
        else if |bytes| == 2 then (bytes[0] - 0xC0) * 64 + (bytes[1] - 0x80)
        else if |bytes| == 3 then (bytes[0] - 0xE0) * 4096 + (bytes[1] - 0x80) * 64 + (bytes[2] - 0x80)
        else (bytes[0] - 0xF0) * 262144 + (bytes[1] - 0x80) * 4096 + (bytes[2] - 0x80) * 64 + (bytes[3] - 0x80);
      var least := if |bytes| == 1 then 0 else if |bytes| == 2 then 0x80 else if |bytes| == 3 then 0x800 else 0x10000;
      if least <= cp && IsScalarValue(cp) then Some(cp as char) else None
  }

  /** Decoding the encoding of a character gives the character back, and the lead byte announces the length. */
  lemma Utf8RoundTrip(c: char)
    ensures SequenceLength(Utf8(c)[0]) == |Utf8(c)|
    ensures Utf8Decode(Utf8(c)) == Some(c)
  {
    var b := Utf8(c);
    var cp := c as int;
    assert forall i :: 1 <= i < |b| ==> IsContinuation(b[i]);
    if cp < 0x80 {
    } else if cp < 0x800 {
      assert (cp / 64) * 64 + cp % 64 == cp;
    } else if cp < 0x10000 {
      assert ((cp / 64) / 64) == cp / 4096;
      assert (cp / 4096) * 4096 + ((cp / 64) % 64) * 64 + cp % 64 == cp;
    } else {
      assert (cp / 4096) / 64 == cp / 262144;
      assert ((cp / 64) / 64) == cp / 4096;
      assert (cp / 262144) * 262144 + ((cp / 4096) % 64) * 4096 + ((cp / 64) % 64) * 64 + cp % 64 == cp;
    }
  }

  function HexUpper(d: int): (c: char)
    requires 0 <= d < 16
    ensures IsHexDigit(c) && HexValue(c) == d
  {
    if d < 10 then ('0' as int + d) as char else ('A' as int + d - 10) as char
  }

  /** `%XY` for one byte, upper-case hex. */
  function PercentByte(b: int): (r: string)
    requires IsByte(b)
    ensures |r| == 3 && r[0] == '%' && IsHexDigit(r[1]) && IsHexDigit(r[2])
    ensures HexValue(r[1]) * 16 + HexValue(r[2]) == b
  {
    ['%', HexUpper(b / 16), HexUpper(b % 16)]
  }

  function PercentBytes(bytes: seq<int>): (r: string)
    requires forall i :: 0 <= i < |bytes| ==> IsByte(bytes[i])
    ensures |r| == 3 * |bytes|
    ensures forall i :: 0 <= i < |r| ==> r[i] == '%' || IsHexDigit(r[i])
  {
    if |bytes| == 0 then ""
    else PercentByte(bytes[0]) + PercentBytes(bytes[1..])
  }

  /** The escapes are laid out three characters per byte, in order. */
  lemma {:induction false} PercentBytesAt(bytes: seq<int>, k: nat)
    requires forall i :: 0 <= i < |bytes| ==> IsByte(bytes[i])
    requires k < |bytes|
    ensures PercentBytes(bytes)[3 * k..3 * k + 3] == PercentByte(bytes[k])
    decreases k
  {
    var head := PercentByte(bytes[0]);
    var rest := PercentBytes(bytes[1..]);
    assert PercentBytes(bytes) == head + rest;
    if k == 0 {
      SliceOfFront(head, rest, 0, 3);
      assert head[0..3] == head;
    } else {
      PercentBytesAt(bytes[1..], k - 1);
      assert bytes[1..][k - 1] == bytes[k];
      SliceOfBack(head, rest, 3 * k, 3 * k + 3);
    }
  }

  /** The escape of one character. */
  function EncodeChar(c: char): (r: string)
    ensures |r| > 0
    ensures forall i :: 0 <= i < |r| ==> IsUnreserved(r[i]) || r[i] == '%'
  {
    if IsUnreserved(c) then [c] else PercentBytes(Utf8(c))
  }

  /** `encodeURIComponent(s)`. */
  function EncodeURIComponent(s: string): (r: string)
    ensures forall i :: 0 <= i < |r| ==> IsUnreserved(r[i]) || r[i] == '%'
    ensures AllSatisfy(s, IsUnreserved) ==> r == s
  {
    if |s| == 0 then ""
    else
      EncodeChar(s[0]) + EncodeURIComponent(s[1..])
  }

  /** Encoding works character by character, so it distributes over concatenation. */
  lemma {:induction false} EncodeConcat(a: string, b: string)
    ensures EncodeURIComponent(a + b) == EncodeURIComponent(a) + EncodeURIComponent(b)
    decreases |a|
  {
    if |a| > 0 {
      assert (a + b)[1..] == a[1..] + b;
      EncodeConcat(a[1..], b);
    } else {
      assert a + b == b;
    }
  }

  /** A space is sent as `%20`. */
  lemma EncodeSpace()
    ensures EncodeURIComponent(" ") == "%20"
  {
    assert Utf8(' ') == [32];
    assert PercentByte(32) == ['%', HexUpper(2), HexUpper(0)];
    assert EncodeChar(' ') == "%20";
  }

  /** The encoded text never contains a URL delimiter, so it stays inside one query parameter. */
  lemma EncodedHasNoDelimiter(s: string)
    ensures forall i :: 0 <= i < |EncodeURIComponent(s)| ==>
      EncodeURIComponent(s)[i] !in {'&', '=', '#', '?', '/', '+', ' ', ':'}
  {
    var r := EncodeURIComponent(s);
    forall i | 0 <= i < |r| ensures r[i] !in {'&', '=', '#', '?', '/', '+', ' ', ':'} {
      assert IsUnreserved(r[i]) || r[i] == '%';
    }
  }

  // ---------------------------------------------------------------------------
  // Decoding

  /** The byte written as `%XY` at index `i`. */
  function ByteAt(s: string, i: nat): Option<int> {
    if i + 3 <= |s| && s[i] == '%' && IsHexDigit(s[i + 1]) && IsHexDigit(s[i + 2]) then
      Some(HexValue(s[i + 1]) * 16 + HexValue(s[i + 2]))
    else None
  }

  /** `decodeURIComponent(s)`: None where it throws `URIError`. */
  function DecodeURIComponent(s: string): Option<string>
    decreases |s|
  {
    if |s| == 0 then Some("")
    else if s[0] != '%' then
      match DecodeURIComponent(s[1..])
      case Some(rest) => Some([s[0]] + rest)
      case None => None
    else
      match ByteAt(s, 0)
      case None => None
      case Some(lead) =>
        var n := SequenceLength(lead);
        if n == 0 || |s| < 3 * n || exists k :: 0 <= k < n && ByteAt(s, 3 * k).None? then None
        else
          var bytes := seq(n, k requires 0 <= k < n => ByteAt(s, 3 * k).value);
          match Utf8Decode(bytes)
          case None => None
          case Some(c) =>
            match DecodeURIComponent(s[3 * n..])
            case Some(rest) => Some([c] + rest)
            case None => None
  }

  /** A `%XY` escape of `b` at index `i` reads back as `b`. */
  lemma EscapeReadsBack(s: string, i: nat, b: int)
    requires IsByte(b) && i + 3 <= |s| && s[i..i + 3] == PercentByte(b)
    ensures ByteAt(s, i) == Some(b)
  {
    var p := PercentByte(b);
    assert s[i] == p[0] && s[i + 1] == p[1] && s[i + 2] == p[2];
  }

  /** The `%XY` escape of the `k`-th byte reads back as that byte, whatever follows the escapes. */
  lemma PercentByteReadBack(bytes: seq<int>, rest: string, k: nat)
    requires forall i :: 0 <= i < |bytes| ==> IsByte(bytes[i])
    requires k < |bytes|
    ensures ByteAt(PercentBytes(bytes) + rest, 3 * k) == Some(bytes[k])
  {
    var e := PercentBytes(bytes);
    var i := 3 * k;
    PercentBytesAt(bytes, k);
    SliceOfFront(e, rest, i, i + 3);
    EscapeReadsBack(e + rest, i, bytes[k]);
  }

  /** The `%XY` escapes of a byte sequence read back as those bytes, whatever follows them. */
  lemma PercentBytesReadBack(bytes: seq<int>, rest: string)
    requires forall i :: 0 <= i < |bytes| ==> IsByte(bytes[i])
    ensures forall k :: 0 <= k < |bytes| ==> ByteAt(PercentBytes(bytes) + rest, 3 * k) == Some(bytes[k])
  {
    forall k | 0 <= k < |bytes| ensures ByteAt(PercentBytes(bytes) + rest, 3 * k) == Some(bytes[k]) {
      PercentByteReadBack(bytes, rest, k);
    }
  }

  /** A character escaped as its UTF-8 bytes decodes back to itself, then decoding goes on after the escapes. */
  lemma DecodeEscapedChar(c: char, rest: string)
    ensures DecodeURIComponent(PercentBytes(Utf8(c)) + rest) ==
      match DecodeURIComponent(rest) case Some(t) => Some([c] + t) case None => None
  {
    var bytes := Utf8(c);
    var s := PercentBytes(bytes) + rest;
    var n := |bytes|;
    Utf8RoundTrip(c);
    PercentBytesReadBack(bytes, rest);
    assert s[0] == '%';
    assert seq(n, k requires 0 <= k < n => ByteAt(s, 3 * k).value) == bytes;
    assert s[3 * n..] == rest;
  }

  lemma DecodeEncodedChar(c: char, rest: string)
    ensures DecodeURIComponent(EncodeChar(c) + rest) ==
      match DecodeURIComponent(rest) case Some(t) => Some([c] + t) case None => None
  {
    if IsUnreserved(c) {
      assert (EncodeChar(c) + rest)[1..] == rest;
    } else {
      DecodeEscapedChar(c, rest);
    }
  }

  /** `decodeURIComponent(encodeURIComponent(s)) == s`: the receiver reads back exactly the text sent. */
  lemma {:induction false} DecodeEncode(s: string)
    ensures DecodeURIComponent(EncodeURIComponent(s)) == Some(s)
    decreases |s|
  {
    if |s| > 0 {
      DecodeEncode(s[1..]);
      DecodeEncodedChar(s[0], EncodeURIComponent(s[1..]));
      assert [s[0]] + s[1..] == s;
    }
  }

  /** Distinct texts are sent as distinct parameters. */
  lemma EncodeInjective(s: string, t: string)
    requires EncodeURIComponent(s) == EncodeURIComponent(t)
    ensures s == t
  {
    DecodeEncode(s);
    DecodeEncode(t);
  }
}

=== FILE: user_crud.dfy ===
/**
  The backend's user table access (backend/db/crud/user.py over the table
  declared in backend/db/schemas/user.py): field normalisation and format
  checks, and what the database does with an insert, update or delete. The
  database is an abstract table that enforces what the schema declares: the
  column lengths, NOT NULL on the hash, and the unique username and email.
  A failed statement is rolled back and leaves the table as it was.
 */
module UserCrud {
  import opened Wrappers
  import opened Text
  import opened Py

  // ---------------------------------------------------------------------------
  // Field formats

  /** A character of `USERNAME_REGEX`'s class `[A-Za-z0-9_]`. */
  predicate IsUsernameChar(c: char) {
    IsAsciiLetter(c) || IsDigit(c) || c == '_'
  }

  /** `USERNAME_REGEX.match(s)` for a stripped `s`: 3 to 30 characters of the class. */
  predicate IsValidUsername(s: string) {
    3 <= |s| <= 30 && AllSatisfy(s, IsUsernameChar)
  }

  /** The class `[A-Za-z0-9._%+-]` before the `@`. */
  predicate IsLocalChar(c: char) {
    IsAsciiLetter(c) || IsDigit(c) || c == '.' || c == '_' || c == '%' || c == '+' || c == '-'
  }

  /** The class `[A-Za-z0-9.-]` after the `@`. */
  predicate IsDomainChar(c: char) {
    IsAsciiLetter(c) || IsDigit(c) || c == '.' || c == '-'
  }

  /**
    The language of `EMAIL_REGEX`, `^[A-Za-z0-9._%+-]+@[A-Za-z0-9.-]+\.[A-Za-z]{2,}$`:
    some split of `s` into local part, `@`, domain, `.` and a top-level label.
   */
  ghost predicate EmailPatternMatches(s: string) {
    exists at, dot ::
      && 0 < at && at + 1 < dot && dot + 3 <= |s|
      && s[at] == '@' && s[dot] == '.'
      && AllSatisfy(s[..at], IsLocalChar)
      && AllSatisfy(s[at + 1..dot], IsDomainChar)
      && AllSatisfy(s[dot + 1..], IsAsciiLetter)
  }

  /** Index of the first `c` in `s`, or `|s|`. */
  function FirstIndexOf(s: string, c: char): (i: nat)
    ensures i <= |s|
    ensures forall k :: 0 <= k < i ==> s[k] != c
    ensures i < |s| ==> s[i] == c
  {
    if |s| == 0 || s[0] == c then 0 else 1 + FirstIndexOf(s[1..], c)
  }

  /** Index of the last `c` in `s`, or -1. */
  function LastIndexOf(s: string, c: char): (i: int)
    ensures -1 <= i < |s|
    ensures forall k :: i < k < |s| ==> s[k] != c
    ensures i >= 0 ==> s[i] == c
  {
    if |s| == 0 then -1
    else if s[|s| - 1] == c then |s| - 1
    else LastIndexOf(s[..|s| - 1], c)
  }

  /** `EMAIL_REGEX.match(s)` for a stripped `s`, decided by one `@` and the last `.` after it. */
  predicate IsValidEmail(s: string) {
    var at := FirstIndexOf(s, '@');
    && 0 < at < |s|
    && AllSatisfy(s[..at], IsLocalChar)
    && var domain := s[at + 1..];
       var dot := LastIndexOf(domain, '.');
       && AllSatisfy(domain, IsDomainChar)
       && 1 <= dot && dot + 3 <= |domain|
       && AllSatisfy(domain[dot + 1..], IsAsciiLetter)
  }

  /** `s.strip().lower()`. */
  function Normalise(s: string): string {
    AsciiLower(PyStrip(s))
  }

  // ---------------------------------------------------------------------------
  // The table

  /** The column widths of the schema. */
  const UsernameWidth := 50
  const EmailWidth := 120
  const PasswordHashWidth := 128

  /** Only spaces: the one excess a `varchar` column cuts off instead of refusing. */
  predicate AllSpaces(s: string) {
    forall i | 0 <= i < |s| :: s[i] == ' '
  }

  /** A hash the driver can put into the statement: it has no adapter for a dict. */
  predicate Sendable(h: PyValue) {
    !h.PyDict?
  }

  /**
    The value the `varchar` column receives for a hash. The driver writes an
    int or a bool as a literal, which PostgreSQL converts to its text, and an
    empty list as the array literal '{}', which the column takes as text.
    Strings and null go as they are.
   */
  function ColumnValue(h: PyValue): (v: PyValue)
    ensures v.PyNone? <==> h.PyNone?
    ensures h.PyStr? ==> v == h
    ensures h.PyInt? ==> v == PyStr(IntToString(h.i))
    ensures h.PyBool? ==> v == PyStr(if h.b then "true" else "false")
    ensures h == PyList([]) ==> v == PyStr("{}")
    ensures h.PyDict? || (h.PyList? && |h.items| > 0) ==> v == h
  {
    match h
    case PyInt(i) => PyStr(IntToString(i))
    case PyBool(b) => PyStr(if b then "true" else "false")
    case PyList(items) => if |items| == 0 then PyStr("{}") else h
    case _ => h
  }

  /**
    A password hash the `varchar(128)` column takes: its column value is not
    a string, has at most 128 characters, or is longer with nothing but
    spaces after the 128th. Usernames and emails are stripped before they
    are written, so only the hash can end in spaces.
   */
  predicate HashFits(h: PyValue) {
    var v := ColumnValue(h);
    !(v.PyStr? && |v.s| > PasswordHashWidth && !AllSpaces(v.s[PasswordHashWidth..]))
  }

  /** The hash as the column stores it: its column value, a longer string cut to its first 128 characters. */
  function StoredHash(h: PyValue): (s: PyValue)
    ensures s.PyNone? <==> h.PyNone?
    ensures h.PyStr? ==> s.PyStr? && |s.s| <= PasswordHashWidth && s.s <= h.s
    ensures HashFits(h) && h.PyStr? ==> AllSpaces(h.s[|s.s|..])
    ensures !(h.PyStr? && |h.s| > PasswordHashWidth) && !h.PyInt? && !h.PyBool? && h != PyList([]) ==> s == h
    ensures h.PyStr? && |h.s| > PasswordHashWidth ==> |s.s| == PasswordHashWidth
    ensures ColumnValue(h).PyStr? ==>
      s.PyStr? && |s.s| <= PasswordHashWidth && s.s <= ColumnValue(h).s
      && (|ColumnValue(h).s| <= PasswordHashWidth ==> s == ColumnValue(h))
  {
    var v := ColumnValue(h);
    if v.PyStr? && |v.s| > PasswordHashWidth then PyStr(v.s[..PasswordHashWidth]) else v
  }

  /**
    An int hash is stored as its decimal numeral, which reads back as the
    number: digits for a natural, a minus sign before the digits otherwise.
   */
  lemma IntHashStoredAsNumeral(i: int)
    requires |IntToString(i)| <= PasswordHashWidth
    ensures StoredHash(PyInt(i)).PyStr?
    ensures var s := StoredHash(PyInt(i)).s;
      && (i >= 0 ==> AllSatisfy(s, IsDigit) && DigitsValue(s) == i)
      && (i < 0 ==> |s| > 1 && s[0] == '-' && AllSatisfy(s[1..], IsDigit) && DigitsValue(s[1..]) == -i)
  {
    if i >= 0 {
      DigitsValueOfNatToString(i);
    } else {
      var s := StoredHash(PyInt(i)).s;
      assert s[1..] == NatToString(-i);
      DigitsValueOfNatToString(-i);
    }
  }

  /** A row as the table stores it. */
  function Stored(row: Row): Row {
    Row(row.username, row.email, StoredHash(row.passwordHash))
  }

  /** A row without its `id`. The hash is whatever value the caller supplied. */
  datatype Row = Row(username: string, email: string, passwordHash: PyValue)

  /** The rows by `id`, and the next value of the `id` sequence. */
  datatype Table = Table(rows: map<int, Row>, nextId: int)

  /** What the schema guarantees of every committed state. */
  ghost predicate Valid(t: Table) {
    && (forall id | id in t.rows :: id < t.nextId && !t.rows[id].passwordHash.PyNone?)
    && (forall i, j | i in t.rows && j in t.rows && i != j ::
          t.rows[i].username != t.rows[j].username && t.rows[i].email != t.rows[j].email)
  }

  /** Why the database refuses a write. */
  datatype DbFailure =
    | UniqueViolation(constraint: string, column: string, value: string)
    | NotNullViolation(column: string, failingRow: seq<string>)
    | ValueTooLong(width: nat)
    | CannotAdapt(typeName: string)   // refused by the driver before anything is sent

  /** Integrity errors, as opposed to data errors such as an over-long value. */
  predicate IsIntegrityError(f: DbFailure) {
    f.UniqueViolation? || f.NotNullViolation?
  }

  /** How many characters of each value a failing-row description keeps. */
  const RowValueWidth := 64

  /** A value in a failing-row description: cut to its first 64 characters, marked with "...". */
  function ClipValue(v: string): (c: string)
    ensures |v| <= RowValueWidth ==> c == v
    ensures |v| > RowValueWidth ==> c == v[..RowValueWidth] + "..."
  {
    if |v| <= RowValueWidth then v else v[..RowValueWidth] + "..."
  }

  /** The row's values, each clipped, separated by ", ". */
  function RowDescription(values: seq<string>): string {
    if |values| == 0 then ""
    else if |values| == 1 then ClipValue(values[0])
    else ClipValue(values[0]) + ", " + RowDescription(values[1..])
  }

  /**
    The database's message for a failure, `str(e.orig)`. A unique
    violation's detail names the duplicate value; a NOT NULL violation's
    detail lists the whole failing row in column order.
   */
  function FailureText(f: DbFailure): string {
    match f
    case UniqueViolation(constraint, column, value) =>
      "duplicate key value violates unique constraint \"" + constraint + "\"\nDETAIL:  Key ("
        + column + ")=(" + value + ") already exists.\n"
    case NotNullViolation(column, failingRow) => NotNullHead(column) + RowDescription(failingRow) + ").\n"
    case ValueTooLong(width) => "value too long for type character varying(" + NatToString(width) + ")\n"
    case CannotAdapt(typeName) => "can't adapt type '" + typeName + "'"
  }

  /** A NOT NULL violation's message up to the failing row's values. */
  function NotNullHead(column: string): string {
    "null value in column \"" + column + "\" of relation \"user\" violates not-null constraint\n"
      + "DETAIL:  Failing row contains ("
  }

  /**
    A refusal the database reaches while executing the statement, after the
    `id` default has drawn its sequence value. An over-long value is refused
    earlier, when the statement's literals are parsed, and a value the driver
    cannot adapt never reaches the database.
   */
  predicate ConsumesId(f: DbFailure) {
    !f.ValueTooLong? && !f.CannotAdapt?
  }

  /** Some row other than `id` holds this username. */
  predicate UsernameTaken(t: Table, id: int, username: string) {
    exists other :: other in t.rows && other != id && t.rows[other].username == username
  }

  predicate EmailTaken(t: Table, id: int, email: string) {
    exists other :: other in t.rows && other != id && t.rows[other].email == email
  }

  /**
    The checks `row` written at `id` goes through: the driver's adaptation of
    the hash, then the database's widths (in column order), NOT NULL, and
    the unique indexes in creation order.
    `isInsert` marks an insert, which also needs a free primary key.
   */
  function CheckRow(t: Table, id: int, row: Row, isInsert: bool): (f: Option<DbFailure>)
    ensures f.None? <==>
      && |row.username| <= UsernameWidth && |row.email| <= EmailWidth
      && Sendable(row.passwordHash) && HashFits(row.passwordHash)
      && !row.passwordHash.PyNone?
      && !(isInsert && id in t.rows)
      && !UsernameTaken(t, id, row.username) && !EmailTaken(t, id, row.email)
    ensures f.Some? && f.value.UniqueViolation? && f.value.constraint == "user_username_key" <==>
      && |row.username| <= UsernameWidth && |row.email| <= EmailWidth
      && Sendable(row.passwordHash) && HashFits(row.passwordHash)
      && !row.passwordHash.PyNone?
      && !(isInsert && id in t.rows)
      && UsernameTaken(t, id, row.username)
    ensures f.Some? && f.value.UniqueViolation? && f.value.constraint == "user_email_key" <==>
      && |row.username| <= UsernameWidth && |row.email| <= EmailWidth
      && Sendable(row.passwordHash) && HashFits(row.passwordHash)
      && !row.passwordHash.PyNone?
      && !(isInsert && id in t.rows)
      && !UsernameTaken(t, id, row.username) && EmailTaken(t, id, row.email)
    ensures f.Some? && f.value.UniqueViolation? && f.value.constraint == "user_email_key" ==> f.value.value == row.email
    ensures (f.Some? && f.value.ValueTooLong?) <==>
      Sendable(row.passwordHash) &&
      !(&& |row.username| <= UsernameWidth && |row.email| <= EmailWidth
        && HashFits(row.passwordHash))
    ensures f == Some(CannotAdapt("dict")) <==> !Sendable(row.passwordHash)
  {
    if !Sendable(row.passwordHash) then Some(CannotAdapt("dict"))
    else if |row.username| > UsernameWidth then Some(ValueTooLong(UsernameWidth))
    else if |row.email| > EmailWidth then Some(ValueTooLong(EmailWidth))
    else if !HashFits(row.passwordHash) then Some(ValueTooLong(PasswordHashWidth))
    else if row.passwordHash.PyNone? then
      Some(NotNullViolation("password_hash", [IntToString(id), row.username, row.email, "null"]))
    else if isInsert && id in t.rows then Some(UniqueViolation("user_pkey", "id", IntToString(id)))
    else if UsernameTaken(t, id, row.username) then Some(UniqueViolation("user_username_key", "username", row.username))
    else if EmailTaken(t, id, row.email) then Some(UniqueViolation("user_email_key", "email", row.email))
    else None
  }

  // ---------------------------------------------------------------------------
  // Errors

  /** The exceptions the functions raise. Every one but `AttributeError` is a `DatabaseError`. */
  datatype UserError =
    | DuplicateUsernameError
    | DuplicateEmailError
    | DatabaseError(message: string)
    | AttributeError   // `.strip()` called on a value that is not a string

  predicate IsDatabaseError(e: UserError) {
    !e.AttributeError?
  }

  const ConnectContext := "Error connecting to the database or starting transaction: "

  /** How an integrity error is told apart: by its message text, or by the violated constraint. */
  datatype Classifier = ByMessage | ByConstraint

  /** The `except IntegrityError` branch as written: substring tests on the whole message. */
  function ClassifyByMessage(f: DbFailure): (e: UserError)
    ensures e == DuplicateUsernameError <==> Contains(FailureText(f), "user_username_key")
    ensures e == DuplicateEmailError <==>
      !Contains(FailureText(f), "user_username_key") && Contains(FailureText(f), "user_email_key")
    ensures e.DatabaseError? ==> e.message == "Integrity error: " + FailureText(f)
  {
    var text := FailureText(f);
    if Contains(text, "user_username_key") then DuplicateUsernameError
    else if Contains(text, "user_email_key") then DuplicateEmailError
    else DatabaseError("Integrity error: " + text)
  }

  /** The same branch deciding on the constraint that was violated. */
  function ClassifyByConstraint(f: DbFailure): (e: UserError)
    ensures e == DuplicateUsernameError <==> f.UniqueViolation? && f.constraint == "user_username_key"
    ensures e == DuplicateEmailError <==> f.UniqueViolation? && f.constraint == "user_email_key"
  {
    if f.UniqueViolation? && f.constraint == "user_username_key" then DuplicateUsernameError
    else if f.UniqueViolation? && f.constraint == "user_email_key" then DuplicateEmailError
    else DatabaseError("Integrity error: " + FailureText(f))
  }

  function Classify(c: Classifier, f: DbFailure): (e: UserError)
    ensures IsDatabaseError(e)
  {
    match c
    case ByMessage => ClassifyByMessage(f)
    case ByConstraint => ClassifyByConstraint(f)
  }

  /**
    What escapes the function for a failed statement: the duplicate errors
    are re-raised, every other error is caught by the outer handler and
    wrapped once more. `context` names the statement.
   */
  function CommitError(c: Classifier, f: DbFailure, context: string): (e: UserError)
    ensures IsDatabaseError(e)
    ensures !IsIntegrityError(f) ==> e == DatabaseError(ConnectContext + context + FailureText(f))
  {
    if IsIntegrityError(f) then
      var e := Classify(c, f);
      if e.DatabaseError? then DatabaseError(ConnectContext + e.message) else e
    else DatabaseError(ConnectContext + context + FailureText(f))
  }

  /** A call's result together with the table after it. */
  datatype Call<T> = Call(result: Result<T, UserError>, table: Table)

  // ---------------------------------------------------------------------------
  // create_user

  /** The input `create_user` accepts: a username, an email and a truthy hash, the first two valid once normalised. */
  predicate CreateInputValid(data: map<string, PyValue>) {
    && "username" in data && data["username"].PyStr? && IsValidUsername(Normalise(data["username"].s))
    && "email" in data && data["email"].PyStr? && IsValidEmail(Normalise(data["email"].s))
    && "password_hash" in data && Truthy(data["password_hash"])
  }

  /** A truthy non-string field makes `.strip()` raise before anything is checked. */
  predicate CreateInputCrashes(data: map<string, PyValue>) {
    || (Truthy(DictGet(data, "username", PyNone)) && !DictGet(data, "username", PyNone).PyStr?)
    || (Truthy(DictGet(data, "email", PyNone)) && !DictGet(data, "email", PyNone).PyStr?)
  }

  /** The row `create_user` builds from valid input. */
  function CleanRow(data: map<string, PyValue>): Row
    requires CreateInputValid(data)
  {
    Row(Normalise(data["username"].s), Normalise(data["email"].s), data["password_hash"])
  }

  /** Normalisation and the checks, in source order: username, then email, then the hash. */
  function ValidateNew(data: map<string, PyValue>): (r: Result<Option<Row>, UserError>)
    ensures CreateInputCrashes(data) <==> r == Err(AttributeError)
    ensures r.Err? ==> r == Err(AttributeError)
    ensures r.Ok? && r.value.Some? <==> !CreateInputCrashes(data) && CreateInputValid(data)
    ensures r.Ok? && r.value.Some? ==> r.value.value == CleanRow(data)
  {
    var username := DictGet(data, "username", PyNone);
    var email := DictGet(data, "email", PyNone);
    var hash := DictGet(data, "password_hash", PyNone);
    if Truthy(username) && !username.PyStr? then Err(AttributeError)
    else if Truthy(email) && !email.PyStr? then Err(AttributeError)
    else if !username.PyStr? || !IsValidUsername(Normalise(username.s)) then Ok(None)
    else if !email.PyStr? || !IsValidEmail(Normalise(email.s)) then Ok(None)
    else if !Truthy(hash) then Ok(None)
    else Ok(Some(Row(Normalise(username.s), Normalise(email.s), hash)))
  }

  /** `create_user(user_data)` with the given integrity-error classification. */
  function CreateUserWith(c: Classifier, data: map<string, PyValue>, t: Table): (r: Call<Option<int>>)
    ensures r.result.Ok? && r.result.value.Some? ==>
      && CreateInputValid(data)
      && r.result.value.value == t.nextId
      && r.table == Table(t.rows[t.nextId := Stored(CleanRow(data))], t.nextId + 1)
      && CheckRow(t, t.nextId, CleanRow(data), true).None?
    ensures !(r.result.Ok? && r.result.value.Some?) ==>
      r.table == Table(t.rows, if CreateInputValid(data) && FitsColumns(CleanRow(data)) then t.nextId + 1 else t.nextId)
    ensures r.result == Ok(None) <==> !CreateInputCrashes(data) && !CreateInputValid(data)
    ensures r.result.Err? && r.result.error != AttributeError ==> CreateInputValid(data)
    ensures (r.result.Ok? && r.result.value.Some?) <==>
      CreateInputValid(data) && CheckRow(t, t.nextId, CleanRow(data), true).None?
  {
    match ValidateNew(data)
    case Err(e) => Call(Err(e), t)
    case Ok(None) => Call(Ok(None), t)
    case Ok(Some(row)) =>
      match CheckRow(t, t.nextId, row, true)
      // the sequence value a refused insert drew is not given back by the rollback
      case Some(f) => Call(Err(CommitError(c, f, "Error creating user: ")), if ConsumesId(f) then t.(nextId := t.nextId + 1) else t)
      case None => Call(Ok(Some(t.nextId)), Table(t.rows[t.nextId := Stored(row)], t.nextId + 1))
  }

  /** `create_user` with the classification the tests expect. */
  function CreateUser(data: map<string, PyValue>, t: Table): (r: Call<Option<int>>)
    ensures r.result == Err(DuplicateUsernameError) ==>
      CreateInputValid(data) && FitsColumns(CleanRow(data)) && UsernameTaken(t, t.nextId, CleanRow(data).username)
    ensures r.result == Err(DuplicateEmailError) ==>
      && CreateInputValid(data) && FitsColumns(CleanRow(data))
      && !UsernameTaken(t, t.nextId, CleanRow(data).username) && EmailTaken(t, t.nextId, CleanRow(data).email)
  {
    if CreateInputValid(data) && CheckRow(t, t.nextId, CleanRow(data), true).Some? then
      CreateRaisesCommitError(ByConstraint, data, t);
      CommitErrorDuplicates(CheckRow(t, t.nextId, CleanRow(data), true).value, "Error creating user: ");
      CreateUserWith(ByConstraint, data, t)
    else CreateUserWith(ByConstraint, data, t)
  }

  // ---------------------------------------------------------------------------
  // get_user_by_username

  lemma {:induction false} HasLeast(ids: set<int>, w: int)
    requires w in ids
    ensures exists m :: m in ids && forall other | other in ids :: m <= other
    decreases |ids|
  {
    var rest := ids - {w};
    if y :| y in rest {
      HasLeast(rest, y);
      var m :| m in rest && forall other | other in rest :: m <= other;
      var least := if w < m then w else m;
      forall other | other in ids ensures least <= other {
        if other != w {
          assert other in rest;
        }
      }
      assert least in ids;
    } else {
      forall other | other in ids ensures w <= other {
        assert other !in rest;
      }
    }
  }

  /** The smallest element of a set of ids, `w` being one of them. */
  function Least(ids: set<int>, w: int): (m: int)
    requires w in ids
    ensures m in ids && forall other | other in ids :: m <= other
  {
    HasLeast(ids, w);
    var m :| m in ids && forall other | other in ids :: m <= other;
    m
  }

  /** `get_user_by_username(username)`: an exact match on the stored value, without normalisation. */
  function GetUserByUsername(username: string, t: Table): (r: Option<(int, Row)>)
    ensures r.Some? ==> r.value.0 in t.rows && t.rows[r.value.0] == r.value.1 && r.value.1.username == username
    ensures r.None? <==> forall id | id in t.rows :: t.rows[id].username != username
  {
    if w :| w in t.rows && t.rows[w].username == username then
      var matching := set id | id in t.rows && t.rows[id].username == username;
      var id := Least(matching, w);
      Some((id, t.rows[id]))
    else None
  }

  // ---------------------------------------------------------------------------
  // update_user

  /** The cleaned fields of an update; absent ones are left as they are. */
  datatype Changes = Changes(username: Option<string>, email: Option<string>, passwordHash: Option<PyValue>)

  /** `update_user`'s checks, in source order; only the three known keys are looked at. */
  function ValidateChanges(data: map<string, PyValue>): (r: Result<Option<Changes>, UserError>)
    ensures r.Err? ==> r == Err(AttributeError)
    ensures r.Ok? && r.value.Some? ==>
      var ch := r.value.value;
      && ("username" in data <==> ch.username.Some?)
      && ("email" in data <==> ch.email.Some?)
      && ("password_hash" in data <==> ch.passwordHash.Some?)
      && (ch.username.Some? ==> data["username"].PyStr? && ch.username.value == Normalise(data["username"].s)
                                && IsValidUsername(ch.username.value))
      && (ch.email.Some? ==> data["email"].PyStr? && ch.email.value == Normalise(data["email"].s)
                             && IsValidEmail(ch.email.value))
      && (ch.passwordHash.Some? ==> ch.passwordHash.value == data["password_hash"])
    ensures "username" !in data && "email" !in data && "password_hash" !in data ==> r == Ok(None)
    ensures "username" in data && data["username"].PyStr? && !IsValidUsername(Normalise(data["username"].s)) ==>
      r == Ok(None)
  {
    var username :=
      if "username" !in data then Ok(None)
      else if !data["username"].PyStr? then Err(AttributeError)
      else if IsValidUsername(Normalise(data["username"].s)) then Ok(Some(Normalise(data["username"].s)))
      else Ok(Some(""));
    if username.Err? then Err(AttributeError)
    else if username.value == Some("") then Ok(None)
    else
      var email :=
        if "email" !in data then Ok(None)
        else if !data["email"].PyStr? then Err(AttributeError)
        else if IsValidEmail(Normalise(data["email"].s)) then Ok(Some(Normalise(data["email"].s)))
        else Ok(Some(""));
      if email.Err? then Err(AttributeError)
      else if email.value == Some("") then Ok(None)
      else
        var hash := if "password_hash" in data then Some(data["password_hash"]) else None;
        if username.value.None? && email.value.None? && hash.None? then Ok(None)
        else Ok(Some(Changes(username.value, email.value, hash)))
  }

  /** `row` with the changed fields replaced. */
  function Apply(row: Row, ch: Changes): Row {
    Row(ch.username.GetOr(row.username), ch.email.GetOr(row.email), ch.passwordHash.GetOr(row.passwordHash))
  }

  /**
    The first column, in column order, whose new value is too wide for it.
    The values are literals of the statement, so this is decided before any
    row is looked for.
   */
  function ChangeTooWide(ch: Changes): (w: Option<nat>)
    ensures w.None? <==>
      && (ch.username.Some? ==> |ch.username.value| <= UsernameWidth)
      && (ch.email.Some? ==> |ch.email.value| <= EmailWidth)
      && (ch.passwordHash.Some? ==> HashFits(ch.passwordHash.value))
    ensures w.Some? ==> w.value in {UsernameWidth, EmailWidth, PasswordHashWidth}
    ensures ch.username.Some? && |ch.username.value| > UsernameWidth ==> w == Some(UsernameWidth)
    ensures w == Some(EmailWidth) ==> ch.email.Some? && |ch.email.value| > EmailWidth
    ensures w == Some(PasswordHashWidth) ==> ch.passwordHash.Some? && !HashFits(ch.passwordHash.value)
  {
    if ch.username.Some? && |ch.username.value| > UsernameWidth then Some(UsernameWidth)
    else if ch.email.Some? && |ch.email.value| > EmailWidth then Some(EmailWidth)
    else if ch.passwordHash.Some? && !HashFits(ch.passwordHash.value) then Some(PasswordHashWidth)
    else None
  }

  /**
    Why the update statement is refused before any row is looked for: a new
    hash the driver cannot adapt, or else a new value too wide for its column.
   */
  function ChangeRefused(ch: Changes): (f: Option<DbFailure>)
    ensures f == Some(CannotAdapt("dict")) <==> ch.passwordHash.Some? && !Sendable(ch.passwordHash.value)
    ensures !(ch.passwordHash.Some? && !Sendable(ch.passwordHash.value)) ==>
      (f.Some? <==> ChangeTooWide(ch).Some?)
      && (ChangeTooWide(ch).Some? ==> f == Some(ValueTooLong(ChangeTooWide(ch).value)))
    ensures f.Some? ==> !ConsumesId(f.value) && !IsIntegrityError(f.value)
  {
    if ch.passwordHash.Some? && !Sendable(ch.passwordHash.value) then Some(CannotAdapt("dict"))
    else match ChangeTooWide(ch)
      case Some(width) => Some(ValueTooLong(width))
      case None => None
  }

  /** `update_user(user_id, update_data)` with the given integrity-error classification. */
  function UpdateUserWith(c: Classifier, id: int, data: map<string, PyValue>, t: Table): (r: Call<bool>)
    ensures r.result == Ok(true) ==>
      && ValidateChanges(data).Ok? && ValidateChanges(data).value.Some?
      && id in t.rows
      && r.table == Table(t.rows[id := Stored(Apply(t.rows[id], ValidateChanges(data).value.value))], t.nextId)
      && CheckRow(t, id, Apply(t.rows[id], ValidateChanges(data).value.value), false).None?
    ensures r.result != Ok(true) ==> r.table == t
    ensures r.result.Ok? ==>
      (r.result.value <==> id in t.rows && ValidateChanges(data).Ok? && ValidateChanges(data).value.Some?)
    ensures (ValidateChanges(data).Ok? && ValidateChanges(data).value.Some?
             && ChangeRefused(ValidateChanges(data).value.value).Some?) ==>
      r.result == Err(CommitError(c, ChangeRefused(ValidateChanges(data).value.value).value, "Error updating user: "))
    ensures r.result.Err? && r.result.error != AttributeError ==>
      || id in t.rows
      || (ValidateChanges(data).Ok? && ValidateChanges(data).value.Some?
          && ChangeRefused(ValidateChanges(data).value.value).Some?)
  {
    match ValidateChanges(data)
    case Err(e) => Call(Err(e), t)
    case Ok(None) => Call(Ok(false), t)
    case Ok(Some(ch)) =>
      match ChangeRefused(ch)
      case Some(f) => Call(Err(CommitError(c, f, "Error updating user: ")), t)
      case None =>
        if id !in t.rows then Call(Ok(false), t)   // no row matched: rowcount 0
        else
          var row := Apply(t.rows[id], ch);
          match CheckRow(t, id, row, false)
          case Some(f) => Call(Err(CommitError(c, f, "Error updating user: ")), t)
          case None => Call(Ok(true), Table(t.rows[id := Stored(row)], t.nextId))
  }

  /** `update_user` with the classification the tests expect. */
  function UpdateUser(id: int, data: map<string, PyValue>, t: Table): (r: Call<bool>)
    ensures r.result == Err(DuplicateUsernameError) ==>
      && id in t.rows && ValidateChanges(data).Ok? && ValidateChanges(data).value.Some?
      && UsernameTaken(t, id, Apply(t.rows[id], ValidateChanges(data).value.value).username)
    ensures r.result == Err(DuplicateEmailError) ==>
      && id in t.rows && ValidateChanges(data).Ok? && ValidateChanges(data).value.Some?
      && EmailTaken(t, id, Apply(t.rows[id], ValidateChanges(data).value.value).email)
  {
    if ValidateChanges(data).Ok? && ValidateChanges(data).value.Some? then
      var ch := ValidateChanges(data).value.value;
      if ChangeRefused(ch).Some? then
        CommitErrorDuplicates(ChangeRefused(ch).value, "Error updating user: ");
        UpdateUserWith(ByConstraint, id, data, t)
      else if id in t.rows && CheckRow(t, id, Apply(t.rows[id], ch), false).Some? then
        var f := CheckRow(t, id, Apply(t.rows[id], ch), false).value;
        CommitErrorDuplicates(f, "Error updating user: ");
        assert UpdateUserWith(ByConstraint, id, data, t).result == Err(CommitError(ByConstraint, f, "Error updating user: "));
        UpdateUserWith(ByConstraint, id, data, t)
      else UpdateUserWith(ByConstraint, id, data, t)
    else UpdateUserWith(ByConstraint, id, data, t)
  }

  // ---------------------------------------------------------------------------
  // delete_user

  /** `delete_user(user_id)`: true exactly when a row was removed. */
  function DeleteUser(id: int, t: Table): (r: Call<bool>)
    ensures r.result == Ok(id in t.rows)
    ensures id !in r.table.rows
    ensures r.table.rows.Keys == t.rows.Keys - {id}
    ensures forall other | other in r.table.rows :: r.table.rows[other] == t.rows[other]
    ensures r.table.nextId == t.nextId
  {
    Call(Ok(id in t.rows), Table(t.rows - {id}, t.nextId))
  }

  // ---------------------------------------------------------------------------
  // Properties: field formats

  /** Every string the one-pass check accepts is in the language of `EMAIL_REGEX`. */
  lemma EmailCheckSound(s: string)
    requires IsValidEmail(s)
    ensures EmailPatternMatches(s)
  {
    var at := FirstIndexOf(s, '@');
    var domain := s[at + 1..];
    var dot := LastIndexOf(domain, '.');
    var d := at + 1 + dot;
    assert s[at + 1..d] == domain[..dot];
    assert s[d + 1..] == domain[dot + 1..];
    assert s[d] == domain[dot];
    assert AllSatisfy(s[at + 1..d], IsDomainChar);
  }

  /** The `@` of a match is the first one: the local part cannot contain one. */
  lemma AtIsFirst(s: string, at: int)
    requires 0 < at < |s| && s[at] == '@' && AllSatisfy(s[..at], IsLocalChar)
    ensures FirstIndexOf(s, '@') == at
  {
    forall k | 0 <= k < at ensures s[k] != '@' {
      assert s[..at][k] == s[k];
    }
  }

  /** The `.` of a match is the last one: the top-level label is all letters. */
  lemma DotIsLast(domain: string, d: int)
    requires 0 <= d < |domain| && domain[d] == '.' && AllSatisfy(domain[d + 1..], IsAsciiLetter)
    ensures LastIndexOf(domain, '.') == d
  {
  }

  /** After the `@` of a match every character is a domain character, and the label follows the `.`. */
  lemma DomainOfMatch(s: string, at: int, dot: int)
    requires 0 < at && at + 1 < dot && dot + 3 <= |s| && s[dot] == '.'
    requires AllSatisfy(s[at + 1..dot], IsDomainChar) && AllSatisfy(s[dot + 1..], IsAsciiLetter)
    ensures AllSatisfy(s[at + 1..], IsDomainChar)
    ensures s[at + 1..][dot - at - 1] == '.'
    ensures s[at + 1..][dot - at..] == s[dot + 1..]
  {
    var domain := s[at + 1..];
    var d := dot - at - 1;
    forall k | 0 <= k < |domain| ensures IsDomainChar(domain[k]) {
      if k < d {
        assert domain[k] == s[at + 1..dot][k];
      } else if k > d {
        assert domain[k] == s[dot + 1..][k - d - 1];
      }
    }
  }

  /** Every string in the language of `EMAIL_REGEX` passes the one-pass check. */
  lemma EmailCheckComplete(s: string)
    requires EmailPatternMatches(s)
    ensures IsValidEmail(s)
  {
    var at, dot :|
      && 0 < at && at + 1 < dot && dot + 3 <= |s|
      && s[at] == '@' && s[dot] == '.'
      && AllSatisfy(s[..at], IsLocalChar)
      && AllSatisfy(s[at + 1..dot], IsDomainChar)
      && AllSatisfy(s[dot + 1..], IsAsciiLetter);
    MatchAtIsValid(s, at, dot);
  }

  /** A match of `EMAIL_REGEX` with its `@` at `at` and its `.` at `dot` passes the one-pass check. */
  lemma MatchAtIsValid(s: string, at: int, dot: int)
    requires 0 < at && at + 1 < dot && dot + 3 <= |s|
    requires s[at] == '@' && s[dot] == '.'
    requires AllSatisfy(s[..at], IsLocalChar)
    requires AllSatisfy(s[at + 1..dot], IsDomainChar)
    requires AllSatisfy(s[dot + 1..], IsAsciiLetter)
    ensures IsValidEmail(s)
  {
    AtIsFirst(s, at);
    var domain := s[at + 1..];
    var d := dot - at - 1;
    assert AllSatisfy(domain, IsDomainChar) && domain[d] == '.' && domain[d + 1..] == s[dot + 1..] by {
      DomainOfMatch(s, at, dot);
    }
    assert LastIndexOf(domain, '.') == d by {
      DotIsLast(domain, d);
    }
    ValidEmailFromParts(s, at, d);
  }

  /** The one-pass check in terms of its two indexes: the first `@` and the last `.` after it. */
  lemma ValidEmailFromParts(s: string, at: int, d: int)
    requires 0 < at < |s| && FirstIndexOf(s, '@') == at && AllSatisfy(s[..at], IsLocalChar)
    requires AllSatisfy(s[at + 1..], IsDomainChar) && LastIndexOf(s[at + 1..], '.') == d
    requires 1 <= d && d + 3 <= |s[at + 1..]| && AllSatisfy(s[at + 1..][d + 1..], IsAsciiLetter)
    ensures IsValidEmail(s)
  {
  }

  /** The one-pass email check accepts exactly the language of `EMAIL_REGEX`. */
  lemma EmailCheckMatchesPattern(s: string)
    ensures IsValidEmail(s) <==> EmailPatternMatches(s)
  {
    if IsValidEmail(s) { EmailCheckSound(s); }
    if EmailPatternMatches(s) { EmailCheckComplete(s); }
  }

  /** The comparison `LowerChar` makes keeps a character's whitespace status. */
  lemma LowerKeepsSpace(c: char)
    ensures IsPySpace(LowerChar(c)) <==> IsPySpace(c)
  {
  }

  /** Normalising twice is normalising once: stored usernames and emails are fixed points. */
  lemma NormaliseIdempotent(s: string)
    ensures Normalise(Normalise(s)) == Normalise(s)
  {
    var t := PyStrip(s);
    var n := AsciiLower(t);
    if |n| > 0 {
      LowerKeepsSpace(t[0]);
      LowerKeepsSpace(t[|t| - 1]);
      assert n[0] == LowerChar(t[0]) && n[|n| - 1] == LowerChar(t[|t| - 1]);
    }
    TrimOfTrimmed(n, IsPySpace);
    LowerTwice(t);
  }

  /** Lower-casing a lower-cased string changes nothing. */
  lemma LowerTwice(s: string)
    ensures AsciiLower(AsciiLower(s)) == AsciiLower(s)
  {
    var n := AsciiLower(s);
    assert forall k | 0 <= k < |n| :: AsciiLower(n)[k] == LowerChar(n[k]) == n[k];
  }

  // ---------------------------------------------------------------------------
  // Properties: the table

  /** Writing a row that clashes with no other row, at an id below the next one, keeps the table valid. */
  lemma WriteKeepsValid(t: Table, id: int, row: Row, nextId: int)
    requires Valid(t)
    requires !row.passwordHash.PyNone?
    requires !UsernameTaken(t, id, row.username) && !EmailTaken(t, id, row.email)
    requires id < nextId && t.nextId <= nextId
    ensures Valid(Table(t.rows[id := row], nextId))
  {
    var rows := t.rows[id := row];
    forall i, j | i in rows && j in rows && i != j
      ensures rows[i].username != rows[j].username && rows[i].email != rows[j].email
    {
      if i == id {
        assert rows[j] == t.rows[j];
      } else if j == id {
        assert rows[i] == t.rows[i];
      }
    }
  }

  /** An insert that passes the checks keeps the schema's guarantees. */
  lemma CreateKeepsTableValid(c: Classifier, data: map<string, PyValue>, t: Table)
    requires Valid(t)
    ensures Valid(CreateUserWith(c, data, t).table)
  {
    var r := CreateUserWith(c, data, t);
    if r.result.Ok? && r.result.value.Some? {
      WriteKeepsValid(t, t.nextId, Stored(CleanRow(data)), t.nextId + 1);
    }
  }

  lemma UpdateKeepsTableValid(c: Classifier, id: int, data: map<string, PyValue>, t: Table)
    requires Valid(t)
    ensures Valid(UpdateUserWith(c, id, data, t).table)
  {
    var r := UpdateUserWith(c, id, data, t);
    if r.result == Ok(true) {
      WriteKeepsValid(t, id, Stored(Apply(t.rows[id], ValidateChanges(data).value.value)), t.nextId);
    }
  }

  lemma DeleteKeepsTableValid(id: int, t: Table)
    requires Valid(t)
    ensures Valid(DeleteUser(id, t).table)
  {
  }

  /** What a row needs to reach execution: a hash the driver can send, and values that fit their columns. */
  predicate FitsColumns(row: Row) {
    Sendable(row.passwordHash)
    && |row.username| <= UsernameWidth && |row.email| <= EmailWidth
    && HashFits(row.passwordHash)
  }

  /** `create_user` returns a new id exactly when the input is valid, fits the columns and clashes with no stored user. */
  lemma CreateSucceedsIff(data: map<string, PyValue>, t: Table)
    requires Valid(t)
    ensures (CreateUser(data, t).result.Ok? && CreateUser(data, t).result.value.Some?) <==>
      && CreateInputValid(data) && FitsColumns(CleanRow(data))
      && (forall id | id in t.rows :: t.rows[id].username != CleanRow(data).username)
      && (forall id | id in t.rows :: t.rows[id].email != CleanRow(data).email)
  {
    assert CreateUser(data, t) == CreateUserWith(ByConstraint, data, t);
    if CreateInputValid(data) {
      var row := CleanRow(data);
      assert Truthy(row.passwordHash);
      FreshIdClashes(t, row);
    }
  }

  /** The next id is free, so a new row clashes on a value exactly when some stored row holds it. */
  lemma FreshIdClashes(t: Table, row: Row)
    requires Valid(t)
    ensures !(t.nextId in t.rows)
    ensures !UsernameTaken(t, t.nextId, row.username) <==> forall id | id in t.rows :: t.rows[id].username != row.username
    ensures !EmailTaken(t, t.nextId, row.email) <==> forall id | id in t.rows :: t.rows[id].email != row.email
  {
    assert !(t.nextId in t.rows);
  }

  /** With the corrected classification, only the username and email constraints give the duplicate errors. */
  lemma CommitErrorDuplicates(f: DbFailure, context: string)
    ensures CommitError(ByConstraint, f, context) == DuplicateUsernameError <==>
      f.UniqueViolation? && f.constraint == "user_username_key"
    ensures CommitError(ByConstraint, f, context) == DuplicateEmailError <==>
      f.UniqueViolation? && f.constraint == "user_email_key"
  {
  }

  /** Valid input reaches the database; a refused insert raises what the failure classifies as. */
  lemma CreateRaisesCommitError(c: Classifier, data: map<string, PyValue>, t: Table)
    requires CreateInputValid(data)
    ensures CheckRow(t, t.nextId, CleanRow(data), true).Some? ==>
      CreateUserWith(c, data, t).result ==
        Err(CommitError(c, CheckRow(t, t.nextId, CleanRow(data), true).value, "Error creating user: "))
  {
  }

  /** A taken username is reported as `DuplicateUsernameError`, whatever the email. */
  lemma DuplicateUsernameIff(data: map<string, PyValue>, t: Table)
    requires Valid(t)
    ensures CreateUser(data, t).result == Err(DuplicateUsernameError) <==>
      && CreateInputValid(data) && FitsColumns(CleanRow(data))
      && (exists id :: id in t.rows && t.rows[id].username == CleanRow(data).username)
  {
    if CreateInputValid(data) {
      var row := CleanRow(data);
      var f := CheckRow(t, t.nextId, row, true);
      assert Truthy(row.passwordHash);
      assert !(t.nextId in t.rows);
      assert UsernameTaken(t, t.nextId, row.username) <==> exists id :: id in t.rows && t.rows[id].username == row.username;
      CreateRaisesCommitError(ByConstraint, data, t);
      if f.Some? {
        CommitErrorDuplicates(f.value, "Error creating user: ");
      }
    }
  }

  /** A free username with a taken email is reported as `DuplicateEmailError`. */
  lemma DuplicateEmailIff(data: map<string, PyValue>, t: Table)
    requires Valid(t)
    ensures CreateUser(data, t).result == Err(DuplicateEmailError) <==>
      && CreateInputValid(data) && FitsColumns(CleanRow(data))
      && (forall id | id in t.rows :: t.rows[id].username != CleanRow(data).username)
      && (exists id :: id in t.rows && t.rows[id].email == CleanRow(data).email)
  {
    if CreateInputValid(data) {
      var row := CleanRow(data);
      var f := CheckRow(t, t.nextId, row, true);
      assert Truthy(row.passwordHash);
      assert !(t.nextId in t.rows);
      assert UsernameTaken(t, t.nextId, row.username) <==> exists id :: id in t.rows && t.rows[id].username == row.username;
      assert EmailTaken(t, t.nextId, row.email) <==> exists id :: id in t.rows && t.rows[id].email == row.email;
      CreateRaisesCommitError(ByConstraint, data, t);
      if f.Some? {
        CommitErrorDuplicates(f.value, "Error creating user: ");
      }
    }
  }

  /** Usernames are unique up to case and padding: a second user differing only in those is refused. */
  lemma UsernamesUniqueUpToCase(first: map<string, PyValue>, second: map<string, PyValue>, t: Table)
    requires Valid(t)
    requires CreateUser(first, t).result.Ok? && CreateUser(first, t).result.value.Some?
    requires CreateInputValid(second) && FitsColumns(CleanRow(second))
    requires Normalise(second["username"].s) == Normalise(first["username"].s)
    ensures CreateUser(second, CreateUser(first, t).table).result == Err(DuplicateUsernameError)
  {
    var t1 := CreateUser(first, t).table;
    CreateKeepsTableValid(ByConstraint, first, t);
    assert t1.rows[t.nextId].username == CleanRow(second).username;
    DuplicateUsernameIff(second, t1);
  }

  /** The stored user is found under its normalised name, with the row as the table stores it. */
  lemma CreatedUserFound(data: map<string, PyValue>, t: Table)
    requires Valid(t)
    requires CreateUser(data, t).result.Ok? && CreateUser(data, t).result.value.Some?
    ensures GetUserByUsername(CleanRow(data).username, CreateUser(data, t).table) ==
      Some((t.nextId, Stored(CleanRow(data))))
  {
    var t1 := CreateUser(data, t).table;
    CreateKeepsTableValid(ByConstraint, data, t);
    var r := GetUserByUsername(CleanRow(data).username, t1);
    assert t1.rows[t.nextId].username == CleanRow(data).username;
    assert r.Some?;
    assert r.value.0 == t.nextId;
  }

  /** `update_user` answers true exactly when the id exists and there was a valid change to write. */
  lemma UpdateTrueIff(id: int, data: map<string, PyValue>, t: Table)
    requires Valid(t)
    ensures UpdateUser(id, data, t).result == Ok(true) <==>
      && id in t.rows
      && ValidateChanges(data).Ok? && ValidateChanges(data).value.Some?
      && var row := Apply(t.rows[id], ValidateChanges(data).value.value);
         && FitsColumns(row) && !row.passwordHash.PyNone?
         && (forall other | other in t.rows && other != id :: t.rows[other].username != row.username)
         && (forall other | other in t.rows && other != id :: t.rows[other].email != row.email)
  {
    if id in t.rows && ValidateChanges(data).Ok? && ValidateChanges(data).value.Some? {
      var row := Apply(t.rows[id], ValidateChanges(data).value.value);
      assert UpdateUser(id, data, t).result == Ok(true) <==> CheckRow(t, id, row, false).None?;
      assert !UsernameTaken(t, id, row.username) <==>
        forall other | other in t.rows && other != id :: t.rows[other].username != row.username;
      assert !EmailTaken(t, id, row.email) <==>
        forall other | other in t.rows && other != id :: t.rows[other].email != row.email;
    }
  }

  /**
    A hash longer than its column only by trailing spaces is not refused: the
    column cuts the spaces off, and the user is created with the first 128
    characters as its hash.
   */
  lemma SpacePaddedHashCut(data: map<string, PyValue>, t: Table, hash: string, pad: string)
    requires Valid(t)
    requires CreateInputValid(data)
    requires |CleanRow(data).username| <= UsernameWidth && |CleanRow(data).email| <= EmailWidth
    requires forall id | id in t.rows :: t.rows[id].username != CleanRow(data).username
    requires forall id | id in t.rows :: t.rows[id].email != CleanRow(data).email
    requires data["password_hash"] == PyStr(hash + pad) && |hash| == PasswordHashWidth && AllSpaces(pad)
    ensures var r := CreateUser(data, t);
      && r.result == Ok(Some(t.nextId))
      && t.nextId in r.table.rows && r.table.rows[t.nextId].passwordHash == PyStr(hash)
  {
    var h := hash + pad;
    assert h[PasswordHashWidth..] == pad;
    assert HashFits(PyStr(h));
    assert FitsColumns(CleanRow(data));
    CreateSucceedsIff(data, t);
    assert h[..PasswordHashWidth] == hash;
  }

  /**
    A dict as the hash cannot be sent: `create_user` raises the wrapped
    driver error, nothing is stored and no sequence value is drawn.
   */
  lemma DictHashRaises(data: map<string, PyValue>, t: Table)
    requires CreateInputValid(data) && data["password_hash"].PyDict?
    ensures CreateUser(data, t).result ==
      Err(DatabaseError(ConnectContext + "Error creating user: " + FailureText(CannotAdapt("dict"))))
    ensures CreateUser(data, t).table == t
  {
    var f := CannotAdapt("dict");
    assert CheckRow(t, t.nextId, CleanRow(data), true) == Some(f);
    CreateRaisesCommitError(ByConstraint, data, t);
    assert CreateUser(data, t) == CreateUserWith(ByConstraint, data, t);
    assert !FitsColumns(CleanRow(data));
  }

  /**
    A new value too wide for its column is refused whatever the id, even one
    that no row holds: the statement fails before any row is looked for. A
    new hash the driver cannot adapt is refused before that.
   */
  lemma OverWideChangeRaises(id: int, data: map<string, PyValue>, t: Table)
    requires ValidateChanges(data).Ok? && ValidateChanges(data).value.Some?
    requires ChangeTooWide(ValidateChanges(data).value.value).Some?
    ensures var ch := ValidateChanges(data).value.value;
      && UpdateUser(id, data, t).table == t
      && (ch.passwordHash.Some? && !Sendable(ch.passwordHash.value) ==>
            UpdateUser(id, data, t).result ==
              Err(DatabaseError(ConnectContext + "Error updating user: " + FailureText(CannotAdapt("dict")))))
      && (!(ch.passwordHash.Some? && !Sendable(ch.passwordHash.value)) ==>
            UpdateUser(id, data, t).result ==
              Err(DatabaseError(ConnectContext + "Error updating user: " + FailureText(ValueTooLong(ChangeTooWide(ch).value)))))
  {
    var ch := ValidateChanges(data).value.value;
    assert UpdateUser(id, data, t) == UpdateUserWith(ByConstraint, id, data, t);
    assert !IsIntegrityError(ChangeRefused(ch).value);
  }

  /** Once deleted, an id is gone: deleting it again answers false. */
  lemma DeleteTwiceIsFalse(id: int, t: Table)
    ensures DeleteUser(id, DeleteUser(id, t).table).result == Ok(false)
  {
  }

  // ---------------------------------------------------------------------------
  // The integrity-error classification

  /** A unique-violation message carries the duplicate value inside it. */
  lemma ViolationTextContainsValue(constraint: string, column: string, value: string, sub: string)
    requires Contains(value, sub)
    ensures Contains(FailureText(UniqueViolation(constraint, column, value)), sub)
  {
    var prefix := "duplicate key value violates unique constraint \"" + constraint + "\"\nDETAIL:  Key ("
      + column + ")=(";
    assert FailureText(UniqueViolation(constraint, column, value)) == prefix + value + ") already exists.\n";
    ContainsWithin(prefix, value, ") already exists.\n", sub);
  }

  /** A NOT NULL violation's message lists the failing row, so it carries the row's username. */
  lemma NullHashTextQuotesUsername(id: int, username: string, email: string, sub: string)
    requires |username| <= RowValueWidth && Contains(username, sub)
    ensures Contains(FailureText(NotNullViolation("password_hash", [IntToString(id), username, email, "null"])), sub)
  {
    var values := [IntToString(id), username, email, "null"];
    var head := NotNullHead("password_hash");
    var idText, rest := ClipValue(IntToString(id)), RowDescription([email, "null"]);
    SecondRowValue(values);
    assert FailureText(NotNullViolation("password_hash", values)) == head + RowDescription(values) + ").\n";
    Regroup(head, idText, username, rest, ").\n");
    ContainsWithin(head + idText + ", ", username, ", " + rest + ").\n", sub);
  }

  /** A row description of several values, split around its second value. */
  lemma SecondRowValue(values: seq<string>)
    requires |values| >= 3 && |values[1]| <= RowValueWidth
    ensures RowDescription(values) == ClipValue(values[0]) + ", " + (values[1] + ", " + RowDescription(values[2..]))
  {
    assert values[1..][1..] == values[2..];
    assert values[1..][0] == values[1];
  }

  /** Sequence concatenation regrouped so that `b` stands alone in the middle. */
  lemma Regroup(head: string, a: string, b: string, rest: string, tail: string)
    ensures head + (a + ", " + (b + ", " + rest)) + tail == (head + a + ", ") + b + (", " + rest + tail)
  {
  }

  /**
    As written, a duplicate email whose text contains `user_username_key` is
    reported as a duplicate username, because the test reads the whole message
    and the message quotes the offending value.
   */
  lemma EmailDuplicateMisreported(value: string)
    requires Contains(value, "user_username_key")
    ensures ClassifyByMessage(UniqueViolation("user_email_key", "email", value)) == DuplicateUsernameError
    ensures ClassifyByConstraint(UniqueViolation("user_email_key", "email", value)) == DuplicateEmailError
  {
    ViolationTextContainsValue("user_email_key", "email", value, "user_username_key");
  }

  /** End to end: a new user with a free username and a stored email like that gets the wrong exception. */
  lemma CreateReportsWrongDuplicate(data: map<string, PyValue>, t: Table)
    requires Valid(t)
    requires CreateInputValid(data) && FitsColumns(CleanRow(data))
    requires forall id | id in t.rows :: t.rows[id].username != CleanRow(data).username
    requires exists id :: id in t.rows && t.rows[id].email == CleanRow(data).email
    requires Contains(CleanRow(data).email, "user_username_key")
    ensures CreateUserWith(ByMessage, data, t).result == Err(DuplicateUsernameError)
    ensures CreateUser(data, t).result == Err(DuplicateEmailError)
  {
    var row := CleanRow(data);
    assert Truthy(row.passwordHash);
    assert !(t.nextId in t.rows);
    assert !UsernameTaken(t, t.nextId, row.username);
    assert EmailTaken(t, t.nextId, row.email);
    var f := UniqueViolation("user_email_key", "email", row.email);
    assert CheckRow(t, t.nextId, row, true) == Some(f);
    CreateRaisesCommitError(ByMessage, data, t);
    EmailDuplicateMisreported(row.email);
    assert CommitError(ByMessage, f, "Error creating user: ") == DuplicateUsernameError;
    DuplicateEmailIff(data, t);
  }

  /**
    As written, clearing the password hash of a user whose username contains
    `user_username_key` is reported as a duplicate username, because the NOT
    NULL message lists the whole failing row. Deciding on the constraint
    reports the integrity error instead.
   */
  lemma NullHashMisreported(id: int, t: Table)
    requires id in t.rows
    requires |t.rows[id].username| <= UsernameWidth && |t.rows[id].email| <= EmailWidth
    requires Contains(t.rows[id].username, "user_username_key")
    ensures UpdateUserWith(ByMessage, id, map["password_hash" := PyNone], t).result == Err(DuplicateUsernameError)
    ensures var f := NotNullViolation("password_hash", [IntToString(id), t.rows[id].username, t.rows[id].email, "null"]);
      UpdateUser(id, map["password_hash" := PyNone], t).result ==
        Err(DatabaseError(ConnectContext + "Integrity error: " + FailureText(f)))
    ensures UpdateUserWith(ByMessage, id, map["password_hash" := PyNone], t).table == t
  {
    var data := map["password_hash" := PyNone];
    var ch := Changes(None, None, Some(PyNone));
    assert ValidateChanges(data) == Ok(Some(ch));
    var row := Apply(t.rows[id], ch);
    assert row == Row(t.rows[id].username, t.rows[id].email, PyNone);
    var f := NotNullViolation("password_hash", [IntToString(id), row.username, row.email, "null"]);
    assert CheckRow(t, id, row, false) == Some(f);
    NullHashTextQuotesUsername(id, row.username, row.email, "user_username_key");
    assert ClassifyByMessage(f) == DuplicateUsernameError;
    assert Classify(ByConstraint, f) == DatabaseError("Integrity error: " + FailureText(f));
    assert CommitError(ByConstraint, f, "Error updating user: ") ==
      DatabaseError(ConnectContext + "Integrity error: " + FailureText(f));
  }

  /** A string with clean ends and no upper-case letter is already normalised. */
  lemma NormalFormUnchanged(s: string)
    requires |s| > 0 ==> !IsPySpace(s[0]) && !IsPySpace(s[|s| - 1])
    requires forall k :: 0 <= k < |s| ==> !IsAsciiUpper(s[k])
    ensures Normalise(s) == s
  {
    TrimOfTrimmed(s, IsPySpace);
  }

  /** Any local part, domain and alphabetic label joined by `@` and `.` make a valid email. */
  lemma EmailFromParts(local: string, domain: string, tld: string)
    requires |local| > 0 && AllSatisfy(local, IsLocalChar)
    requires |domain| > 0 && AllSatisfy(domain, IsDomainChar)
    requires |tld| >= 2 && AllSatisfy(tld, IsAsciiLetter)
    ensures IsValidEmail(local + "@" + domain + "." + tld)
  {
    var s := local + "@" + domain + "." + tld;
    var at := |local|;
    var dot := |local| + 1 + |domain|;
    assert s[..at] == local;
    assert s[at + 1..dot] == domain;
    assert s[dot + 1..] == tld;
    assert s[at] == '@' && s[dot] == '.';
    assert 0 < at && at + 1 < dot && dot + 3 <= |s|;
    EmailCheckComplete(s);
  }

  /** The email of the witness below: valid, and quoting the username constraint's name. */
  lemma WitnessEmailAccepted(email: string)
    requires email == "user_username_key" + "@" + "example" + "." + "com"
    ensures IsValidEmail(email)
    ensures Contains(email, "user_username_key")
  {
    assert AllSatisfy("user_username_key", IsLocalChar);
    assert AllSatisfy("example", IsDomainChar);
    assert AllSatisfy("com", IsAsciiLetter);
    EmailFromParts("user_username_key", "example", "com");
    assert email[..17] == "user_username_key";
  }

  lemma WitnessEmailNormal(email: string)
    requires email == "user_username_key" + "@" + "example" + "." + "com"
    ensures Normalise(email) == email
  {
    assert forall k :: 0 <= k < |email| ==> !IsAsciiUpper(email[k]);
    NormalFormUnchanged(email);
  }

  /**
    A concrete case: "ann" holds the email above and "bob" registers with the
    same email. As written the caller is told the username exists.
   */
  lemma WrongDuplicateWitness(email: string)
    requires email == "user_username_key" + "@" + "example" + "." + "com"
    ensures var t := Table(map[1 := Row("ann", email, PyStr("h1"))], 2);
      var data := map["username" := PyStr("bob"), "email" := PyStr(email), "password_hash" := PyStr("h2")];
      && CreateUserWith(ByMessage, data, t).result == Err(DuplicateUsernameError)
      && CreateUser(data, t).result == Err(DuplicateEmailError)
  {
    var t := Table(map[1 := Row("ann", email, PyStr("h1"))], 2);
    var data := map["username" := PyStr("bob"), "email" := PyStr(email), "password_hash" := PyStr("h2")];
    WitnessEmailAccepted(email);
    WitnessEmailNormal(email);
    BobIsNormalUsername();
    assert data["username"] == PyStr("bob") && data["email"] == PyStr(email) && data["password_hash"] == PyStr("h2");
    assert CreateInputValid(data);
    assert CleanRow(data) == Row(Normalise("bob"), Normalise(email), PyStr("h2"));
    assert t.rows[1].email == email;
    CreateReportsWrongDuplicate(data, t);
  }

  /** The witness's new username is valid and already normalised. */
  lemma BobIsNormalUsername()
    ensures IsValidUsername("bob") && Normalise("bob") == "bob"
  {
    NormalFormUnchanged("bob");
  }
}

=== FILE: validation.dfy ===
/**
  Request-parameter validators of the gateway (api-gateway/src/utils/validation.ts).
  Each returns the normalised value or the ValidationError the source throws.
 */
module Validation {
  import opened Wrappers
  import opened Text
  import opened Json
  import opened Errors

  const MaxQueryLength := 100

  /** `validateSearchQuery`: the trimmed query text, 1 to 100 characters. */
  function ValidateSearchQuery(q: JsValue): (r: Result<string, ApiError>)
    ensures r.Ok? <==> q.Str? && 1 <= |JsTrim(q.s)| <= MaxQueryLength
    ensures r.Ok? ==> r.value == JsTrim(q.s)
    ensures r.Err? ==> r.error.ValidationError? && r.error.field == "query" && HasDefaultCode(r.error)
    ensures !Truthy(q) ==> r.Err? && r.error.message == "Query parameter is required"
    ensures Truthy(q) && !q.Str? ==> r.Err? && r.error.message == "Query parameter must be a string"
    ensures q.Str? && |q.s| > 0 && AllSatisfy(q.s, IsJsSpace) ==>
      r.Err? && r.error.message == "Query parameter cannot be empty"
    ensures q.Str? && |JsTrim(q.s)| > MaxQueryLength ==>
      r.Err? && r.error.message == "Query parameter too long (max 100 characters)"
  {
    if !Truthy(q) then Err(NewValidationError("Query parameter is required", "query"))
    else if !q.Str? then Err(NewValidationError("Query parameter must be a string", "query"))
    else
      var trimmed := JsTrim(q.s);
      if |trimmed| == 0 then Err(NewValidationError("Query parameter cannot be empty", "query"))
      else if |trimmed| > MaxQueryLength then
        Err(NewValidationError("Query parameter too long (max 100 characters)", "query"))
      else Ok(trimmed)
  }

  /** An accepted query is a fixed point: validating it again returns it unchanged. */
  lemma ValidatedQueryIsStable(q: JsValue)
    requires ValidateSearchQuery(q).Ok?
    ensures ValidateSearchQuery(Str(ValidateSearchQuery(q).value)) == ValidateSearchQuery(q)
  {
    TrimIdempotent(q.s, IsJsSpace);
  }

  /** The length limit applies after trimming: surrounding whitespace never changes the verdict. */
  lemma QueryPaddingIrrelevant(w1: string, core: string, w2: string)
    requires AllSatisfy(w1, IsJsSpace) && AllSatisfy(w2, IsJsSpace)
    requires |core| > 0
    ensures ValidateSearchQuery(Str(w1 + core + w2)) == ValidateSearchQuery(Str(core))
  {
    TrimIgnoresPadding(w1, core, w2, IsJsSpace);
  }

  // ---------------------------------------------------------------------------
  // Game ids

  /** Reference shape of a UUID: 36 characters, dashes at 8, 13, 18 and 23, hex digits elsewhere. */
  ghost predicate IsUuidText(s: string) {
    && |s| == 36
    && (forall i :: 0 <= i < |s| ==>
          if i == 8 || i == 13 || i == 18 || i == 23 then s[i] == '-' else IsHexDigit(s[i]))
  }

  /** The pattern `[0-9a-f]{g0}-[0-9a-f]{g1}-...` (case-insensitive), read group by group. */
  predicate MatchesHexGroups(s: string, groups: seq<nat>)
    requires |groups| > 0
    decreases |groups|
  {
    var g := groups[0];
    if |groups| == 1 then |s| == g && AllSatisfy(s, IsHexDigit)
    else
      && |s| > g
      && AllSatisfy(s[..g], IsHexDigit)
      && s[g] == '-'
      && MatchesHexGroups(s[g + 1..], groups[1..])
  }

  /** `/^[0-9a-f]{8}-[0-9a-f]{4}-[0-9a-f]{4}-[0-9a-f]{4}-[0-9a-f]{12}$/i`. */
  predicate MatchesUuidPattern(s: string) {
    MatchesHexGroups(s, [8, 4, 4, 4, 12])
  }

  /** The group-by-group pattern accepts exactly the reference UUID shape. */
  lemma UuidPatternIsUuidText(s: string)
    ensures MatchesUuidPattern(s) <==> IsUuidText(s)
  {
    if IsUuidText(s) {
      UuidTextMatchesPattern(s);
    }
    if MatchesUuidPattern(s) {
      PatternMatchIsUuidText(s);
    }
  }

  /** Reading the reference shape group by group: each group is hex and each separator a hyphen. */
  lemma UuidTextMatchesPattern(s: string)
    requires IsUuidText(s)
    ensures MatchesUuidPattern(s)
  {
    var gs: seq<nat> := [8, 4, 4, 4, 12];
    assert AllSatisfy(s[..8], IsHexDigit);
    var s1 := s[9..];
    assert forall k :: 0 <= k < |s1| ==> s1[k] == s[k + 9];
    assert AllSatisfy(s1[..4], IsHexDigit);
    var s2 := s1[5..];
    assert forall k :: 0 <= k < |s2| ==> s2[k] == s[k + 14];
    assert AllSatisfy(s2[..4], IsHexDigit);
    var s3 := s2[5..];
    assert forall k :: 0 <= k < |s3| ==> s3[k] == s[k + 19];
    assert AllSatisfy(s3[..4], IsHexDigit);
    var s4 := s3[5..];
    assert forall k :: 0 <= k < |s4| ==> s4[k] == s[k + 24];
    assert AllSatisfy(s4, IsHexDigit);
    assert MatchesHexGroups(s4, gs[4..]);
    assert MatchesHexGroups(s3, gs[3..]);
    assert MatchesHexGroups(s2, gs[2..]);
    assert MatchesHexGroups(s1, gs[1..]);
    assert MatchesHexGroups(s, gs);
  }

  /** Each position of a pattern match falls in a hex group or on a hyphen. */
  lemma PatternMatchIsUuidText(s: string)
    requires MatchesUuidPattern(s)
    ensures IsUuidText(s)
  {
    var gs: seq<nat> := [8, 4, 4, 4, 12];
    var s1 := s[9..];
    var s2 := s1[5..];
    var s3 := s2[5..];
    var s4 := s3[5..];
    assert MatchesHexGroups(s1, gs[1..]);
    assert MatchesHexGroups(s2, gs[2..]);
    assert MatchesHexGroups(s3, gs[3..]);
    assert MatchesHexGroups(s4, gs[4..]);
    assert |s| == 36;
    forall i | 0 <= i < |s|
      ensures if i == 8 || i == 13 || i == 18 || i == 23 then s[i] == '-' else IsHexDigit(s[i])
    {
      if i < 8 { assert s[i] == s[..8][i]; }
      else if 9 <= i < 13 { assert s[i] == s1[..4][i - 9]; }
      else if i == 13 { assert s[i] == s1[4]; }
      else if 14 <= i < 18 { assert s[i] == s2[..4][i - 14]; }
      else if i == 18 { assert s[i] == s2[4]; }
      else if 19 <= i < 23 { assert s[i] == s3[..4][i - 19]; }
      else if i == 23 { assert s[i] == s3[4]; }
      else if i >= 24 { assert s[i] == s4[i - 24]; }
    }
  }

  /** `validateGameId`: the trimmed id, which must have the UUID shape. */
  function ValidateGameId(id: JsValue): (r: Result<string, ApiError>)
    ensures r.Ok? <==> id.Str? && IsUuidText(JsTrim(id.s))
    ensures r.Ok? ==> r.value == JsTrim(id.s)
    ensures r.Err? ==> r.error.ValidationError? && r.error.field == "id" && HasDefaultCode(r.error)
    ensures !Truthy(id) ==> r.Err? && r.error.message == "Game ID parameter is required"
    ensures Truthy(id) && !id.Str? ==> r.Err? && r.error.message == "Game ID parameter must be a string"
    ensures id.Str? && |id.s| > 0 && AllSatisfy(id.s, IsJsSpace) ==>
      r.Err? && r.error.message == "Game ID parameter cannot be empty"
    ensures id.Str? && |JsTrim(id.s)| > 0 && !IsUuidText(JsTrim(id.s)) ==>
      r.Err? && r.error.message == "Game ID must be a valid UUID format"
  {
    if !Truthy(id) then Err(NewValidationError("Game ID parameter is required", "id"))
    else if !id.Str? then Err(NewValidationError("Game ID parameter must be a string", "id"))
    else
      var trimmed := JsTrim(id.s);
      UuidPatternIsUuidText(trimmed);
      if |trimmed| == 0 then Err(NewValidationError("Game ID parameter cannot be empty", "id"))
      else if !MatchesUuidPattern(trimmed) then Err(NewValidationError("Game ID must be a valid UUID format", "id"))
      else Ok(trimmed)
  }

  // ---------------------------------------------------------------------------
  // Upstream payloads

  /** The `expectedType` argument, defaulting to 'object'. */
  function ExpectedType(expectedType: Option<string>): string {
    expectedType.GetOr("object")
  }

  /**
    `validateResponseData`: any non-null object (arrays included) passes unchanged;
    when an object is expected, anything else raises a plain `Error`.
   */
  function ValidateResponseData(data: JsValue, expectedType: Option<string>): (r: Result<JsValue, Thrown>)
    ensures r.Ok? ==> r.value == data
    ensures r.Err? <==> ExpectedType(expectedType) == "object" && !IsNonNullObject(data)
    ensures r.Err? ==> r.error == Unclassified(ErrorInfo("Error", "Expected object but received " + TypeOf(data)))
  {
    if ExpectedType(expectedType) == "object" && !IsNonNullObject(data) then
      Err(Unclassified(ErrorInfo("Error", "Expected object but received " + TypeOf(data))))
    else Ok(data)
  }
}

=== FILE: web_search.dfy ===
/**
  The web client's search call (web/src/modules/core/utils/gameSearchService.ts):
  the API base chosen from where the code runs, the blank-query short cut, the
  one request sent with the query as typed, and the checks on the answer
  before `results` is handed to the page. Console logging is left out.
 */
module WebSearch {
  import opened Wrappers
  import opened Text
  import opened Json
  import opened Http
  import opened Uri
  import opened Errors
  import opened Validation
  import opened Fetch

  /** Where the code runs: no `window` (server side) or a browser at `hostname`. */
  datatype Host = NoWindow | Browser(hostname: string)

  /** `getApiUrl()`. */
  function GetApiUrl(host: Host): (base: string)
    ensures host.NoWindow? ==> base == "http://api-gateway:8080"
    ensures host.Browser? && host.hostname == "localhost" ==> base == "http://localhost:8080"
    ensures host.Browser? && host.hostname != "localhost" ==> base == ""
  {
    match host
    case NoWindow => "http://api-gateway:8080"
    case Browser(hostname) => if hostname == "localhost" then "http://localhost:8080" else ""
  }

  /** The URL requested for `query`, which is encoded as typed, surrounding spaces included. */
  function SearchRequestUrl(host: Host, query: string): string {
    GetApiUrl(host) + "/api/games/search?query=" + EncodeURIComponent(query)
  }

  /** The one call `searchGames` may make: the URLs fetched and what the promise settles with. */
  datatype ClientCall = ClientCall(fetched: seq<string>, result: Result<JsValue, Thrown>)

  /** The `Error` thrown for an answer outside 200-299. */
  function HttpError(r: Response): Thrown {
    Unclassified(ErrorInfo("Error", "HTTP " + IntToString(r.status) + ": " + r.statusText))
  }

  /** The `Error` thrown when the content type is missing or not JSON; `${null}` renders as "null". */
  function ContentTypeError(contentType: Option<string>): Thrown {
    Unclassified(ErrorInfo("Error", "Expected JSON, got " + contentType.GetOr("null")))
  }

  /** What `response.json()` rejects unparsable text with. */
  const JsonSyntaxError: Thrown := Unclassified(ErrorInfo("SyntaxError", "Unexpected token in JSON"))

  /** `!contentType || !contentType.includes('application/json')`. */
  predicate IsJsonContentType(contentType: Option<string>) {
    contentType.Some? && |contentType.value| > 0 && Contains(contentType.value, "application/json")
  }

  /** What reading `results` off a `null` body throws (V8's wording). */
  const NullResultsError: Thrown := Unclassified(ErrorInfo("TypeError", "Cannot read properties of null (reading 'results')"))

  /**
    `data.results || []`. A JSON body is never `undefined`, so `null` is the
    one body whose property read throws; a number, string or boolean has no
    `results` and gives [].
   */
  function ResultsOrEmpty(data: JsValue): (results: Result<JsValue, Thrown>)
    ensures data.Null? <==> results == Err(NullResultsError)
    ensures results.Err? ==> data.Null?
    ensures !data.Null? && Truthy(GetProperty(data, "results")) ==> results == Ok(GetProperty(data, "results"))
    ensures !data.Null? && !Truthy(GetProperty(data, "results")) ==> results == Ok(Arr([]))
  {
    if data.Null? then Err(NullResultsError)
    else
      var results := GetProperty(data, "results");
      if Truthy(results) then Ok(results) else Ok(Arr([]))
  }

  /** Reading an answer that arrived: status, then content type, then the JSON body. */
  function ReadAnswer(r: Response): (result: Result<JsValue, Thrown>)
    ensures result.Ok? <==>
      IsOk(r) && IsJsonContentType(HeaderGet(r, "content-type")) && r.body.JsonText? && !r.body.value.Null?
    ensures !IsOk(r) ==> result == Err(HttpError(r))
    ensures IsOk(r) && !IsJsonContentType(HeaderGet(r, "content-type")) ==>
      result == Err(ContentTypeError(HeaderGet(r, "content-type")))
    ensures IsOk(r) && IsJsonContentType(HeaderGet(r, "content-type")) && r.body.NotJson? ==>
      result == Err(JsonSyntaxError)
    ensures IsOk(r) && IsJsonContentType(HeaderGet(r, "content-type")) && r.body == JsonText(Null) ==>
      result == Err(NullResultsError)
    ensures result.Ok? ==> Ok(result.value) == ResultsOrEmpty(r.body.value)
  {
    if !IsOk(r) then Err(HttpError(r))
    else
      var contentType := HeaderGet(r, "content-type");
      if !IsJsonContentType(contentType) then Err(ContentTypeError(contentType))
      else
        match r.body
        case NotJson(_) => Err(JsonSyntaxError)
        case JsonText(data) => ResultsOrEmpty(data)
  }

  /** `searchGames(query)`: `outcome` is how the `fetch` call would settle; errors are rethrown as they are. */
  function SearchGames(query: string, host: Host, outcome: FetchOutcome): (c: ClientCall)
    ensures AllSatisfy(query, IsJsSpace) ==> c == ClientCall([], Ok(Arr([])))
    ensures !AllSatisfy(query, IsJsSpace) ==> c.fetched == [SearchRequestUrl(host, query)]
    ensures !AllSatisfy(query, IsJsSpace) && outcome.Rejected? ==> c.result == Err(outcome.thrown)
    ensures !AllSatisfy(query, IsJsSpace) && outcome.Responded? ==> c.result == ReadAnswer(outcome.response)
  {
    if |JsTrim(query)| == 0 then ClientCall([], Ok(Arr([])))
    else
      var url := SearchRequestUrl(host, query);
      match outcome
      case Rejected(thrown) => ClientCall([url], Err(thrown))
      case Responded(response) => ClientCall([url], ReadAnswer(response))
  }

  // ---------------------------------------------------------------------------
  // Properties

  /** The query parameter decodes back to exactly what the user typed. */
  lemma QuerySentAsTyped(host: Host, query: string)
    ensures var prefix := GetApiUrl(host) + "/api/games/search?query=";
      && StartsWith(SearchRequestUrl(host, query), prefix)
      && DecodeURIComponent(SearchRequestUrl(host, query)[|prefix|..]) == Some(query)
  {
    var prefix := GetApiUrl(host) + "/api/games/search?query=";
    var url := SearchRequestUrl(host, query);
    assert url[..|prefix|] == prefix;
    assert url[|prefix|..] == EncodeURIComponent(query);
    DecodeEncode(query);
  }

  /**
    The client and the gateway agree on blank queries: the client sends no
    request exactly for the queries the gateway would reject as empty or missing.
   */
  lemma ClientSkipsExactlyBlankQueries(query: string)
    ensures AllSatisfy(query, IsJsSpace) <==> |JsTrim(query)| == 0
    ensures AllSatisfy(query, IsJsSpace) ==> ValidateSearchQuery(Str(query)).Err?
    ensures !AllSatisfy(query, IsJsSpace) && |JsTrim(query)| <= MaxQueryLength ==>
      ValidateSearchQuery(Str(query)) == Ok(JsTrim(query))
  {
  }

  /**
    An ok JSON answer other than `null` yields the gateway's `results`, or
    `[]` when it is missing or falsy.
   */
  lemma SuccessfulSearchRelaysResults(query: string, host: Host, r: Response, data: JsValue)
    requires !AllSatisfy(query, IsJsSpace)
    requires IsOk(r) && HeaderGet(r, "content-type") == Some("application/json") && r.body == JsonText(data)
    requires !data.Null?
    ensures var results := GetProperty(data, "results");
      SearchGames(query, host, Responded(r)).result == Ok(if Truthy(results) then results else Arr([]))
  {
    assert StartsWith("application/json", "application/json");
  }

  /** An ok JSON answer whose body is `null` rejects with the TypeError of reading `results` off it. */
  lemma NullBodyRejects(query: string, host: Host, r: Response)
    requires !AllSatisfy(query, IsJsSpace)
    requires IsOk(r) && HeaderGet(r, "content-type") == Some("application/json") && r.body == JsonText(Null)
    ensures SearchGames(query, host, Responded(r)).result == Err(NullResultsError)
  {
    assert StartsWith("application/json", "application/json");
  }

  /** An answer outside 200-299 rejects with `HTTP <status>: <statusText>`. */
  lemma HttpFailureMessage(query: string, host: Host, r: Response)
    requires !AllSatisfy(query, IsJsSpace) && !IsOk(r)
    ensures SearchGames(query, host, Responded(r)).result ==
      Err(Unclassified(ErrorInfo("Error", "HTTP " + IntToString(r.status) + ": " + r.statusText)))
  {
  }

  /** An ok answer without a content type rejects with `Expected JSON, got null`, before the body is read. */
  lemma MissingContentTypeMessage(query: string, host: Host, r: Response)
    requires !AllSatisfy(query, IsJsSpace) && IsOk(r) && "content-type" !in r.headers
    ensures SearchGames(query, host, Responded(r)).result ==
      Err(Unclassified(ErrorInfo("Error", "Expected JSON, got null")))
  {
    assert HeaderGet(r, "content-type") == None;
    assert "Expected JSON, got " + "null" == "Expected JSON, got null";
  }

  /** A JSON content type over a body that does not parse rejects with the parser's SyntaxError. */
  lemma UnparsableBodyRejects(query: string, host: Host, r: Response)
    requires !AllSatisfy(query, IsJsSpace) && IsOk(r)
    requires IsJsonContentType(HeaderGet(r, "content-type")) && r.body.NotJson?
    ensures SearchGames(query, host, Responded(r)).result == Err(JsonSyntaxError)
  {
  }

  /** Surrounding spaces are percent-encoded, not dropped: the gateway receives them and trims them itself. */
  lemma PaddingIsSent(host: Host, core: string)
    requires AllSatisfy(core, IsUnreserved)
    ensures SearchRequestUrl(host, " " + core + " ") ==
      GetApiUrl(host) + "/api/games/search?query=" + "%20" + core + "%20"
  {
    EncodeSpace();
    EncodeConcat(" ", core);
    EncodeConcat(" " + core, " ");
  }
}

=== FILE: wrappers.dfy ===
/** Failure-compatible Option and Result types shared by every component. */
module Wrappers {

  /** A value that may be absent: JavaScript `undefined`/`null`, Python `None`. */
  datatype Option<+T> = None | Some(value: T) {

    predicate IsFailure() {
      None?
    }

    function PropagateFailure<U>(): Option<U>
      requires None?
    {
      None
    }

    function Extract(): T
      requires Some?
    {
      value
    }

    function GetOr(default: T): T {
      match this
      case Some(v) => v
      case None => default
    }
  }

  /** Either a computed value or the thrown/raised failure that ended the computation. */
  datatype Result<+R, +E> = Ok(value: R) | Err(error: E) {

    predicate IsFailure() {
      Err?
    }

    function PropagateFailure<U>(): Result<U, E>
      requires Err?
    {
      Err(error)
    }

    function Extract(): R
      requires Ok?
    {
      value
    }
  }
}
